=== FILE: README.md ===
# old.bsky client core in Dafny

This project models the data handling under the React code of old.bsky, a
web client for the Bluesky social protocol. It covers:

- **Reply trees.** The thread view's reply tree is sorted by like count
  (stably) and annotated with depths. Fetched replies are spliced in by
  URI. The ancestor chain is rebuilt from the parent links. Replies are
  collapsed and expanded, and auto-expansion stops two levels down. Each
  nesting level reveals replies page by page.
- **Feed pages.** A reply is replaced by its top-level ancestor. Posts
  already shown since the last reset are dropped. Batches accumulate until a
  page of 20 is full or the feed ends. Pages are cached by number, and each
  page's cursor chains to the next. The older feed component builds each
  page from one batch and de-duplicates within that batch only.
- **Per-post state machines.** The shared interaction store merges partial
  updates and seeds each post once. Likes and reposts toggle and change
  state only after the protocol call succeeds. The comment box exists in
  four slightly different local versions.
- **Text and embeds.** Rich-text facets address the text by UTF-8 byte
  offsets (RFC 3629), and the text is cut into plain runs, mentions and
  links. Cards are tagged from the embed's `$type` and from link facets.
  The quoted author shown on a card is derived here too, and so are the
  post and profile URLs.

The protocol is a parameter everywhere:
- `getPostThread` is a function `Uri -> Response`.
- `getTimeline`/`getFeed` and `getPosts` are the fields of `Feed.Network`.
- The like/repost writes are a function `Mutation -> CallResult`.

Every operation is a pure function from the old state to the new one. The
accumulate loop of a feed page is also written as a method with a loop,
proved equal to the functional definition.

Modules, one per source concern:

| module | file | models |
|---|---|---|
| `Wrappers` | wrappers.dfy | optional values, first-match search |
| `Sorting` | sorting.dfy | the stable sort both client sorts are instances of |
| `Types` | types.dfy | the protocol data the code reads |
| `Post` | post.dfy | src/lib/post.ts |
| `Thread` | thread.dfy | src/hooks/use-thread.ts |
| `ThreadView` | thread_view.dfy | src/components/thread/thread.tsx |
| `Feed` | feed.dfy | src/hooks/use-feed.ts (and the same pipeline in src/components/feed/feed.tsx) |
| `FeedView` | feed_view.dfy | src/components/feed/feed.tsx |
| `LegacyFeed` | legacy_feed.dfy | src/components/feed.tsx |
| `Interactions` | interactions.dfy | post-interactions-provider.tsx, use-post-interactions.ts |
| `CommentBox` | comment_box.dfy | use-comment-state.ts, thread-reply.tsx, thread-post.tsx, post-card/index.tsx |
| `LocalToggles` | local_toggles.dfy | the component-local repost/like buttons |
| `Utf` | utf.dfy | UTF-8 and UTF-16 codecs behind `byteToStringIndex` |
| `RichText` | rich_text.dfy | src/components/post-card/use-rich-text.tsx |
| `PostTypes` | post_types.dfy | src/components/feed/post-card/use-post-types.ts |
| `PostMeta` | post_meta.dfy | src/components/post-card/post-meta.tsx |

Source and comment disagree in one place:
- src/components/thread/thread-post.tsx:63 says the posted flag is reset
  "when opening".
- The expression on that line resets it when the box closes, as
  thread-reply.tsx:73 does.
- The model follows the code: `CommentBox.ResetOnClose`.

## Model

| member | source | states |
|---|---|---|
| Sorting.StableSort | src/lib/post.ts:26-27 | The result is a permutation of the input, ordered by key. |
| Sorting.StableSortStable | src/lib/post.ts:26-27 | For every key, the elements with that key keep their input order (ECMAScript 2019 stable sort). |
| Sorting.InsertWithKey | src/lib/post.ts:26-27 | Inserting an element puts it first among the elements of its key and leaves the other keys' elements as they were. |
| Sorting.SortedUnique | src/lib/post.ts:26-27 | Two key-sorted sequences with the same per-key subsequences are equal, so a stable sort has exactly one possible result. |
| Sorting.SortIdempotent | src/lib/post.ts:26-27 | Sorting a sorted result again returns it unchanged. |
| Post.ParentUri | src/lib/post.ts:3-11 | Yields a parent URI iff the record is an object with a `reply` key whose `parent.uri` is a string, and that URI is the record's. |
| Post.LastSegment | src/lib/post.ts:15 | The result is a suffix of the URI that contains no `/`, and it is preceded by a `/` unless it is the whole URI. |
| Post.LastSegmentAfterSlash | src/lib/post.ts:15 | Whatever precedes the last `/`, the segment after it is what `pop` returns. |
| Post.ProfileUrl | src/lib/post.ts:19-21 | The URL is the profile prefix followed by exactly the handle (`getProfileUrl` of post-meta.tsx:10-11 is the same). |
| Post.PostUrlExtendsProfile | src/lib/post.ts:13-17 | The post URL starts with the author's profile URL. |
| Post.PostUrlKeepsRkey | src/lib/post.ts:13-17 | The last segment of the post URL is the last segment (rkey) of the post's URI. |
| Post.SortRepliesByLikes | src/lib/post.ts:23-29 | The result is a permutation of the replies, by non-increasing like count with a missing count read as 0, and replies with equal counts keep their order. |
| Post.SortRepliesIdempotent | src/lib/post.ts:23-29 | Sorting sorted replies again changes nothing, so use-thread's double sort is harmless. |
| Post.SortedRepliesUnchanged | src/lib/post.ts:26-27 | Replies already in non-increasing like order are returned as they are. |
| Thread.Ancestors | src/hooks/use-thread.ts:186-190 | Ancestors come oldest first with the immediate parent last, and each carries no reason. The chain is empty when the parent is not a thread-view post. |
| Thread.CollectParents | src/hooks/use-thread.ts:181-190 | The `unshift` loop over the parent links yields exactly `Ancestors`. |
| Thread.FetchedReplies | src/hooks/use-thread.ts:102-107 | Replies are delivered iff the response is successful, is a thread-view post, has a replies array and every entry in it is a thread-view post. They are then that array's nodes, in order. |
| Thread.EntryNodesAll | src/hooks/use-thread.ts:105-106 | When every entry is a thread-view post, the node list has one node per entry, at the same position. |
| Thread.UpdateReplies | src/hooks/use-thread.ts:50-73 | Keeps every list's length and order and every node's post and depth. Each node keyed `parentUri` gets the sorted new replies, or loses its replies. With that node's subtree pruned, nothing else changes. If the URI is absent the forest is unchanged. |
| Thread.PresortedSpliceSame | src/hooks/use-thread.ts:108-114 | Passing replies that are already sorted gives the same tree as passing them unsorted. |
| Thread.AssignDepth | src/hooks/use-thread.ts:75-86 | Top-level nodes get the start depth and every child its parent's depth plus one. Shape and posts are unchanged, as the depth-erased forest shows. |
| Thread.AssignDepthUnique | src/hooks/use-thread.ts:76-82 | Depth annotation is the only forest with the input's shape and posts whose depths start at `d` and grow by one per level. |
| Thread.ToggleReplies | src/hooks/use-thread.ts:156-166 | Membership of exactly the given URI flips. |
| Thread.ToggleTwice | src/hooks/use-thread.ts:156-166 | Toggling the same URI twice restores the collapsed set. |
| Thread.AutoExpand | src/hooks/use-thread.ts:88-126 | The expanded set only grows, and from depth 2 on nothing happens. |
| Thread.AutoExpandMarksTargets | src/hooks/use-thread.ts:90-116 | Auto-expansion marks exactly these URIs: the nodes with replies at this level, then recursively one level deeper on what each fetch returned, below the depth bound. |
| Thread.TargetsNeedReplies | src/hooks/use-thread.ts:93-94 | A level where no node has replies marks nothing. |
| Thread.ProcessedReplies | src/hooks/use-thread.ts:193-194 | Sorting fails iff there are two or more replies and one of them is a blocked or not-found entry without a post. Otherwise the top level is depth-annotated from 0 and ordered by non-increasing likes, and, depths aside, it is the stable like-count sort of the fetched replies. |
| Thread.ProcessedTiesInOrder | src/hooks/use-thread.ts:194 | Replies with equal like counts keep the server's order: for each count, the loaded top level lists those replies exactly as fetched, depths aside. |
| Thread.LoadThread | src/hooks/use-thread.ts:168-213 | Loading always ends. A throwing fetch sets the load error. A successful thread-view answer whose replies cannot be sorted (a postless entry among two or more) also sets "Failed to load thread". An unsuccessful or non-thread answer only ends loading and clears the error. Otherwise success clears the collapsed set and error, returns to page 1, installs the ancestors and keeps every expanded URI. |
| Thread.LoadMoreReplies | src/hooks/use-thread.ts:215-217 | Only the reply page changes, and it goes up by one. |
| Thread.HandleExpandReplies | src/hooks/use-thread.ts:128-154 | A throwing fetch sets the reply error. A thread-view answer marks the URI expanded, and valid replies are spliced in with `UpdateReplies`. Collapse state, ancestors and page are untouched, and so are the error and loading flag unless the fetch throws. An unsuccessful or non-thread answer changes nothing. |
| ThreadView.RenderReplies | src/components/thread/thread.tsx:38-81 | Nothing renders for an absent or empty level. Otherwise the first `page * 20` replies show, each showing its URI and depth. `hasMoreReplies` holds iff it has replies, and `isExpanded` iff it is not collapsed. Children show iff it is open and has replies. "load more" shows iff replies stay hidden. |
| ThreadView.RevealGrows | src/components/thread/thread.tsx:41 | Turning the page only appends replies to what a level shows. |
| ThreadView.LastPageShowsAll | src/components/thread/thread.tsx:69-78 | Once the page covers a level, every reply shows in order and the button is gone. |
| ThreadView.OnExpand | src/components/thread/thread.tsx:55-63 | An expander click fetches iff the node is neither collapsed nor already expanded, and toggles otherwise. |
| ThreadView.Click | src/components/thread/thread.tsx:55-63 | A collapsed node is re-opened, an expanded open node is collapsed, and any other node goes through `HandleExpandReplies`. |
| ThreadView.ClickTwiceRestores | src/components/thread/thread.tsx:55-63 | On an expanded open node two clicks collapse, re-open and restore the whole state. |
| ThreadView.FirstClickThenCollapse | src/hooks/use-thread.ts:138-139 | The first click fetches, and when the answer is a thread the node becomes expanded and stays open, so the second click collapses it. |
| Feed.ParentOf | src/hooks/use-feed.ts:40-46 | A lookup yields a parent iff the answer succeeded and is not empty. |
| Feed.Climb | src/hooks/use-feed.ts:39-60 | A resolved post is no longer a reply with a non-empty parent URI, and any ancestor found carries the original item's reason. An item that is not a reply is returned itself. |
| Feed.TopLevelPost | src/hooks/use-feed.ts:29-69 | The result is not a reply with a non-empty parent URI, and it carries the item's reason. A non-reply item is returned as is. A failed or empty first lookup gives null. |
| Feed.ClimbFindsAncestor | src/hooks/use-feed.ts:39-58 | A resolved post is the k-th ancestor of the item through the lookup, for some k within the fuel. |
| Feed.ClimbReachesTop | src/hooks/use-feed.ts:39-62 | Conversely, when the first k ancestors are replies and the k-th is not, enough fuel resolves to exactly that ancestor. |
| Feed.ClimbFuelMonotone | src/hooks/use-feed.ts:39-60 | More lookups never change a resolution that succeeded, so the fuel bound only cuts off endless chains. |
| Feed.Resolve | src/hooks/use-feed.ts:124-128 | Items that are not replies pass through. A resolved item is not a reply with a non-empty parent URI, and it keeps its reason. |
| Feed.SomesMembers | src/hooks/use-feed.ts:133-134 | The resolved items are exactly the non-null entries of the batch. |
| Feed.ResolveAllInOrder | src/hooks/use-feed.ts:121-131 | Each batch item is resolved in place, keeping the batch order. |
| Feed.AdmitSound | src/hooks/use-feed.ts:133-141 | After dropping unresolved items, exactly the URIs not yet seen are admitted, each once, every one from the batch. The seen set grows by every resolved URI. |
| Feed.Take | src/hooks/use-feed.ts:147 | The page is a prefix of the accumulated posts: all of them when there are no more than 20, otherwise exactly the first 20. |
| Feed.GatherGrowsSeen | src/hooks/use-feed.ts:133-141 | Across the whole loop the seen set only grows. |
| Feed.GatherFresh | src/hooks/use-feed.ts:101-147 | From a running state with no URI twice and all URIs seen, a page has at most 20 posts, none twice, all seen, and none seen before the load unless it was already accumulated. |
| Feed.GatherLeads | src/hooks/use-feed.ts:139-147 | The posts accumulated so far, cut at 20, lead the page. |
| Feed.GatherShortEnds | src/hooks/use-feed.ts:101-147 | A page of fewer than 20 posts means the batch at the page's cursor came back without a cursor. |
| Feed.GatherCursor | src/hooks/use-feed.ts:117-147 | A page's cursor is the one the load started from or a truthy one a batch returned. |
| Feed.GatherSound | src/hooks/use-feed.ts:101-147 | From an empty start, the seen set only grows. A page has at most 20 posts, none twice, all seen and none seen before the load. A short page means the feed ended. The cursor is the starting one or a truthy batch cursor. |
| Feed.GatherStep | src/hooks/use-feed.ts:117-145 | A batch with a cursor is admitted and the loop continues from that cursor. |
| Feed.GatherExits | src/hooks/use-feed.ts:101-147 | The ways out of the loop: a full page, a failed call and a batch without a cursor, plus spent fuel. |
| Feed.Turn | src/hooks/use-feed.ts:121-145 | One pass of the loop body keeps the outcome of the whole load, uses up fuel and moves to a truthy cursor. |
| Feed.Accumulate | src/hooks/use-feed.ts:97-147 | The while loop with `break` computes exactly the functional page load. |
| Feed.SurplusMarkedSeen | src/hooks/use-feed.ts:139-147 | When one batch brings more than 20 fresh posts, the page takes the first 20 and the rest are marked seen anyway, so no later page shows them. |
| Feed.ShortPageThenEmpty | src/hooks/use-feed.ts:117-119 | A batch without a cursor is discarded, so loading from a cursor whose batch has none gives an empty page with that cursor. |
| Feed.PrevCursor | src/hooks/use-feed.ts:85-87 | A page starts from the stored previous page's cursor, or from none. |
| Feed.LoadPage | src/hooks/use-feed.ts:71-166 | A stored page is only switched to. For a new page, a completed gather stores its posts and cursor under the page number, makes it current, clears the error and takes the gather's seen set. A failed gather sets the error and leaves pages and current page alone. A stalled one stays loading. The seen set never shrinks. |
| Feed.NewPageSound | src/hooks/use-feed.ts:97-156 | A newly stored page has at most 20 posts, none twice and none already seen. It is short only when the feed ended at its cursor. Its cursor is the previous page's or a truthy batch cursor. |
| Feed.ResetFeed | src/hooks/use-feed.ts:168-172 | The reset empties the pages and the seen set and goes to page 1. |
| Feed.ResetEstablishes | src/hooks/use-feed.ts:168-172 | After a reset the cache invariant holds: pages of at most 20, no URI twice, all stored URIs seen. |
| Feed.LoadPagePreserves | src/hooks/use-feed.ts:133-156 | Loading any page keeps that invariant, so no URI appears on two pages since the last reset. |
| FeedView.ResetAndLoad | src/components/feed/feed.tsx:204-213 | After the feed-type effect only page 1 can be stored. A completed gather from no cursor over an empty seen set is stored as page 1. Once it is, it is current, there is no error and the invariant holds. On failure the error is set and no page is stored. |
| FeedView.ResetForgetsHistory | src/components/feed/feed.tsx:204-213 | The effect's outcome depends only on the network and not on the previous state. |
| FeedView.ResetIsContiguous | src/components/feed/feed.tsx:204-213 | After the effect the stored pages are numbered from 1 without gaps. |
| FeedView.StepKeepsContiguous | src/components/feed/feed.tsx:253-269 | Every enabled prev, next, retry or feed change keeps the pages gap-free and the current page stored. |
| FeedView.PrevIsCacheHit | src/components/feed/feed.tsx:98-112 | "prev" never fetches, because the previous page is always stored. |
| FeedView.StepKeepsFeedInv | src/components/feed/feed.tsx:153-182 | No event ever shows a URI on two pages or twice on one. |
| FeedView.RetryAfterFailedNext | src/components/feed/feed.tsx:230 | Retry reloads the current page. After a failed "next" that page is stored, so retry only clears the error. |
| LegacyFeed.FindIndex | src/components/feed.tsx:144 | The first position holding the URI, or -1 exactly when none does. |
| LegacyFeed.KeepFirstSnoc | src/components/feed.tsx:142-145 | Appending an item keeps it iff its URI is new. |
| LegacyFeed.KeepFirstSound | src/components/feed.tsx:142-145 | The within-batch filter keeps every URI of the batch exactly once. |
| LegacyFeed.Unseen | src/hooks/use-feed.ts:135-141 | The URIs kept are exactly those of the items minus the seen ones. |
| LegacyFeed.AdmitIsKeepFirst | src/hooks/use-feed.ts:133-141 | The newer seen-set filter is first-occurrence de-duplication of the resolved items not yet seen. |
| LegacyFeed.AdmitFreshIsKeepFirst | src/components/feed.tsx:137-145 | On an empty seen set both de-duplications agree. |
| LegacyFeed.PageCursor | src/components/feed.tsx:113 | Page 1 is fetched without a cursor, and later pages from the stored previous page's cursor. |
| LegacyFeed.BatchPage | src/components/feed.tsx:127-146 | A page is the first min(n, 20) posts of the de-duplicated resolved batch of n posts, with no URI twice. When n is at most 20 it holds every resolved URI. |
| LegacyFeed.LoadPage | src/components/feed.tsx:82-165 | A stored page is only switched to. A new page is fetched from the previous page's cursor. On success its batch page is stored with the response's cursor, made current and the error cleared. On failure the error is set and pages and page are kept. Loading always ends. |
| LegacyFeed.LoadPagePreservesPages | src/components/feed.tsx:137-155 | Every load keeps each stored page within 20 posts and free of repeated URIs. |
| LegacyFeed.BatchPageIsFreshAdmit | src/components/feed.tsx:127-146 | A page of this component equals the newer pipeline's admission of the same batch from an empty seen set, cut at 20. |
| LegacyFeed.ResetAndLoad | src/components/feed.tsx:171-178 | After the reset effect only page 1 can be stored. A successful first fetch is stored as the current page 1; a failed one sets the error and stores nothing. |
| LegacyFeed.ResetAndLoadSound | src/components/feed.tsx:171-178 | After the reset effect every stored page is within 20 posts and free of repeats. |
| LegacyFeed.PagesMayRepeat | src/components/feed.tsx:137-153 | Without a seen set, a post in the batches of pages 1 and 2 shows on both pages. |
| Interactions.Apply | src/components/context/post-interactions-provider.tsx:68 | Every supplied key wins, including one supplied as undefined, and every other field is kept. |
| Interactions.MergeLaws | src/components/context/post-interactions-provider.tsx:68 | An empty update changes nothing, two merges are one merge of the combined update, and a merge repeated is a merge once. |
| Interactions.Get | src/components/context/post-interactions-provider.tsx:75-90 | Returns the stored entry, or the default: flags false, counts 0, not initialized. |
| Interactions.Update | src/components/context/post-interactions-provider.tsx:55-73 | The entry (or default) is merged with the update. The key set gains the URI and loses nothing, and other entries are untouched. |
| Interactions.UpdatesCommute | src/components/context/post-interactions-provider.tsx:57-69 | Updates of two different posts commute. |
| Interactions.SeedPatch | src/hooks/use-post-interactions.ts:14-25 | Seeding yields these values: liked/reposted iff the viewer's record is truthy; counts are the post's with missing as 0; the comment count is the reply count; the like and repost record URIs are the viewer's; not commented; initialized. |
| Interactions.SeededRecordIsDeleted | src/hooks/use-post-interactions.ts:14-25 | A like or repost made before the session is undone through the seeded record: after seeding, the first toggle deletes the viewer's record URI. |
| Interactions.Seed | src/hooks/use-post-interactions.ts:12-26 | An uninitialized entry is seeded and an initialized one is left alone, and afterwards the entry is initialized. |
| Interactions.SeedOnce | src/hooks/use-post-interactions.ts:13-26 | Seeding again, even from a copy of the post with other counts, changes nothing. |
| Interactions.HandleToggle | src/hooks/use-post-interactions.ts:37-85 | Off: create, then after success on, count +1, handle = returned URI. On with a truthy handle: delete that record, then after success off, count -1, handle cleared. On without one: nothing. Failure changes nothing, and other posts and fields are untouched. |
| Interactions.ToggleRoundTrip | src/hooks/use-post-interactions.ts:40-56 | A like (or repost) then a successful unlike restores the flag and count, leaves no handle and touches nothing else. |
| Interactions.EmptyHandleIsStuck | src/hooks/use-post-interactions.ts:48 | A post marked liked whose stored handle is empty can never be unliked by the hook. |
| CommentBox.Initial | src/hooks/use-comment-state.ts:5-8 | The box starts closed with both flags clear and the count at the post's reply count, missing as 0. |
| CommentBox.Toggle | src/components/post-card/index.tsx:33-38 | A click flips visibility and keeps count and `hasCommented`. The card clears the posted flag when opening. The thread views (rule `ResetOnClose`, thread-reply.tsx:69-75) clear it when closing. |
| CommentBox.HookToggleAsWritten | src/hooks/use-comment-state.ts:10-15 | The hook's click flips visibility, keeps count and `hasCommented`, and sets the posted flag to the old visibility. |
| CommentBox.HookOpenCloseMarksPosted | src/hooks/use-comment-state.ts:10-15 | Opening and closing the hook's box from the start leaves `isPosted` set with no comment posted, while the feed card's button stays unhighlighted. |
| CommentBox.PostComment | src/hooks/use-comment-state.ts:17-22 | Posting counts one more, sets both flags and closes the box. |
| CommentBox.Cancel | src/components/thread/thread-reply.tsx:167-172 | Cancel closes the box and changes nothing else. |
| CommentBox.RunTally | src/hooks/use-comment-state.ts:17-22 | Over any run of events, the count grows by exactly the number of posts, and `hasCommented` holds iff it did before or something was posted. |
| CommentBox.RunStaysHonest | src/components/thread/thread-reply.tsx:69-85 | Under both local rules the posted flag never holds without `hasCommented`. |
| CommentBox.HighlightIffPosted | src/components/post-card/index.tsx:33-51 | From the initial state, under both local rules the button is highlighted iff a comment was posted. |
| CommentBox.HookRunTally | src/hooks/use-comment-state.ts:10-22 | Under the hook as written, the count grows by exactly the number of posts, and `hasCommented` holds iff it did before or something was posted. |
| CommentBox.FeedCardHighlightIffPosted | src/components/feed/post-card/post-actions.tsx:36 | The feed card highlights its comment button on `hasCommented` alone, so from a fresh box it is highlighted iff a comment was posted. |
| CommentBox.Noun | src/components/thread/thread-reply.tsx:138 | The label is singular iff the count is 1 (same rule at thread-reply.tsx:149, thread-post.tsx:96,107 and post-actions.tsx:67,78). |
| LocalToggles.RepostInit | src/components/thread/thread-reply.tsx:30-36 | Reposted iff the viewer's repost is defined, an empty string included. The count is the repost count (missing as 0). The handle is that repost. |
| LocalToggles.HandleLocal | src/components/thread/thread-reply.tsx:44-61 | The same transitions as the store toggle, on local state: create/delete calls, ±1 after success, handle stored and cleared, no call without a truthy handle, unchanged on failure. |
| LocalToggles.LocalMatchesStore | src/components/post-card/post-actions.tsx:30-47 | A local repost button and the shared store's toggle, started alike, issue the same call and end alike. |
| LocalToggles.CardInitAsWritten | src/components/post-card.tsx:23-27 | The older card as written starts both buttons off whatever the viewer did. Counts and the reply count are missing-as-0. |
| LocalToggles.CardInit | src/components/post-card.tsx:23-27 | Read from the post's viewer state, the like and repost buttons start on iff the viewer's records exist. The repost button equals `RepostInit`. |
| LocalToggles.LikedPostStartsUnliked | src/components/post-card.tsx:23-33 | A post the viewer liked starts unliked on the older card, and its first click sends another like. |
| LocalToggles.CardToggleAsWritten | src/components/post-card.tsx:29-61 | Off: create. On: delete by the post's URI. After success the flag flips and the count moves by one; failure changes nothing. |
| LocalToggles.UnlikeTargetsPost | src/components/post-card.tsx:37 | After a like, the older card's unlike deletes the post's URI, never the created record. The local toggle deletes the created record. |
| Utf.EncodeChar | src/components/post-card/use-rich-text.tsx:18 | A character's UTF-8 form has the RFC 3629 length: a lead byte, then continuation bytes. |
| Utf.DecodeChar | src/components/post-card/use-rich-text.tsx:19 | A decoded character consumed as many bytes as its UTF-8 length, within the input. |
| Utf.DecodeEncode | src/components/post-card/use-rich-text.tsx:18-19 | Strict decoding undoes encoding. |
| Utf.EncodeDecode | src/components/post-card/use-rich-text.tsx:18-19 | Encoding undoes strict decoding: well-formed bytes have exactly one decoding. |
| Utf.EncodeConcat | src/components/post-card/use-rich-text.tsx:18 | Encoding distributes over concatenation. |
| Utf.EncodeChar16 | src/components/post-card/use-rich-text.tsx:20 | A character is one UTF-16 unit iff it is below U+10000, and two units otherwise. |
| Utf.Utf16Concat | src/components/post-card/use-rich-text.tsx:20 | UTF-16 encoding distributes over concatenation. |
| Utf.ByteToStringIndex | src/components/post-card/use-rich-text.tsx:17-21 | The intended string index never exceeds the text's UTF-16 length. |
| Utf.ByteToStringIndexAsWritten | src/components/post-card/use-rich-text.tsx:14-21 | The source's index, with the decoder dropping a leading U+FEFF, equals the intended one on every text not starting with U+FEFF, and is at most one below it otherwise. |
| Utf.BoundaryIndexAsWritten | src/components/post-card/use-rich-text.tsx:14-21 | At a character boundary the source's index is the UTF-16 length of the characters before it, less one when the text starts with U+FEFF. |
| Utf.BomIndexNotMonotone | src/components/post-card/use-rich-text.tsx:14-21 | On text starting with U+FEFF the source's index is 1 at byte 2 and 0 at byte 3. |
| Utf.BoundaryIndex | src/components/post-card/use-rich-text.tsx:17-21 | At a character boundary, the byte prefix is the encoding of the first k characters and decodes to them. The index is their UTF-16 length. |
| Utf.IndexMonotone | src/components/post-card/use-rich-text.tsx:17-21 | More bytes never give a smaller index. |
| Utf.AsciiIdentity | src/components/post-card/use-rich-text.tsx:17-21 | On ASCII text a byte offset is the string offset, clamped to the length. |
| RichText.Slice | src/components/post-card/use-rich-text.tsx:35 | In-range bounds give that sub-sequence. Empty or out-of-range bounds give nothing. |
| RichText.FacetPiece | src/components/post-card/use-rich-text.tsx:38-80 | A facet is a mention iff it has a mention feature, else a link iff it has a link feature, else plain. It carries the first such feature's did or uri and the facet's text. |
| RichText.SortFacets | src/components/post-card/use-rich-text.tsx:23-25 | The sorted copy is a permutation of the facets in non-decreasing start byte. It is stable: facets with the same start keep their relative order. |
| RichText.Render | src/components/post-card/use-rich-text.tsx:5-12 | The bare text is returned iff there are no facets. |
| RichText.WalkPieces | src/components/post-card/use-rich-text.tsx:30-87 | The pieces from `lastIndex` on are, at the facet positions and in order, each facet's own piece over its own stretch of text. Every other piece is a non-empty plain run: one before a facet iff it starts after `lastIndex`, and one at the end iff `lastIndex` is short of the end. |
| RichText.RenderPieces | src/components/post-card/use-rich-text.tsx:5-89 | With facets, the rendering is the walk over the stably sorted facets: each facet's own piece in sorted order, with non-empty plain runs between and after. |
| RichText.WalkCovers | src/components/post-card/use-rich-text.tsx:30-87 | For chained facets, the pieces from `lastIndex` on show exactly the text from `lastIndex` on. |
| RichText.RenderRoundTrip | src/components/post-card/use-rich-text.tsx:5-89 | When the sorted facets do not overlap, the rendered pieces put back together are the whole text. Offsets past the end or inside a character are allowed. |
| RichText.OverlapRepeats | src/components/post-card/use-rich-text.tsx:30-87 | Two facets over the whole text show it twice, so the round trip needs non-overlapping facets. |
| Wrappers.Find | src/components/post-card/use-rich-text.tsx:41-43 | `find` yields a value iff some element matches, and then the first match. |
| PostTypes.ContainsIgnoringCase | src/components/feed/post-card/use-post-types.ts:80 | Holds iff the pattern occurs somewhere in the string, ignoring ASCII case. |
| PostTypes.ExternalKind | src/components/feed/post-card/use-post-types.ts:79-96 | youtube iff the URI matches the YouTube pattern; spotify iff not youtube and it matches `spotify.com`; embed otherwise. |
| PostTypes.QuoteTags | src/components/feed/post-card/use-post-types.ts:19-42 | One quote tag iff the record embeds a record and the view embed has a truthy author handle. It links to that handle's post page for the quoted record's URI. |
| PostTypes.MediaTags | src/components/feed/post-card/use-post-types.ts:44-58 | One image (or video) tag iff the embed type matches. It links to the post's own page. |
| PostTypes.LinkTags | src/components/feed/post-card/use-post-types.ts:61-74 | One link tag iff some facet has a link feature. It carries the first such facet's first link URI. |
| PostTypes.ExternalTags | src/components/feed/post-card/use-post-types.ts:77-97 | One tag iff an external embed has a non-empty URI. It is classified by `ExternalKind` and carries that URI. |
| PostTypes.Classify | src/components/feed/post-card/use-post-types.ts:8-100 | At most two tags, in strictly increasing push order (quote, image, video, link, external). |
| PostTypes.EmbedChecksExclusive | src/components/feed/post-card/use-post-types.ts:19-97 | The quote, image, video and external checks are mutually exclusive: at most one of them yields a tag. |
| PostTypes.EmbedTagIsChecks | src/components/feed/post-card/use-post-types.ts:12-97 | Dispatching once on the embed's `$type` gives the same tags as running the four embed checks in turn. |
| PostTypes.EmbedTag | src/components/feed/post-card/use-post-types.ts:12-16 | Dispatching on the embed's `$type` gives at most one tag, and never a link tag. |
| PostTypes.ClassifyAgrees | src/components/feed/post-card/use-post-types.ts:12-16 | Up to order, the tags are the one dispatched embed tag plus the link tag. |
| PostMeta.EmbeddedAuthor | src/components/post-card/post-meta.tsx:13-34 | With no embed the result is null. A handle comes back iff the view embed is a record view whose author handle is truthy and differs from the post's author. That handle is returned. |

## Left out

- **Protocol calls.** Every protocol call is an oracle parameter (`getPostThread`, `getTimeline`/`getFeed`, `getPosts`, `like`/`deleteLike`, `repost`/`deleteRepost`). A thrown exception and `success: false` are a single failure value wherever the code treats them alike.
- **Missing agent.** The `if (!agent) return` branches are not modelled. An agent is always present.
- **React scheduling.** `setState` timing, re-runs of effects, the loading gate and concurrent clicks are left out. The `setPages` updater that reads the cache (use-feed.ts:81-89) is taken as a synchronous read. `Promise.all` is taken as sequential, since it keeps input order.
- Feed.TopLevelPost: the climb runs on a fuel bound (`Network.climbFuel`) because a parent chain from the network may cycle. Running out of fuel yields null. `Feed.ClimbReachesTop` and `Feed.ClimbFuelMonotone` show that the bound only cuts off endless chains.
- Feed.LoadPage: the accumulate loop runs on a fuel bound (`Network.batchFuel`) because the network may keep returning cursors. Running out of fuel leaves the load in flight (`isLoading` stays true, nothing stored).
- Feed.GatherSound: states that the stored cursor is the starting one or a truthy batch cursor. It does not say which batch's.
- Feed.Somes: its own contract only bounds the length. Which items it holds is `Feed.SomesMembers`.
- Feed.Admit: its own contract only bounds the number of admitted posts. What it admits is `Feed.AdmitSound`.
- Feed.ResolveAll: its own contract only keeps the batch length. The items are `Feed.ResolveAllInOrder`.
- RichText.Render: its own contract only separates the bare-text case. What the pieces are is `RichText.RenderPieces` (and `RichText.WalkPieces`), and that they spell out the text is `RichText.RenderRoundTrip`.
- Post.PostUrl: its own contract only says the URL is longer than the profile URL. The shape is `Post.PostUrlExtendsProfile` and `Post.PostUrlKeepsRkey`.
- Thread.AutoExpand: its own contract states growth of the expanded set and the depth bound. The exact set is in `Thread.AutoExpandMarksTargets`. The reply tree it produces is stated only through `Thread.UpdateReplies`, applied step by step.
- Thread.ProcessedReplies: a single blocked or not-found reply (fewer than two entries, so the sort never compares it) is installed by the source as a node without a post. The model drops it from the list, because a node here always carries a post.
- Thread.FetchedReplies: nested reply arrays inside a fetched or loaded tree are taken to hold only thread-view posts. Only the top-level entries of a response can be blocked or not found.
- Thread.LoadThread: states the reset fields, the ancestors and the expanded set, but not the auto-expanded reply tree. That tree is `Thread.ProcessedReplies` followed by `Thread.AutoExpand`.
- **Thin wrappers.** `Interactions.HandleLike` and `Interactions.HandleRepost` are `HandleToggle` at one kind and carry no separate contract.
- **Numbers.** Counts are unbounded integers. JavaScript numbers are doubles, which only matters beyond 2^53.
- **Label text.** Number-to-string formatting is left out: `CommentBox.Noun` decides only the singular or plural word.
- **Text model.** Text is a sequence of Unicode scalar values, so a lone surrogate in a post's text cannot be expressed.
- Utf.ByteToStringIndex: models the intended index, which counts a leading U+FEFF. The source drops it (see Findings), so on text starting with U+FEFF the source's index is one lower from byte 3 on; that index is `Utf.ByteToStringIndexAsWritten`.
- Utf.BoundaryIndex: holds of the intended index. On text starting with U+FEFF the source's index is one lower, as `Utf.BoundaryIndexAsWritten` states.
- Utf.IndexMonotone: holds of the intended index only. The source's index is not monotone on text starting with U+FEFF (`Utf.BomIndexNotMonotone`).
- RichText.WalkCovers: the rendering is built on the intended index. On text starting with U+FEFF the source can show the mark twice (for "\uFEFFab" with facets at bytes 0 to 2 and 3 to 4), so this does not hold of the source there. No as-written walk is modelled.
- RichText.RenderRoundTrip: same as `RichText.WalkCovers`. The round trip is proved for the intended index and fails in the source on some text starting with U+FEFF.
- **Offsets inside a character.** A byte offset that falls inside a character gives one U+FFFD, following the decoder's end-of-input rule in the WHATWG Encoding Standard. A prefix cut inside a character is not decoded byte by byte.
- **Regular expressions.** The general engine is left out. The youtube and spotify checks are case-insensitive substring tests. Without the `u` flag no non-ASCII character folds onto an ASCII letter, so ASCII case-insensitivity is exact for these patterns.
- **Rendering and I/O.** Dates, scrolling, `window.open`, and all markup and class names are left out. So are src/components/auth-provider.tsx (login, sessions, storage), the header, sidebar, layout and page files, and the provider plumbing.
- **Other feed card parts.** src/components/feed/post-card/post-comment-box.tsx (post creation), post-images.tsx, post-votes.tsx, post-content.tsx and the thread wrapper components are left out.
- **Copying.** The source sorts a spread copy so its input is never mutated. Dafny values are immutable, so this holds by construction and needs no contract.

## Findings

| source | as written | input that shows it | evidently intended | confidence | as-written member | corrected member |
|---|---|---|---|---|---|---|
| src/hooks/use-comment-state.ts:12 | a click sets the posted flag to the box's old visibility, so closing the box sets it | open the box, then close it without posting | a click never sets the flag (the other three versions only ever clear it). No consumer reads the hook's flag, so the state is wrong but not visible | low, not executed | CommentBox.HookToggleAsWritten | CommentBox.RunStaysHonest |
| src/components/post-card.tsx:23 | the initial like/repost state is read from the feed item's `viewer`, which a feed item does not have | a post the viewer already liked | read `viewer` from the post, as the other cards do | medium, not executed | LocalToggles.CardInitAsWritten | LocalToggles.CardInit |
| src/components/post-card/use-rich-text.tsx:14 | `new TextDecoder()` drops a leading U+FEFF, so on text starting with it every byte offset from 3 on maps one unit too early and the index goes backwards from byte 2 to byte 3 | text "\uFEFF@al" with a mention facet at bytes 3 to 6: the source links "\uFEFF@a" and leaves "l" plain | the index counts the mark like any other character (decode with `ignoreBOM: true`), so facets land on their own text | medium, not executed | Utf.ByteToStringIndexAsWritten | Utf.IndexMonotone |
| src/components/post-card.tsx:37 | unlike and unrepost delete the post's URI (also line 54) | like a post, then click again | delete the viewer's like or repost record, whose URI the create call returned | medium, not executed | LocalToggles.CardToggleAsWritten | LocalToggles.HandleLocal |

Notes on each finding:
- **Hook toggle.** `CommentBox.HookOpenCloseMarksPosted` exhibits it: after opening and closing, `isPosted` holds with no comment. `CommentBox.RunStaysHonest` proves the corrected `CommentBox.Toggle` never sets the flag without a comment. The feed card that uses the hook reads only `hasCommented` (src/components/feed/post-card/post-card.tsx:15-22), and `CommentBox.FeedCardHighlightIffPosted` proves its button is still right.
- **Initial viewer state.** `LocalToggles.LikedPostStartsUnliked` exhibits it: a liked post starts unliked and its first click likes it again.
- **Byte-order mark.** `Utf.BomIndexNotMonotone` exhibits it: the source's index is 1 at byte 2 and 0 at byte 3. `Utf.BoundaryIndexAsWritten` states the shift at every boundary. `Utf.IndexMonotone` and `Utf.BoundaryIndex` prove the intended index monotone and exact, and the rendering is built on that index.
- **Delete target.** `LocalToggles.UnlikeTargetsPost` exhibits it: the second click deletes the post's URI, not the created record. `LocalToggles.LocalMatchesStore` proves the corrected toggle behaves as the shared store does.

=== FILE: comment_box.dfy ===
/**
 * The comment box under a post: whether it is open, the shown comment count,
 * and the two flags that colour the comment button. The same state machine
 * exists in four places (src/hooks/use-comment-state.ts,
 * src/components/thread/thread-reply.tsx, src/components/thread/thread-post.tsx
 * and src/components/post-card/index.tsx); they differ only in when a click
 * on the comment button clears `isPosted`.
 */
module CommentBox {
  import opened Types

  /** `isVisible`, `count`, `hasCommented`, `isPosted` of one post's comment box. */
  datatype Box = Box(isVisible: bool, count: int, hasCommented: bool, isPosted: bool)

  /** The state every variant starts from: closed, nothing posted, the post's reply count. */
  function Initial(post: PostView): (b: Box)
    ensures !b.isVisible && !b.hasCommented && !b.isPosted
    ensures b.count == Count(post.replyCount) && b.count >= 0
    ensures post.replyCount.None? ==> b.count == 0
  {
    Box(false, Count(post.replyCount), false, false)
  }

  /** The comment button is highlighted (blue) when either flag is set. */
  predicate Highlighted(b: Box) {
    b.hasCommented || b.isPosted
  }

  /**
   * When a click on the comment button clears `isPosted`: when the box opens
   * (the card's version) or when it closes (both thread versions).
   */
  datatype ResetOn = ResetOnOpen | ResetOnClose

  /** A click on the comment button: the box flips; only `isPosted` may change besides. */
  function Toggle(rule: ResetOn, b: Box): (r: Box)
    ensures r.isVisible == !b.isVisible
    ensures r.count == b.count && r.hasCommented == b.hasCommented
    ensures rule == ResetOnOpen ==> (r.isVisible ==> !r.isPosted) && (!r.isVisible ==> r.isPosted == b.isPosted)
    ensures rule == ResetOnClose ==> (!r.isVisible ==> !r.isPosted) && (r.isVisible ==> r.isPosted == b.isPosted)
  {
    var opening := !b.isVisible;
    var clear := if rule == ResetOnOpen then opening else !opening;
    b.(isVisible := opening, isPosted := if clear then false else b.isPosted)
  }

  /**
   * The hook's click as written: `isPosted` becomes the OLD visibility, so
   * opening clears it and closing SETS it, whether or not anything was
   * posted.
   */
  function HookToggleAsWritten(b: Box): (r: Box)
    ensures r.isVisible == !b.isVisible
    ensures r.count == b.count && r.hasCommented == b.hasCommented
    ensures r.isPosted == b.isVisible
  {
    var prev := b.isVisible;
    b.(isVisible := !prev, isPosted := if !prev then false else prev)
  }

  /**
   * Opening and closing the hook's box as written leaves it claiming a posted
   * comment that nobody wrote. The card the hook serves does not show it: its
   * button reads `hasCommented` alone.
   */
  lemma HookOpenCloseMarksPosted(post: PostView)
    ensures var b := HookToggleAsWritten(HookToggleAsWritten(Initial(post)));
      && !b.isVisible && !b.hasCommented && b.count == Initial(post).count
      && b.isPosted && !Honest(b) && !FeedCardHighlighted(b)
  {
  }

  /** `handleCommentPost`: one more comment, both flags set, the box closed. */
  function PostComment(b: Box): (r: Box)
    ensures r.count == b.count + 1
    ensures r.hasCommented && r.isPosted && !r.isVisible
  {
    Box(false, b.count + 1, true, true)
  }

  /** Cancel: the box closes and nothing else changes. */
  function Cancel(b: Box): (r: Box)
    ensures !r.isVisible
    ensures r.(isVisible := b.isVisible) == b
  {
    b.(isVisible := false)
  }

  /** What the user does to a comment box. */
  datatype Event = Click | Posted | Cancelled

  function Step(rule: ResetOn, b: Box, e: Event): Box {
    match e
    case Click => Toggle(rule, b)
    case Posted => PostComment(b)
    case Cancelled => Cancel(b)
  }

  /** The box after a sequence of events, in order. */
  function Run(rule: ResetOn, b: Box, events: seq<Event>): Box
    decreases |events|
  {
    if events == [] then b else Run(rule, Step(rule, b, events[0]), events[1..])
  }

  /** How many comments a sequence of events posts. */
  function PostsIn(events: seq<Event>): nat
    decreases |events|
  {
    if events == [] then 0 else (if events[0] == Posted then 1 else 0) + PostsIn(events[1..])
  }

  /**
   * The count moves only by one per posted comment, and `hasCommented` is set
   * exactly when it was already set or a comment was posted: it never reverts.
   */
  lemma {:induction false} RunTally(rule: ResetOn, b: Box, events: seq<Event>)
    ensures Run(rule, b, events).count == b.count + PostsIn(events)
    ensures Run(rule, b, events).hasCommented <==> b.hasCommented || PostsIn(events) > 0
    decreases |events|
  {
    if events != [] {
      RunTally(rule, Step(rule, b, events[0]), events[1..]);
    }
  }

  /** A box never claims a posted comment that was not posted. */
  predicate Honest(b: Box) {
    b.isPosted ==> b.hasCommented
  }

  lemma {:induction false} RunStaysHonest(rule: ResetOn, b: Box, events: seq<Event>)
    requires Honest(b)
    ensures Honest(Run(rule, b, events))
    decreases |events|
  {
    if events != [] {
      RunStaysHonest(rule, Step(rule, b, events[0]), events[1..]);
    }
  }

  /** From a fresh box, the comment button is highlighted exactly when a comment was posted. */
  lemma HighlightIffPosted(rule: ResetOn, post: PostView, events: seq<Event>)
    ensures Highlighted(Run(rule, Initial(post), events)) <==> PostsIn(events) > 0
  {
    RunTally(rule, Initial(post), events);
    RunStaysHonest(rule, Initial(post), events);
  }

  /**
   * The comment button of the feed card that uses the hook: it is highlighted
   * on `hasCommented` alone, and the hook's `isPosted` is never read.
   */
  predicate FeedCardHighlighted(b: Box) {
    b.hasCommented
  }

  /** The hook's version of `Step`, with its click as written. */
  function HookStep(b: Box, e: Event): Box {
    match e
    case Click => HookToggleAsWritten(b)
    case Posted => PostComment(b)
    case Cancelled => Cancel(b)
  }

  function HookRun(b: Box, events: seq<Event>): Box
    decreases |events|
  {
    if events == [] then b else HookRun(HookStep(b, events[0]), events[1..])
  }

  /** Under the hook the count and `hasCommented` move exactly as under the local rules. */
  lemma {:induction false} HookRunTally(b: Box, events: seq<Event>)
    ensures HookRun(b, events).count == b.count + PostsIn(events)
    ensures HookRun(b, events).hasCommented <==> b.hasCommented || PostsIn(events) > 0
    decreases |events|
  {
    if events != [] {
      HookRunTally(HookStep(b, events[0]), events[1..]);
    }
  }

  /** From a fresh box, the feed card's button is highlighted exactly when a comment was posted. */
  lemma FeedCardHighlightIffPosted(post: PostView, events: seq<Event>)
    ensures FeedCardHighlighted(HookRun(Initial(post), events)) <==> PostsIn(events) > 0
  {
    HookRunTally(Initial(post), events);
  }

  /** The two spellings of a count label: `1 comment`, `2 comments`. */
  datatype Forms = Forms(singular: string, plural: string)

  const CommentForms: Forms := Forms("comment", "comments")
  const RepostForms: Forms := Forms("repost", "reposts")

  /** The noun after a count: the singular exactly when the count is 1. */
  function Noun(count: int, forms: Forms): (w: string)
    requires forms.singular != forms.plural
    ensures w == forms.singular <==> count == 1
    ensures w == forms.singular || w == forms.plural
  {
    if count == 1 then forms.singular else forms.plural
  }
}

=== FILE: feed.dfy ===
/**
 * The paged home feed (src/hooks/use-feed.ts; the same pipeline is inlined in
 * src/components/feed/feed.tsx): replies are replaced by their top-level
 * ancestor, posts already shown since the last reset are dropped, batches are
 * accumulated until a page of 20 is full or the feed ends, and pages are
 * cached by number with each page's cursor chaining to the next.
 */
module Feed {
  import opened Wrappers
  import opened Types
  import Post

  const PostsPerPage: nat := 20
  const LoadError: string := "Failed to load posts. Please try again."

  /** Which feed is shown: the timeline or the "what's hot" feed generator. */
  datatype FeedType = Following | Discovery

  /** A `getTimeline`/`getFeed` answer: a failure (unsuccessful or thrown) or a batch and its cursor. */
  datatype TimelineResponse = TimelineFailed | Timeline(cursor: Option<string>, feed: seq<FeedItem>)

  /** A `getPosts` answer: a failure (unsuccessful or thrown) or the posts found. */
  datatype PostsResponse = PostsFailed | Posts(posts: seq<PostView>)

  /**
   * The network as the feed sees it. `climbFuel` bounds the ancestor lookups
   * of one resolution and `batchFuel` the batches of one page load: the
   * protocol does not promise that either ends.
   */
  datatype Network = Network(
    timeline: (FeedType, Option<string>) -> TimelineResponse,
    getPosts: Uri -> PostsResponse,
    climbFuel: nat,
    batchFuel: nat)

  // ------------------------------------------------------- top-level ancestor

  /** The loop guard of `getTopLevelPost`: a reply record whose parent URI is truthy. */
  predicate NeedsParent(p: PostView) {
    Post.IsReplyRecord(p.record) && Truthy(Post.ParentUri(p.record))
  }

  /** The parent a lookup returns: the first post of a successful, non-empty answer. */
  function ParentOf(p: PostView, getPosts: Uri -> PostsResponse): (r: Option<PostView>)
    requires NeedsParent(p)
    ensures r.Some? <==> getPosts(Post.ParentUri(p.record).value).Posts? && |getPosts(Post.ParentUri(p.record).value).posts| > 0
  {
    match getPosts(Post.ParentUri(p.record).value)
    case PostsFailed => None
    case Posts(ps) => if |ps| == 0 then None else Some(ps[0])
  }

  /**
   * The loop of `getTopLevelPost` from `current` with at most `fuel` more
   * lookups; every ancestor found carries `reason`, the original item's.
   */
  function Climb(current: FeedItem, reason: Option<Reason>, getPosts: Uri -> PostsResponse, fuel: nat): (r: Option<FeedItem>)
    ensures r.Some? ==> !NeedsParent(r.value.post)
    ensures r.Some? && r.value != current ==> r.value.reason == reason
    ensures !NeedsParent(current.post) ==> r == Some(current)
    decreases fuel
  {
    if !NeedsParent(current.post) then Some(current)
    else if fuel == 0 then None
    else match ParentOf(current.post, getPosts)
      case None => None
      case Some(parentPost) =>
        var parent := FeedItem(parentPost, reason);
        if !Post.IsReplyRecord(parentPost.record) then Some(parent)
        else Climb(parent, reason, getPosts, fuel - 1)
  }

  /**
   * `getTopLevelPost`: the first ancestor that is not a reply, carrying the
   * item's reason; `None` when a lookup fails or comes back empty.
   */
  function TopLevelPost(item: FeedItem, net: Network): (r: Option<FeedItem>)
    ensures r.Some? ==> !NeedsParent(r.value.post) && r.value.reason == item.reason
    ensures !NeedsParent(item.post) ==> r == Some(item)
    ensures NeedsParent(item.post) && ParentOf(item.post, net.getPosts).None? ==> r.None?
  {
    Climb(item, item.reason, net.getPosts, net.climbFuel)
  }

  /** The `k`-th ancestor of a post through the lookup, if the chain reaches that far. */
  function Ancestor(p: PostView, getPosts: Uri -> PostsResponse, k: nat): Option<PostView>
    decreases k
  {
    if k == 0 then Some(p)
    else if !NeedsParent(p) then None
    else match ParentOf(p, getPosts)
      case None => None
      case Some(q) => Ancestor(q, getPosts, k - 1)
  }

  /** A resolved post is an ancestor of the item at most `fuel` steps up. */
  lemma {:induction false} ClimbFindsAncestor(current: FeedItem, reason: Option<Reason>, getPosts: Uri -> PostsResponse, fuel: nat)
      returns (k: nat)
    requires Climb(current, reason, getPosts, fuel).Some?
    ensures k <= fuel
    ensures Ancestor(current.post, getPosts, k) == Some(Climb(current, reason, getPosts, fuel).value.post)
    decreases fuel
  {
    if !NeedsParent(current.post) {
      k := 0;
    } else {
      var parentPost := ParentOf(current.post, getPosts).value;
      var parent := FeedItem(parentPost, reason);
      if !Post.IsReplyRecord(parentPost.record) {
        k := 1;
        assert Ancestor(parentPost, getPosts, 0) == Some(parentPost);
      } else {
        var j := ClimbFindsAncestor(parent, reason, getPosts, fuel - 1);
        k := j + 1;
      }
    }
  }

  /**
   * Conversely, when the first `k` ancestors are replies and the `k`-th is
   * not, any fuel of at least `k` resolves to that ancestor.
   */
  lemma {:induction false} ClimbReachesTop(current: FeedItem, reason: Option<Reason>, getPosts: Uri -> PostsResponse, fuel: nat, k: nat, top: PostView)
    requires k <= fuel
    requires Ancestor(current.post, getPosts, k) == Some(top) && !NeedsParent(top)
    requires forall j :: 0 <= j < k ==> Ancestor(current.post, getPosts, j).Some? && NeedsParent(Ancestor(current.post, getPosts, j).value)
    ensures Climb(current, reason, getPosts, fuel) == Some(if k == 0 then current else FeedItem(top, reason))
    decreases k
  {
    if k > 0 {
      assert Ancestor(current.post, getPosts, 0) == Some(current.post);
      var parentPost := ParentOf(current.post, getPosts).value;
      var parent := FeedItem(parentPost, reason);
      forall j | 0 <= j < k - 1
        ensures Ancestor(parentPost, getPosts, j).Some? && NeedsParent(Ancestor(parentPost, getPosts, j).value)
      {
        assert Ancestor(current.post, getPosts, j + 1) == Ancestor(parentPost, getPosts, j);
      }
      assert Ancestor(current.post, getPosts, 1) == Some(parentPost);
      if Post.IsReplyRecord(parentPost.record) {
        ClimbReachesTop(parent, reason, getPosts, fuel - 1, k - 1, top);
      }
    }
  }

  /** More fuel never changes a resolution that succeeded. */
  lemma {:induction false} ClimbFuelMonotone(current: FeedItem, reason: Option<Reason>, getPosts: Uri -> PostsResponse, fuel: nat, more: nat)
    requires Climb(current, reason, getPosts, fuel).Some?
    requires fuel <= more
    ensures Climb(current, reason, getPosts, more) == Climb(current, reason, getPosts, fuel)
    decreases fuel
  {
    if NeedsParent(current.post) {
      var parentPost := ParentOf(current.post, getPosts).value;
      if Post.IsReplyRecord(parentPost.record) {
        ClimbFuelMonotone(FeedItem(parentPost, reason), reason, getPosts, fuel - 1, more - 1);
      }
    }
  }

  /** One item of a batch: a reply record is resolved, anything else is kept. */
  function Resolve(item: FeedItem, net: Network): (r: Option<FeedItem>)
    ensures !Post.IsReplyRecord(item.post.record) ==> r == Some(item)
    ensures r.Some? ==> !NeedsParent(r.value.post) && r.value.reason == item.reason
  {
    if Post.IsReplyRecord(item.post.record) then TopLevelPost(item, net) else Some(item)
  }

  /** The whole batch, resolved in order (`Promise.all` keeps input order). */
  function ResolveAll(feed: seq<FeedItem>, net: Network): (r: seq<Option<FeedItem>>)
    ensures |r| == |feed|
  {
    seq(|feed|, i requires 0 <= i < |feed| => Resolve(feed[i], net))
  }

  /** Each item is resolved in its own place. */
  lemma ResolveAllInOrder(feed: seq<FeedItem>, net: Network, i: nat)
    requires i < |feed|
    ensures ResolveAll(feed, net)[i] == Resolve(feed[i], net)
  {
  }

  // ------------------------------------------------------------ de-duplication

  /** The URIs of the items of `xs`. */
  function UriSet(xs: seq<FeedItem>): set<Uri> {
    set i | 0 <= i < |xs| :: xs[i].post.uri
  }

  /** No two items of `xs` share a URI. */
  predicate Distinct(xs: seq<FeedItem>) {
    forall i, j :: 0 <= i < j < |xs| ==> xs[i].post.uri != xs[j].post.uri
  }

  /** The items that resolved (the `!== null` filter). */
  function Somes(batch: seq<Option<FeedItem>>): (r: seq<FeedItem>)
    ensures |r| <= |batch|
    decreases |batch|
  {
    if batch == [] then []
    else
      var init := Somes(batch[..|batch| - 1]);
      var last := batch[|batch| - 1];
      assert batch == batch[..|batch| - 1] + [last];
      if last.Some? then init + [last.value] else init
  }
  /** The resolved items are exactly the batch's non-null entries. */
  lemma {:induction false} SomesMembers(batch: seq<Option<FeedItem>>)
    ensures forall x :: x in Somes(batch) <==> Some(x) in batch
    decreases |batch|
  {
    if batch != [] {
      var init := batch[..|batch| - 1];
      SomesMembers(init);
      assert batch == init + [batch[|batch| - 1]];
    }
  }


  /** The outcome of the seen-set filter: the admitted posts and the grown seen set. */
  datatype Admission = Admission(posts: seq<FeedItem>, seen: set<Uri>)

  /**
   * The two filters of the accumulate loop: drop unresolved items, then admit
   * an item iff its URI is not yet seen, marking it seen as it is admitted.
   */
  function Admit(batch: seq<Option<FeedItem>>, seen: set<Uri>): (r: Admission)
    ensures |r.posts| <= |batch|
    decreases |batch|
  {
    if batch == [] then Admission([], seen)
    else
      var a := Admit(batch[..|batch| - 1], seen);
      var last := batch[|batch| - 1];
      if last.Some? && last.value.post.uri !in a.seen then Admission(a.posts + [last.value], a.seen + {last.value.post.uri})
      else a
  }

  /**
   * Exactly the resolved URIs not seen before are admitted, each once, all
   * of them items of the batch; every resolved URI ends up seen.
   */
  lemma {:induction false} AdmitSound(batch: seq<Option<FeedItem>>, seen: set<Uri>)
    ensures var r := Admit(batch, seen);
      && r.seen == seen + UriSet(Somes(batch))
      && UriSet(r.posts) == UriSet(Somes(batch)) - seen
      && Distinct(r.posts)
      && (forall x :: x in r.posts ==> Some(x) in batch)
    decreases |batch|
  {
    if batch != [] {
      var init := batch[..|batch| - 1];
      var a := Admit(init, seen);
      var last := batch[|batch| - 1];
      AdmitSound(init, seen);
      assert batch == init + [last];
      UriSetSnocSomes(batch);
      if last.Some? && last.value.post.uri !in a.seen {
        UriSetSnoc(a.posts, last.value);
      }
    }
  }

  lemma UriSetSnoc(xs: seq<FeedItem>, x: FeedItem)
    ensures UriSet(xs + [x]) == UriSet(xs) + {x.post.uri}
  {
    assert forall i :: 0 <= i < |xs| ==> (xs + [x])[i] == xs[i];
    assert (xs + [x])[|xs|] == x;
  }

  lemma UriSetSnocSomes(batch: seq<Option<FeedItem>>)
    requires batch != []
    ensures var last := batch[|batch| - 1];
      UriSet(Somes(batch)) == UriSet(Somes(batch[..|batch| - 1])) + (if last.Some? then {last.value.post.uri} else {})
  {
    var last := batch[|batch| - 1];
    if last.Some? {
      UriSetSnoc(Somes(batch[..|batch| - 1]), last.value);
    }
  }

  lemma UriSetConcat(xs: seq<FeedItem>, ys: seq<FeedItem>)
    ensures UriSet(xs + ys) == UriSet(xs) + UriSet(ys)
  {
    assert forall i :: 0 <= i < |xs| ==> (xs + ys)[i] == xs[i];
    assert forall i :: 0 <= i < |ys| ==> (xs + ys)[|xs| + i] == ys[i];
  }

  lemma DistinctConcat(xs: seq<FeedItem>, ys: seq<FeedItem>)
    ensures Distinct(xs) && Distinct(ys) && UriSet(xs) !! UriSet(ys) ==> Distinct(xs + ys)
  {
    forall i, j | 0 <= i < j < |xs + ys| && Distinct(xs) && Distinct(ys) && UriSet(xs) !! UriSet(ys)
      ensures (xs + ys)[i].post.uri != (xs + ys)[j].post.uri
    {
      if j >= |xs| && i < |xs| {
        assert (xs + ys)[i].post.uri in UriSet(xs);
        assert (xs + ys)[j] == ys[j - |xs|];
        assert (xs + ys)[j].post.uri in UriSet(ys);
      }
    }
  }

  // ---------------------------------------------------------- accumulate loop

  /** The first 20 items (all of them when there are fewer). */
  function Take(xs: seq<FeedItem>): (r: seq<FeedItem>)
    ensures |r| <= PostsPerPage && r <= xs
    ensures |xs| <= PostsPerPage ==> r == xs
    ensures |xs| > PostsPerPage ==> |r| == PostsPerPage
  {
    if |xs| <= PostsPerPage then xs else xs[..PostsPerPage]
  }

  /** How a page load's accumulate loop ends: a page, an error, or (fuel spent) still loading. */
  datatype Outcome =
    | Loaded(posts: seq<FeedItem>, cursor: Option<string>, seen: set<Uri>)
    | Failed(seen: set<Uri>)
    | Stalled(seen: set<Uri>)

  /** The loop's running state is sound: no URI twice, and every accumulated URI seen. */
  predicate Fresh(acc: seq<FeedItem>, seen: set<Uri>) {
    Distinct(acc) && UriSet(acc) <= seen
  }

  /**
   * The accumulate loop from `acc` and `cursor`: fetch a batch; stop with an
   * error on failure; stop, discarding the batch, when it has no cursor;
   * otherwise admit its unseen posts and continue from its cursor, until 20
   * posts are accumulated. The page is the first 20.
   */
  function Gather(feedType: FeedType, acc: seq<FeedItem>, cursor: Option<string>, seen: set<Uri>, net: Network, fuel: nat): Outcome
    decreases fuel
  {
    if |acc| >= PostsPerPage then Loaded(Take(acc), cursor, seen)
    else if fuel == 0 then Stalled(seen)
    else match net.timeline(feedType, cursor)
      case TimelineFailed => Failed(seen)
      case Timeline(next, feed) =>
        if !Truthy(next) then Loaded(Take(acc), cursor, seen)
        else
          var a := Admit(ResolveAll(feed, net), seen);
          Gather(feedType, acc + a.posts, next, a.seen, net, fuel - 1)
  }

  /** The seen set only grows. */
  lemma {:induction false} GatherGrowsSeen(feedType: FeedType, acc: seq<FeedItem>, cursor: Option<string>, seen: set<Uri>, net: Network, fuel: nat)
    ensures seen <= Gather(feedType, acc, cursor, seen, net, fuel).seen
    decreases fuel
  {
    if |acc| < PostsPerPage && fuel > 0 {
      match net.timeline(feedType, cursor)
      case TimelineFailed =>
      case Timeline(next, feed) =>
        if Truthy(next) {
          var a := Admit(ResolveAll(feed, net), seen);
          AdmitSound(ResolveAll(feed, net), seen);
          GatherGrowsSeen(feedType, acc + a.posts, next, a.seen, net, fuel - 1);
        }
    }
  }

  /** A prefix of a sequence with no URI twice and all URIs seen has the same two properties. */
  lemma FreshPrefix(xs: seq<FeedItem>, n: nat, seen: set<Uri>)
    requires Fresh(xs, seen) && n <= |xs|
    ensures Fresh(xs[..n], seen)
  {
    assert forall i :: 0 <= i < n ==> xs[..n][i] == xs[i];
  }

  /**
   * From a sound running state, a page has at most 20 posts, none twice, all
   * seen, and none that was seen before the load unless it was accumulated.
   */
  lemma {:induction false} GatherFresh(feedType: FeedType, acc: seq<FeedItem>, cursor: Option<string>, seen: set<Uri>, net: Network, fuel: nat)
    requires Fresh(acc, seen)
    ensures var r := Gather(feedType, acc, cursor, seen, net, fuel);
      r.Loaded? ==> |r.posts| <= PostsPerPage && Fresh(r.posts, r.seen) && UriSet(r.posts) <= UriSet(acc) + (r.seen - seen)
    decreases fuel
  {
    if |acc| >= PostsPerPage || fuel == 0 || net.timeline(feedType, cursor).TimelineFailed? || !Truthy(net.timeline(feedType, cursor).cursor) {
      TakeFresh(acc, seen);
    } else {
      var response := net.timeline(feedType, cursor);
      var a := Admit(ResolveAll(response.feed, net), seen);
      AdmitKeepsFresh(acc, ResolveAll(response.feed, net), seen);
      GatherGrowsSeen(feedType, acc + a.posts, response.cursor, a.seen, net, fuel - 1);
      GatherFresh(feedType, acc + a.posts, response.cursor, a.seen, net, fuel - 1);
    }
  }

  /** The page cut from a sound running state is sound and holds only accumulated URIs. */
  lemma TakeFresh(acc: seq<FeedItem>, seen: set<Uri>)
    requires Fresh(acc, seen)
    ensures Fresh(Take(acc), seen) && UriSet(Take(acc)) <= UriSet(acc)
  {
    FreshPrefix(acc, |Take(acc)|, seen);
    assert Take(acc) == acc[..|Take(acc)|];
    assert UriSet(Take(acc)) <= UriSet(acc) by {
      forall i | 0 <= i < |Take(acc)| ensures Take(acc)[i].post.uri in UriSet(acc) {
        assert Take(acc)[i] == acc[i];
      }
    }
  }

  /** Admitting a batch keeps the running state sound and adds only newly seen URIs. */
  lemma AdmitKeepsFresh(acc: seq<FeedItem>, batch: seq<Option<FeedItem>>, seen: set<Uri>)
    requires Fresh(acc, seen)
    ensures var a := Admit(batch, seen);
      && seen <= a.seen
      && Fresh(acc + a.posts, a.seen)
      && UriSet(acc + a.posts) <= UriSet(acc) + (a.seen - seen)
  {
    var a := Admit(batch, seen);
    AdmitSound(batch, seen);
    UriSetConcat(acc, a.posts);
    DistinctConcat(acc, a.posts);
  }


  /** The first 20 of a longer run still start with a run of at most 20. */
  lemma TakeKeepsPrefix(acc: seq<FeedItem>, more: seq<FeedItem>)
    requires |acc| <= PostsPerPage
    ensures acc <= Take(acc + more)
  {
    assert acc <= acc + more;
  }

  /** The posts accumulated so far (the first 20 of them) lead the page. */
  lemma {:induction false} GatherLeads(feedType: FeedType, acc: seq<FeedItem>, cursor: Option<string>, seen: set<Uri>, net: Network, fuel: nat)
    ensures var r := Gather(feedType, acc, cursor, seen, net, fuel);
      r.Loaded? ==> Take(acc) <= r.posts
    decreases fuel
  {
    if |acc| < PostsPerPage && fuel > 0 {
      match net.timeline(feedType, cursor)
      case TimelineFailed =>
      case Timeline(next, feed) =>
        if Truthy(next) {
          var a := Admit(ResolveAll(feed, net), seen);
          TakeKeepsPrefix(acc, a.posts);
          GatherLeads(feedType, acc + a.posts, next, a.seen, net, fuel - 1);
        }
    }
  }

  /** A short page means the feed ended: the batch at the page's cursor has no cursor. */
  lemma {:induction false} GatherShortEnds(feedType: FeedType, acc: seq<FeedItem>, cursor: Option<string>, seen: set<Uri>, net: Network, fuel: nat)
    ensures var r := Gather(feedType, acc, cursor, seen, net, fuel);
      r.Loaded? && |r.posts| < PostsPerPage ==>
        net.timeline(feedType, r.cursor).Timeline? && !Truthy(net.timeline(feedType, r.cursor).cursor)
    decreases fuel
  {
    if |acc| >= PostsPerPage {
      assert |Take(acc)| == PostsPerPage;
    } else if fuel > 0 {
      match net.timeline(feedType, cursor)
      case TimelineFailed =>
      case Timeline(next, feed) =>
        if Truthy(next) {
          var a := Admit(ResolveAll(feed, net), seen);
          GatherShortEnds(feedType, acc + a.posts, next, a.seen, net, fuel - 1);
        }
    }
  }

  /** A page's cursor is the one the load started from or one a batch returned, never an empty one. */
  lemma {:induction false} GatherCursor(feedType: FeedType, acc: seq<FeedItem>, cursor: Option<string>, seen: set<Uri>, net: Network, fuel: nat)
    ensures var r := Gather(feedType, acc, cursor, seen, net, fuel);
      r.Loaded? ==> r.cursor == cursor || Truthy(r.cursor)
    decreases fuel
  {
    if |acc| < PostsPerPage && fuel > 0 {
      match net.timeline(feedType, cursor)
      case TimelineFailed =>
      case Timeline(next, feed) =>
        if Truthy(next) {
          var a := Admit(ResolveAll(feed, net), seen);
          GatherCursor(feedType, acc + a.posts, next, a.seen, net, fuel - 1);
        }
    }
  }

  /** What a page load from a fresh start promises, gathered. */
  lemma GatherSound(feedType: FeedType, cursor: Option<string>, seen: set<Uri>, net: Network, fuel: nat)
    ensures var r := Gather(feedType, [], cursor, seen, net, fuel);
      && seen <= r.seen
      && (r.Loaded? ==> |r.posts| <= PostsPerPage && Fresh(r.posts, r.seen) && UriSet(r.posts) !! seen)
      && (r.Loaded? && |r.posts| < PostsPerPage ==>
            net.timeline(feedType, r.cursor).Timeline? && !Truthy(net.timeline(feedType, r.cursor).cursor))
      && (r.Loaded? ==> r.cursor == cursor || Truthy(r.cursor))
  {
    GatherGrowsSeen(feedType, [], cursor, seen, net, fuel);
    GatherFresh(feedType, [], cursor, seen, net, fuel);
    GatherShortEnds(feedType, [], cursor, seen, net, fuel);
    GatherCursor(feedType, [], cursor, seen, net, fuel);
    assert UriSet([]) == {};
  }

  /** One turn of the loop: a batch with a cursor is admitted and the loop goes on from that cursor. */
  lemma GatherStep(feedType: FeedType, acc: seq<FeedItem>, cursor: Option<string>, seen: set<Uri>, net: Network, fuel: nat)
    requires |acc| < PostsPerPage && fuel > 0
    requires net.timeline(feedType, cursor).Timeline? && Truthy(net.timeline(feedType, cursor).cursor)
    ensures var a := Admit(ResolveAll(net.timeline(feedType, cursor).feed, net), seen);
      Gather(feedType, acc, cursor, seen, net, fuel)
        == Gather(feedType, acc + a.posts, net.timeline(feedType, cursor).cursor, a.seen, net, fuel - 1)
  {
  }

  /** The three ways out of the loop: a full page, no fuel left, a failed call or a batch without a cursor. */
  lemma GatherExits(feedType: FeedType, acc: seq<FeedItem>, cursor: Option<string>, seen: set<Uri>, net: Network, fuel: nat)
    ensures |acc| >= PostsPerPage ==> Gather(feedType, acc, cursor, seen, net, fuel) == Loaded(Take(acc), cursor, seen)
    ensures |acc| < PostsPerPage && fuel == 0 ==> Gather(feedType, acc, cursor, seen, net, fuel) == Stalled(seen)
    ensures |acc| < PostsPerPage && fuel > 0 && net.timeline(feedType, cursor).TimelineFailed? ==>
      Gather(feedType, acc, cursor, seen, net, fuel) == Failed(seen)
    ensures |acc| < PostsPerPage && fuel > 0 && net.timeline(feedType, cursor).Timeline? && !Truthy(net.timeline(feedType, cursor).cursor) ==>
      Gather(feedType, acc, cursor, seen, net, fuel) == Loaded(Take(acc), cursor, seen)
  {
  }

  /** One turn of the loop body: admit the batch and move to its cursor. */
  method Turn(feedType: FeedType, acc: seq<FeedItem>, cursor: Option<string>, seen: set<Uri>, net: Network, fuel: nat)
      returns (acc': seq<FeedItem>, cursor': Option<string>, seen': set<Uri>, fuel': nat)
    requires |acc| < PostsPerPage && fuel > 0
    requires net.timeline(feedType, cursor).Timeline? && Truthy(net.timeline(feedType, cursor).cursor)
    ensures Gather(feedType, acc, cursor, seen, net, fuel) == Gather(feedType, acc', cursor', seen', net, fuel')
    ensures fuel' < fuel && Truthy(cursor')
  {
    var response := net.timeline(feedType, cursor);
    var admitted := Admit(ResolveAll(response.feed, net), seen);
    GatherStep(feedType, acc, cursor, seen, net, fuel);
    acc', cursor', seen', fuel' := acc + admitted.posts, response.cursor, admitted.seen, fuel - 1;
  }

  /** The loop as the source writes it, with `break` on a cursorless batch. */
  method Accumulate(feedType: FeedType, prevCursor: Option<string>, seen0: set<Uri>, net: Network) returns (out: Outcome)
    ensures out == Gather(feedType, [], prevCursor, seen0, net, net.batchFuel)
  {
    ghost var target := Gather(feedType, [], prevCursor, seen0, net, net.batchFuel);
    var acc: seq<FeedItem> := [];
    var cursor := prevCursor;
    var seen := seen0;
    var fuel := net.batchFuel;
    while |acc| < PostsPerPage
      invariant target == Gather(feedType, acc, cursor, seen, net, fuel)
      decreases fuel
    {
      GatherExits(feedType, acc, cursor, seen, net, fuel);
      if fuel == 0 {
        return Stalled(seen);
      }
      var response := net.timeline(feedType, cursor);
      if response.TimelineFailed? {
        return Failed(seen);
      }
      if !Truthy(response.cursor) {
        out := Loaded(Take(acc), cursor, seen);
        return;
      }
      acc, cursor, seen, fuel := Turn(feedType, acc, cursor, seen, net, fuel);
    }
    GatherExits(feedType, acc, cursor, seen, net, fuel);
    out := Loaded(Take(acc), cursor, seen);
  }

  /**
   * Posts past the 20th of a page are marked seen all the same: when one batch
   * brings more fresh posts than a page holds, the surplus is never shown on
   * this page and, being seen, never on a later one.
   */
  lemma SurplusMarkedSeen(feedType: FeedType, cursor: Option<string>, seen: set<Uri>, net: Network)
    requires net.batchFuel > 0
    requires net.timeline(feedType, cursor).Timeline? && Truthy(net.timeline(feedType, cursor).cursor)
    requires |Admit(ResolveAll(net.timeline(feedType, cursor).feed, net), seen).posts| > PostsPerPage
    ensures var a := Admit(ResolveAll(net.timeline(feedType, cursor).feed, net), seen);
      Gather(feedType, [], cursor, seen, net, net.batchFuel)
        == Loaded(a.posts[..PostsPerPage], net.timeline(feedType, cursor).cursor, a.seen)
  {
  }

  /**
   * A page that came back short ends the feed: its cursor's batch has no
   * cursor, so loading from that cursor again gives an empty page.
   */
  lemma ShortPageThenEmpty(feedType: FeedType, cursor: Option<string>, seen: set<Uri>, net: Network)
    requires net.batchFuel > 0
    requires net.timeline(feedType, cursor).Timeline? && !Truthy(net.timeline(feedType, cursor).cursor)
    ensures Gather(feedType, [], cursor, seen, net, net.batchFuel) == Loaded([], cursor, seen)
  {
  }

  // --------------------------------------------------------------- page cache

  /** A stored page: its posts and the cursor the next page starts from. */
  datatype PageData = PageData(posts: seq<FeedItem>, cursor: Option<string>)

  datatype FeedState = FeedState(
    pages: map<int, PageData>,
    isLoading: bool,
    currentPage: int,
    error: Option<string>,
    seen: set<Uri>)

  /** The cursor a new page starts from: that of the stored previous page, or none. */
  function PrevCursor(pages: map<int, PageData>, pageNumber: int): (c: Option<string>)
    ensures pageNumber - 1 in pages ==> c == pages[pageNumber - 1].cursor
    ensures pageNumber - 1 !in pages ==> c.None?
  {
    if pageNumber - 1 in pages then pages[pageNumber - 1].cursor else None
  }

  /**
   * `loadPage(pageNumber)`: a stored page is only switched to; otherwise the
   * accumulate loop runs from the previous page's cursor and the page is
   * stored, or the error is set. The seen set keeps what the loop added even
   * when it fails.
   */
  function LoadPage(st: FeedState, pageNumber: int, feedType: FeedType, net: Network): (r: FeedState)
    ensures pageNumber in st.pages ==> r == st.(currentPage := pageNumber, isLoading := false, error := None)
    ensures st.seen <= r.seen
    ensures pageNumber !in st.pages ==> forall n :: n in st.pages ==> n in r.pages && r.pages[n] == st.pages[n]
    ensures pageNumber !in st.pages && pageNumber in r.pages ==>
      r.currentPage == pageNumber && r.error.None? && !r.isLoading && |r.pages[pageNumber].posts| <= PostsPerPage
    ensures r.error.Some? ==> r.pages == st.pages && r.currentPage == st.currentPage && !r.isLoading
    ensures pageNumber !in st.pages ==>
      match Gather(feedType, [], PrevCursor(st.pages, pageNumber), st.seen, net, net.batchFuel)
      case Loaded(posts, cursor, seen) =>
        && r.pages == st.pages[pageNumber := PageData(posts, cursor)] && r.currentPage == pageNumber
        && r.seen == seen && r.error.None? && !r.isLoading
      case Failed(seen) => r.error == Some(LoadError) && r.seen == seen
      case Stalled(seen) => r.isLoading && r.pages == st.pages && r.seen == seen
  {
    if pageNumber in st.pages then st.(currentPage := pageNumber, isLoading := false, error := None)
    else
      GatherSound(feedType, PrevCursor(st.pages, pageNumber), st.seen, net, net.batchFuel);
      match Gather(feedType, [], PrevCursor(st.pages, pageNumber), st.seen, net, net.batchFuel)
      case Loaded(posts, cursor, seen) =>
        st.(pages := st.pages[pageNumber := PageData(posts, cursor)], currentPage := pageNumber,
            seen := seen, isLoading := false, error := None)
      case Failed(seen) => st.(seen := seen, isLoading := false, error := Some(LoadError))
      case Stalled(seen) => st.(seen := seen, isLoading := true, error := None)
  }

  /** `resetFeed`: forget every page and every seen URI and go back to page 1. */
  function ResetFeed(st: FeedState): (r: FeedState)
    ensures r.pages == map[] && r.seen == {} && r.currentPage == 1
    ensures r.isLoading == st.isLoading && r.error == st.error
  {
    st.(seen := {}, pages := map[], currentPage := 1)
  }

  /**
   * What the cache keeps since the last reset: pages of at most 20 posts, each
   * URI on at most one page and at most once there, and every stored URI seen.
   */
  predicate FeedInv(st: FeedState) {
    && (forall n :: n in st.pages ==>
          |st.pages[n].posts| <= PostsPerPage && Distinct(st.pages[n].posts) && UriSet(st.pages[n].posts) <= st.seen)
    && (forall m, n :: m in st.pages && n in st.pages && m != n ==> UriSet(st.pages[m].posts) !! UriSet(st.pages[n].posts))
  }

  lemma ResetEstablishes(st: FeedState)
    ensures FeedInv(ResetFeed(st))
  {
  }

  /** Loading any page keeps the cache free of repeated URIs. */
  lemma {:induction false} LoadPagePreserves(st: FeedState, pageNumber: int, feedType: FeedType, net: Network)
    requires FeedInv(st)
    ensures FeedInv(LoadPage(st, pageNumber, feedType, net))
  {
    if pageNumber !in st.pages {
      var out := Gather(feedType, [], PrevCursor(st.pages, pageNumber), st.seen, net, net.batchFuel);
      GatherSound(feedType, PrevCursor(st.pages, pageNumber), st.seen, net, net.batchFuel);
      if out.Loaded? {
        var r := LoadPage(st, pageNumber, feedType, net);
        assert UriSet(out.posts) <= out.seen - st.seen;
        forall m | m in st.pages
          ensures UriSet(st.pages[m].posts) !! UriSet(out.posts)
        {
        }
      }
    }
  }

  /**
   * A newly stored page: at most 20 posts, none twice and none seen before the
   * load; fewer than 20 only when the feed ended at its cursor; and that
   * cursor is the previous page's or a truthy one a batch returned.
   */
  lemma NewPageSound(st: FeedState, pageNumber: int, feedType: FeedType, net: Network)
    requires pageNumber !in st.pages
    ensures var r := LoadPage(st, pageNumber, feedType, net);
      pageNumber in r.pages ==>
        var page := r.pages[pageNumber];
        && |page.posts| <= PostsPerPage && Distinct(page.posts) && UriSet(page.posts) !! st.seen
        && (|page.posts| < PostsPerPage ==>
              net.timeline(feedType, page.cursor).Timeline? && !Truthy(net.timeline(feedType, page.cursor).cursor))
        && (page.cursor == PrevCursor(st.pages, pageNumber) || Truthy(page.cursor))
  {
    GatherSound(feedType, PrevCursor(st.pages, pageNumber), st.seen, net, net.batchFuel);
  }
}

=== FILE: feed_view.dfy ===
/**
 * The feed component (src/components/feed/feed.tsx): the feed-type reset
 * effect, the prev/next buttons and retry, on top of the page pipeline of
 * `Feed`, which the component repeats line for line.
 */
module FeedView {
  import opened Wrappers
  import opened Types
  import opened Feed

  /** The effect run when the agent or the feed type changes: clear everything, then load page 1. */
  function ResetAndLoad(st: FeedState, feedType: FeedType, net: Network): (r: FeedState)
    ensures forall n :: n in r.pages ==> n == 1
    ensures 1 in r.pages ==> r.currentPage == 1 && r.error.None? && FeedInv(r)
    ensures r.error.Some? ==> r.pages == map[] && r.currentPage == 1
    ensures match Gather(feedType, [], None, {}, net, net.batchFuel)
      case Loaded(posts, cursor, _) => r.pages == map[1 := PageData(posts, cursor)] && r.error.None?
      case Failed(_) => r.error == Some(LoadError) && r.pages == map[]
      case Stalled(_) => r.isLoading && r.pages == map[]
  {
    ResetEstablishes(st);
    LoadPagePreserves(ResetFeed(st), 1, feedType, net);
    LoadPage(ResetFeed(st), 1, feedType, net)
  }

  /** After the reset effect nothing of the previous feed remains: the outcome depends only on the network. */
  lemma ResetForgetsHistory(st1: FeedState, st2: FeedState, feedType: FeedType, net: Network)
    ensures ResetAndLoad(st1, feedType, net) == ResetAndLoad(st2, feedType, net)
  {
  }

  /** "prev" is enabled unless on page 1 or loading. */
  predicate PrevEnabled(st: FeedState) {
    st.currentPage != 1 && !st.isLoading
  }

  /** "next" is enabled when the current page is stored with a truthy cursor and nothing is loading. */
  predicate NextEnabled(st: FeedState) {
    st.currentPage in st.pages && Truthy(st.pages[st.currentPage].cursor) && !st.isLoading
  }

  datatype Event = Prev | Next | Retry | FeedTypeChanged(feedType: FeedType)

  predicate Enabled(st: FeedState, e: Event) {
    match e
    case Prev => PrevEnabled(st)
    case Next => NextEnabled(st)
    case Retry => st.error.Some?
    case FeedTypeChanged(_) => true
  }

  /** The state after a user event; `feedType` is the feed shown before the event. */
  function Step(st: FeedState, e: Event, feedType: FeedType, net: Network): FeedState {
    match e
    case Prev => LoadPage(st, st.currentPage - 1, feedType, net)
    case Next => LoadPage(st, st.currentPage + 1, feedType, net)
    case Retry => LoadPage(st, st.currentPage, feedType, net)
    case FeedTypeChanged(ft) => ResetAndLoad(st, ft, net)
  }

  /**
   * Pages stored since the last reset are numbered 1, 2, ... without gaps, and
   * the current page is stored unless nothing is.
   */
  predicate Contiguous(st: FeedState) {
    && (forall n :: n in st.pages ==> n >= 1 && (n > 1 ==> n - 1 in st.pages))
    && st.currentPage >= 1
    && (st.currentPage in st.pages || (st.pages == map[] && st.currentPage == 1))
  }

  lemma ResetIsContiguous(st: FeedState, feedType: FeedType, net: Network)
    ensures Contiguous(ResetAndLoad(st, feedType, net))
  {
  }

  /** Every enabled event keeps the pages contiguous. */
  lemma {:induction false} StepKeepsContiguous(st: FeedState, e: Event, feedType: FeedType, net: Network)
    requires Contiguous(st) && Enabled(st, e)
    ensures Contiguous(Step(st, e, feedType, net))
  {
    match e
    case Prev =>
      assert st.currentPage in st.pages && st.currentPage - 1 in st.pages;
    case Next =>
    case Retry =>
    case FeedTypeChanged(ft) =>
      ResetIsContiguous(st, ft, net);
  }

  /** Going back never fetches: the previous page is always stored, so "prev" only switches pages. */
  lemma PrevIsCacheHit(st: FeedState, feedType: FeedType, net: Network)
    requires Contiguous(st) && PrevEnabled(st)
    ensures Step(st, Prev, feedType, net) == st.(currentPage := st.currentPage - 1, isLoading := false, error := None)
  {
    assert st.currentPage in st.pages;
  }

  /** No event ever shows a URI on two pages, or twice on one. */
  lemma {:induction false} StepKeepsFeedInv(st: FeedState, e: Event, feedType: FeedType, net: Network)
    requires FeedInv(st)
    ensures FeedInv(Step(st, e, feedType, net))
  {
    if !e.FeedTypeChanged? {
      var target := if e.Prev? then st.currentPage - 1 else if e.Next? then st.currentPage + 1 else st.currentPage;
      assert Step(st, e, feedType, net) == LoadPage(st, target, feedType, net);
      LoadPagePreserves(st, target, feedType, net);
    }
  }

  /**
   * Retry reloads the current page, not the page that failed: after a failed
   * "next" the current page is still stored, so retry only clears the error.
   */
  lemma RetryAfterFailedNext(st: FeedState, feedType: FeedType, net: Network)
    requires NextEnabled(st)
    requires Step(st, Next, feedType, net).error.Some?
    ensures var failed := Step(st, Next, feedType, net);
      Step(failed, Retry, feedType, net) == failed.(isLoading := false, error := None)
  {
  }
}

=== FILE: interactions.dfy ===
/**
 * The shared per-post interaction store (src/components/context/
 * post-interactions-provider.tsx) and the hook that seeds it and toggles
 * likes and reposts through it (src/hooks/use-post-interactions.ts).
 */
module Interactions {
  import opened Wrappers
  import opened Types

  /** What the client remembers about one post. Counts are JavaScript numbers and may go below 0. */
  datatype Interaction = Interaction(
    isLiked: bool,
    likeCount: int,
    likeUri: Option<Uri>,
    isReposted: bool,
    repostCount: int,
    repostUri: Option<Uri>,
    commentCount: int,
    hasCommented: bool,
    isInitialized: bool)

  /** The entry `getInteraction` invents for a post it has not seen. */
  const Default: Interaction := Interaction(false, 0, None, false, 0, None, 0, false, false)

  /**
   * A `Partial<PostInteraction>`: `None` is a key that is not supplied. The
   * optional URIs are doubly optional, since `likeUri: undefined` is a
   * supplied key whose value is `undefined`.
   */
  datatype Patch = Patch(
    isLiked: Option<bool>,
    likeCount: Option<int>,
    likeUri: Option<Option<Uri>>,
    isReposted: Option<bool>,
    repostCount: Option<int>,
    repostUri: Option<Option<Uri>>,
    commentCount: Option<int>,
    hasCommented: Option<bool>,
    isInitialized: Option<bool>)

  const NoChange: Patch := Patch(None, None, None, None, None, None, None, None, None)

  /** `{ ...current, ...updates }`: every supplied key wins, every other field is kept. */
  function Apply(cur: Interaction, p: Patch): (r: Interaction)
    ensures r.isLiked == p.isLiked.GetOr(cur.isLiked)
    ensures r.likeCount == p.likeCount.GetOr(cur.likeCount)
    ensures r.likeUri == p.likeUri.GetOr(cur.likeUri)
    ensures r.isReposted == p.isReposted.GetOr(cur.isReposted)
    ensures r.repostCount == p.repostCount.GetOr(cur.repostCount)
    ensures r.repostUri == p.repostUri.GetOr(cur.repostUri)
    ensures r.commentCount == p.commentCount.GetOr(cur.commentCount)
    ensures r.hasCommented == p.hasCommented.GetOr(cur.hasCommented)
    ensures r.isInitialized == p.isInitialized.GetOr(cur.isInitialized)
  {
    Interaction(
      p.isLiked.GetOr(cur.isLiked),
      p.likeCount.GetOr(cur.likeCount),
      p.likeUri.GetOr(cur.likeUri),
      p.isReposted.GetOr(cur.isReposted),
      p.repostCount.GetOr(cur.repostCount),
      p.repostUri.GetOr(cur.repostUri),
      p.commentCount.GetOr(cur.commentCount),
      p.hasCommented.GetOr(cur.hasCommented),
      p.isInitialized.GetOr(cur.isInitialized))
  }

  /** One patch after another: the later patch's supplied keys win. */
  function Then(p: Patch, q: Patch): Patch {
    Patch(
      if q.isLiked.Some? then q.isLiked else p.isLiked,
      if q.likeCount.Some? then q.likeCount else p.likeCount,
      if q.likeUri.Some? then q.likeUri else p.likeUri,
      if q.isReposted.Some? then q.isReposted else p.isReposted,
      if q.repostCount.Some? then q.repostCount else p.repostCount,
      if q.repostUri.Some? then q.repostUri else p.repostUri,
      if q.commentCount.Some? then q.commentCount else p.commentCount,
      if q.hasCommented.Some? then q.hasCommented else p.hasCommented,
      if q.isInitialized.Some? then q.isInitialized else p.isInitialized)
  }

  /** Merging is a monoid action: no keys change nothing, and two merges are one merge of the combined patch. */
  lemma MergeLaws(cur: Interaction, p: Patch, q: Patch)
    ensures Apply(cur, NoChange) == cur
    ensures Apply(Apply(cur, p), q) == Apply(cur, Then(p, q))
    ensures Apply(Apply(cur, p), p) == Apply(cur, p)
  {
  }

  type Store = map<Uri, Interaction>

  /** `getInteraction`: the stored entry, or the default. */
  function Get(store: Store, uri: Uri): (r: Interaction)
    ensures uri in store ==> r == store[uri]
    ensures uri !in store ==> r == Default && !r.isInitialized
  {
    if uri in store then store[uri] else Default
  }

  /** `updateInteraction`: the entry (or the default) merged with the patch; nothing else changes. */
  function Update(store: Store, uri: Uri, p: Patch): (r: Store)
    ensures r.Keys == store.Keys + {uri}
    ensures r[uri] == Apply(Get(store, uri), p)
    ensures forall u :: u in store && u != uri ==> r[u] == store[u]
  {
    store[uri := Apply(Get(store, uri), p)]
  }

  /** Updates of two different posts commute. */
  lemma UpdatesCommute(store: Store, u: Uri, v: Uri, p: Patch, q: Patch)
    requires u != v
    ensures Update(Update(store, u, p), v, q) == Update(Update(store, v, q), u, p)
  {
  }

  // ------------------------------------------------------------------ seeding

  /** The values the hook seeds from a post the first time it sees it. */
  function SeedPatch(post: PostView): (p: Patch)
    ensures Apply(Default, p).isInitialized && !Apply(Default, p).hasCommented
    ensures Apply(Default, p).isLiked <==> post.viewer.Some? && Truthy(post.viewer.value.like)
    ensures Apply(Default, p).isReposted <==> post.viewer.Some? && Truthy(post.viewer.value.repost)
    ensures Apply(Default, p).likeCount == Count(post.likeCount) >= 0
    ensures Apply(Default, p).repostCount == Count(post.repostCount) >= 0
    ensures Apply(Default, p).commentCount == Count(post.replyCount) >= 0
    ensures Apply(Default, p).likeUri == (if post.viewer.Some? then post.viewer.value.like else None)
    ensures Apply(Default, p).repostUri == (if post.viewer.Some? then post.viewer.value.repost else None)
  {
    var like := if post.viewer.Some? then post.viewer.value.like else None;
    var repost := if post.viewer.Some? then post.viewer.value.repost else None;
    Patch(
      isLiked := Some(Truthy(like)),
      likeCount := Some(Count(post.likeCount)),
      likeUri := Some(like),
      isReposted := Some(Truthy(repost)),
      repostCount := Some(Count(post.repostCount)),
      repostUri := Some(repost),
      commentCount := Some(Count(post.replyCount)),
      hasCommented := Some(false),
      isInitialized := Some(true))
  }

  /** The seeding effect: only an entry that is not initialized is seeded. */
  function Seed(store: Store, post: PostView): (r: Store)
    ensures Get(r, post.uri).isInitialized
    ensures Get(store, post.uri).isInitialized ==> r == store
    ensures !Get(store, post.uri).isInitialized ==> r == Update(store, post.uri, SeedPatch(post))
  {
    if !Get(store, post.uri).isInitialized then Update(store, post.uri, SeedPatch(post)) else store
  }

  /** Seeding happens at most once per URI, even from a later copy of the post with other counts. */
  lemma SeedOnce(store: Store, post: PostView, later: PostView)
    requires later.uri == post.uri
    ensures Seed(Seed(store, post), later) == Seed(store, post)
  {
  }

  // ---------------------------------------------------------- like and repost

  /** The protocol writes the hook can issue. */
  datatype Mutation =
    | Like(subject: Uri, cid: string)
    | DeleteLike(record: Uri)
    | Repost(subject: Uri, cid: string)
    | DeleteRepost(record: Uri)

  /** How a write ends: it throws, or it succeeds (a create returns the new record's URI). */
  datatype CallResult = Failed | Done(uri: Uri)

  /** The store after a handler, and the write it issued, if any. */
  datatype Effect = Effect(store: Store, call: Option<Mutation>)

  /** The two toggles share one shape: likes and reposts. */
  datatype Kind = LikeKind | RepostKind

  function Active(i: Interaction, k: Kind): bool {
    if k == LikeKind then i.isLiked else i.isReposted
  }

  function Tally(i: Interaction, k: Kind): int {
    if k == LikeKind then i.likeCount else i.repostCount
  }

  function Handle(i: Interaction, k: Kind): Option<Uri> {
    if k == LikeKind then i.likeUri else i.repostUri
  }

  /** The fields of the other kind and the comment fields: what a toggle of kind `k` must leave alone. */
  function Others(i: Interaction, k: Kind): Interaction {
    if k == LikeKind then i.(isLiked := false, likeCount := 0, likeUri := None, isInitialized := false)
    else i.(isReposted := false, repostCount := 0, repostUri := None, isInitialized := false)
  }

  function Create(k: Kind, post: PostView): Mutation {
    if k == LikeKind then Like(post.uri, post.cid) else Repost(post.uri, post.cid)
  }

  function Delete(k: Kind, record: Uri): Mutation {
    if k == LikeKind then DeleteLike(record) else DeleteRepost(record)
  }

  /** The patch a successful toggle applies: the new flag, count and handle, and `isInitialized`. */
  function TogglePatch(k: Kind, on: bool, count: int, handle: Option<Uri>): Patch {
    if k == LikeKind then NoChange.(isLiked := Some(on), likeCount := Some(count), likeUri := Some(handle), isInitialized := Some(true))
    else NoChange.(isReposted := Some(on), repostCount := Some(count), repostUri := Some(handle), isInitialized := Some(true))
  }

  /**
   * `handleLike` / `handleRepost`: when off, create the record and, once the
   * call succeeds, turn on, count one more and store the returned URI; when on
   * with a stored URI, delete that record and, once the call succeeds, turn
   * off, count one less and clear the URI; when on without a URI, do nothing.
   * A failed call changes nothing.
   */
  function HandleToggle(store: Store, post: PostView, k: Kind, agent: Mutation -> CallResult): (r: Effect)
    ensures forall u :: u != post.uri ==> Get(r.store, u) == Get(store, u)
    ensures Others(Get(r.store, post.uri), k) == Others(Get(store, post.uri), k)
    ensures var cur := Get(store, post.uri); var now := Get(r.store, post.uri);
      && (!Active(cur, k) ==> r.call == Some(Create(k, post)))
      && (!Active(cur, k) && agent(Create(k, post)).Done? ==>
            Active(now, k) && Tally(now, k) == Tally(cur, k) + 1
            && Handle(now, k) == Some(agent(Create(k, post)).uri) && now.isInitialized)
      && (Active(cur, k) && Truthy(Handle(cur, k)) ==> r.call == Some(Delete(k, Handle(cur, k).value)))
      && (Active(cur, k) && Truthy(Handle(cur, k)) && agent(Delete(k, Handle(cur, k).value)).Done? ==>
            !Active(now, k) && Tally(now, k) == Tally(cur, k) - 1 && Handle(now, k).None? && now.isInitialized)
      && (Active(cur, k) && !Truthy(Handle(cur, k)) ==> r == Effect(store, None))
      && (r.call.Some? && agent(r.call.value).Failed? ==> r.store == store)
  {
    var cur := Get(store, post.uri);
    if !Active(cur, k) then
      var call := Create(k, post);
      match agent(call)
      case Failed => Effect(store, Some(call))
      case Done(created) => Effect(Update(store, post.uri, TogglePatch(k, true, Tally(cur, k) + 1, Some(created))), Some(call))
    else if Truthy(Handle(cur, k)) then
      var call := Delete(k, Handle(cur, k).value);
      match agent(call)
      case Failed => Effect(store, Some(call))
      case Done(_) => Effect(Update(store, post.uri, TogglePatch(k, false, Tally(cur, k) - 1, None)), Some(call))
    else Effect(store, None)
  }

  function HandleLike(store: Store, post: PostView, agent: Mutation -> CallResult): Effect {
    HandleToggle(store, post, LikeKind, agent)
  }

  function HandleRepost(store: Store, post: PostView, agent: Mutation -> CallResult): Effect {
    HandleToggle(store, post, RepostKind, agent)
  }

  /**
   * A toggle on and a successful toggle off restore the flag and the count and
   * leave no stored URI, whatever the store held before.
   */
  lemma {:induction false} ToggleRoundTrip(store: Store, post: PostView, k: Kind, agent: Mutation -> CallResult)
    requires !Active(Get(store, post.uri), k)
    requires agent(Create(k, post)).Done? && agent(Create(k, post)).uri != ""
    requires agent(Delete(k, agent(Create(k, post)).uri)).Done?
    ensures var once := HandleToggle(store, post, k, agent).store;
      var twice := HandleToggle(once, post, k, agent).store;
      && Active(Get(twice, post.uri), k) == Active(Get(store, post.uri), k)
      && Tally(Get(twice, post.uri), k) == Tally(Get(store, post.uri), k)
      && Handle(Get(twice, post.uri), k).None?
      && Others(Get(twice, post.uri), k) == Others(Get(store, post.uri), k)
      && (forall u :: u != post.uri ==> Get(twice, u) == Get(store, u))
  {
    var once := HandleToggle(store, post, k, agent);
    var created := agent(Create(k, post)).uri;
    assert Handle(Get(once.store, post.uri), k) == Some(created);
    assert HandleToggle(once.store, post, k, agent).call == Some(Delete(k, created));
  }

  /** A like whose created record came back with an empty URI can never be undone by the hook. */
  lemma EmptyHandleIsStuck(store: Store, post: PostView, k: Kind, agent: Mutation -> CallResult)
    requires Active(Get(store, post.uri), k) && Handle(Get(store, post.uri), k) == Some("")
    ensures HandleToggle(store, post, k, agent) == Effect(store, None)
  {
  }

  /**
   * A like or repost made before this session is undone through the seeded
   * record URI: after seeding, the first toggle deletes the viewer's record.
   */
  lemma SeededRecordIsDeleted(store: Store, post: PostView, k: Kind, agent: Mutation -> CallResult)
    requires !Get(store, post.uri).isInitialized
    requires post.viewer.Some?
    requires var record := if k == LikeKind then post.viewer.value.like else post.viewer.value.repost;
      Truthy(record)
    ensures var record := if k == LikeKind then post.viewer.value.like else post.viewer.value.repost;
      HandleToggle(Seed(store, post), post, k, agent).call == Some(Delete(k, record.value))
  {
  }
}

=== FILE: legacy_feed.dfy ===
/**
 * The older feed component (src/components/feed.tsx): every page comes from a
 * single batch, duplicates are removed within that batch only (first
 * occurrence wins) and there is no seen set across pages.
 */
module LegacyFeed {
  import opened Wrappers
  import opened Types
  import Feed
  import Post

  /** `findIndex` by URI: the first position holding `uri`, or -1. */
  function FindIndex(xs: seq<FeedItem>, uri: Uri): (r: int)
    ensures -1 <= r < |xs|
    ensures r >= 0 ==> xs[r].post.uri == uri && forall j :: 0 <= j < r ==> xs[j].post.uri != uri
    ensures r == -1 ==> forall j :: 0 <= j < |xs| ==> xs[j].post.uri != uri
  {
    if xs == [] then -1
    else if xs[0].post.uri == uri then 0
    else
      var k := FindIndex(xs[1..], uri);
      if k < 0 then -1 else k + 1
  }

  /** The keep-if-first-position-of-its-URI filter over the first `n` items. */
  function KeepAmong(xs: seq<FeedItem>, n: nat): seq<FeedItem>
    requires n <= |xs|
  {
    if n == 0 then []
    else KeepAmong(xs, n - 1) + (if FindIndex(xs, xs[n - 1].post.uri) == n - 1 then [xs[n - 1]] else [])
  }

  /** Within-batch de-duplication keeping the first occurrence of each URI. */
  function KeepFirst(xs: seq<FeedItem>): seq<FeedItem> {
    KeepAmong(xs, |xs|)
  }

  /** Extending the list does not change which of the earlier items are kept. */
  lemma {:induction false} KeepAmongSnoc(xs: seq<FeedItem>, x: FeedItem, n: nat)
    requires n <= |xs|
    ensures KeepAmong(xs + [x], n) == KeepAmong(xs, n)
    decreases n
  {
    if n > 0 {
      KeepAmongSnoc(xs, x, n - 1);
      var u := xs[n - 1].post.uri;
      assert (xs + [x])[n - 1] == xs[n - 1];
      assert forall j :: 0 <= j < |xs| ==> (xs + [x])[j] == xs[j];
      var k := FindIndex(xs, u);
      assert 0 <= k <= n - 1;
      assert FindIndex(xs + [x], u) == k;
    }
  }

  /** Appending an item keeps it iff its URI is new. */
  lemma KeepFirstSnoc(xs: seq<FeedItem>, x: FeedItem)
    ensures KeepFirst(xs + [x]) == KeepFirst(xs) + (if x.post.uri !in Feed.UriSet(xs) then [x] else [])
  {
    KeepAmongSnoc(xs, x, |xs|);
    var k := FindIndex(xs + [x], x.post.uri);
    if x.post.uri in Feed.UriSet(xs) {
      var i :| 0 <= i < |xs| && xs[i].post.uri == x.post.uri;
      assert (xs + [x])[i] == xs[i];
    } else {
      assert forall j :: 0 <= j < |xs| ==> (xs + [x])[j] == xs[j];
    }
  }

  /** First-occurrence de-duplication keeps each URI exactly once. */
  lemma {:induction false} KeepFirstSound(xs: seq<FeedItem>)
    ensures Feed.Distinct(KeepFirst(xs))
    ensures Feed.UriSet(KeepFirst(xs)) == Feed.UriSet(xs)
    decreases |xs|
  {
    if xs != [] {
      var init := xs[..|xs| - 1];
      var x := xs[|xs| - 1];
      assert xs == init + [x];
      KeepFirstSound(init);
      KeepFirstSnoc(init, x);
      Feed.UriSetSnoc(init, x);
      if x.post.uri !in Feed.UriSet(init) {
        Feed.UriSetSnoc(KeepFirst(init), x);
        assert Feed.UriSet([x]) == {x.post.uri};
        Feed.DistinctConcat(KeepFirst(init), [x]);
      } else {
        assert KeepFirst(xs) == KeepFirst(init);
        assert Feed.UriSet(xs) == Feed.UriSet(init) + {x.post.uri} == Feed.UriSet(init);
      }
    }
  }

  /** The items whose URI is not in `seen`, in order. */
  function Unseen(xs: seq<FeedItem>, seen: set<Uri>): (r: seq<FeedItem>)
    ensures Feed.UriSet(r) == Feed.UriSet(xs) - seen
    decreases |xs|
  {
    if xs == [] then []
    else
      var init := Unseen(xs[..|xs| - 1], seen);
      var x := xs[|xs| - 1];
      assert xs == xs[..|xs| - 1] + [x];
      Feed.UriSetSnoc(xs[..|xs| - 1], x);
      if x.post.uri in seen then init
      else
        Feed.UriSetSnoc(init, x);
        init + [x]
  }

  /**
   * The seen-set filter of the newer pipeline is first-occurrence
   * de-duplication of the resolved items it has not seen yet; on an empty seen
   * set it is exactly this component's within-batch de-duplication.
   */
  lemma {:induction false} AdmitIsKeepFirst(batch: seq<Option<FeedItem>>, seen: set<Uri>)
    ensures Feed.Admit(batch, seen).posts == KeepFirst(Unseen(Feed.Somes(batch), seen))
    decreases |batch|
  {
    if batch != [] {
      var init := batch[..|batch| - 1];
      var last := batch[|batch| - 1];
      AdmitIsKeepFirst(init, seen);
      Feed.AdmitSound(init, seen);
      var ys := Feed.Somes(init);
      if last.Some? {
        var x := last.value;
        assert Feed.Somes(batch) == ys + [x];
        assert (ys + [x])[..|ys + [x]| - 1] == ys;
        assert Unseen(ys + [x], seen) == Unseen(ys, seen) + (if x.post.uri in seen then [] else [x]);
        if x.post.uri !in seen {
          KeepFirstSnoc(Unseen(ys, seen), x);
        }
      }
    }
  }

  lemma UnseenNothing(xs: seq<FeedItem>)
    ensures Unseen(xs, {}) == xs
  {
    if xs != [] {
      UnseenNothing(xs[..|xs| - 1]);
      assert xs == xs[..|xs| - 1] + [xs[|xs| - 1]];
    }
  }

  /** On an empty seen set the two de-duplications agree. */
  lemma AdmitFreshIsKeepFirst(batch: seq<Option<FeedItem>>)
    ensures Feed.Admit(batch, {}).posts == KeepFirst(Feed.Somes(batch))
  {
    AdmitIsKeepFirst(batch, {});
    UnseenNothing(Feed.Somes(batch));
  }

  // --------------------------------------------------------------- page cache

  datatype LegacyState = LegacyState(
    pages: map<int, Feed.PageData>,
    isLoading: bool,
    currentPage: int,
    error: Option<string>)

  /** The cursor a page is fetched from: none for page 1, else the stored previous page's. */
  function PageCursor(pages: map<int, Feed.PageData>, pageNumber: int): (c: Option<string>)
    ensures pageNumber == 1 ==> c.None?
    ensures pageNumber != 1 && pageNumber - 1 in pages ==> c == pages[pageNumber - 1].cursor
    ensures pageNumber - 1 !in pages ==> c.None?
  {
    if pageNumber == 1 then None else Feed.PrevCursor(pages, pageNumber)
  }

  /** A page built from one batch: resolved, de-duplicated within the batch, cut at 20. */
  function BatchPage(feed: seq<FeedItem>, net: Feed.Network): (r: seq<FeedItem>)
    ensures |r| <= Feed.PostsPerPage
    ensures Feed.Distinct(r)
    ensures r <= KeepFirst(Feed.Somes(Feed.ResolveAll(feed, net)))
    ensures var kept := KeepFirst(Feed.Somes(Feed.ResolveAll(feed, net)));
      |r| == if |kept| <= Feed.PostsPerPage then |kept| else Feed.PostsPerPage
    ensures |KeepFirst(Feed.Somes(Feed.ResolveAll(feed, net)))| <= Feed.PostsPerPage ==>
      Feed.UriSet(r) == Feed.UriSet(Feed.Somes(Feed.ResolveAll(feed, net)))
  {
    var kept := KeepFirst(Feed.Somes(Feed.ResolveAll(feed, net)));
    KeepFirstSound(Feed.Somes(Feed.ResolveAll(feed, net)));
    Feed.Take(kept)
  }

  /**
   * `loadPage` of the older component: a stored page is only switched to;
   * otherwise one batch is fetched and stored with the response's cursor, or
   * the error is set.
   */
  function LoadPage(st: LegacyState, pageNumber: int, feedType: Feed.FeedType, net: Feed.Network): (r: LegacyState)
    ensures pageNumber in st.pages ==> r == st.(currentPage := pageNumber, isLoading := false, error := None)
    ensures !r.isLoading
    ensures pageNumber !in st.pages && r.error.None? ==>
      && net.timeline(feedType, PageCursor(st.pages, pageNumber)).Timeline?
      && r.pages == st.pages[pageNumber := Feed.PageData(
           BatchPage(net.timeline(feedType, PageCursor(st.pages, pageNumber)).feed, net),
           net.timeline(feedType, PageCursor(st.pages, pageNumber)).cursor)]
      && r.currentPage == pageNumber
    ensures r.error.Some? ==> r.pages == st.pages && r.currentPage == st.currentPage
    ensures pageNumber !in st.pages ==>
      match net.timeline(feedType, PageCursor(st.pages, pageNumber))
      case Timeline(cursor, feed) =>
        && r.error.None?
        && r.pages == st.pages[pageNumber := Feed.PageData(BatchPage(feed, net), cursor)]
        && r.currentPage == pageNumber
      case TimelineFailed =>
        r.error == Some(Feed.LoadError) && r.pages == st.pages && r.currentPage == st.currentPage
  {
    if pageNumber in st.pages then st.(currentPage := pageNumber, isLoading := false, error := None)
    else match net.timeline(feedType, PageCursor(st.pages, pageNumber))
      case TimelineFailed => st.(isLoading := false, error := Some(Feed.LoadError))
      case Timeline(cursor, feed) =>
        st.(pages := st.pages[pageNumber := Feed.PageData(BatchPage(feed, net), cursor)],
            currentPage := pageNumber, isLoading := false, error := None)
  }

  /** The reset effect: forget the pages, go to page 1 and load it. */
  function ResetAndLoad(st: LegacyState, feedType: Feed.FeedType, net: Feed.Network): (r: LegacyState)
    ensures forall n :: n in r.pages ==> n == 1
    ensures r.error.None? ==> r.currentPage == 1 && 1 in r.pages
    ensures match net.timeline(feedType, None)
      case Timeline(cursor, feed) =>
        r.error.None? && r.pages == map[1 := Feed.PageData(BatchPage(feed, net), cursor)] && r.currentPage == 1
      case TimelineFailed =>
        r.error == Some(Feed.LoadError) && r.pages == map[]
  {
    LoadPage(st.(pages := map[], currentPage := 1), 1, feedType, net)
  }

  /** Every stored page holds at most 20 posts and no URI twice. */
  predicate PagesSound(pages: map<int, Feed.PageData>) {
    forall n :: n in pages ==> |pages[n].posts| <= Feed.PostsPerPage && Feed.Distinct(pages[n].posts)
  }

  /** Every load keeps each stored page within 20 posts and free of repeats. */
  lemma LoadPagePreservesPages(st: LegacyState, pageNumber: int, feedType: Feed.FeedType, net: Feed.Network)
    requires PagesSound(st.pages)
    ensures PagesSound(LoadPage(st, pageNumber, feedType, net).pages)
  {
  }

  /** The reset effect leaves only sound pages. */
  lemma ResetAndLoadSound(st: LegacyState, feedType: Feed.FeedType, net: Feed.Network)
    ensures PagesSound(ResetAndLoad(st, feedType, net).pages)
  {
    LoadPagePreservesPages(st.(pages := map[], currentPage := 1), 1, feedType, net);
  }

  /**
   * A page of this component is the newer pipeline's admission of the same
   * batch from an empty seen set, cut at 20: the two agree on a single batch
   * and differ only in what they remember across pages.
   */
  lemma BatchPageIsFreshAdmit(feed: seq<FeedItem>, net: Feed.Network)
    ensures BatchPage(feed, net) == Feed.Take(Feed.Admit(Feed.ResolveAll(feed, net), {}).posts)
  {
    AdmitFreshIsKeepFirst(Feed.ResolveAll(feed, net));
  }

  /**
   * Without a seen set, two pages may share a URI: whenever the batches of
   * pages 1 and 2 both hold the same non-reply post, both pages show it.
   */
  lemma {:induction false} PagesMayRepeat(st: LegacyState, feedType: Feed.FeedType, net: Feed.Network, item: FeedItem)
    requires st.pages == map[]
    requires !Post.IsReplyRecord(item.post.record)
    requires net.timeline(feedType, None) == Feed.Timeline(Some("c1"), [item])
    requires net.timeline(feedType, Some("c1")) == Feed.Timeline(Some("c2"), [item])
    ensures var p1 := LoadPage(st, 1, feedType, net);
      var p2 := LoadPage(p1, 2, feedType, net);
      p2.pages[1].posts == [item] && p2.pages[2].posts == [item]
  {
    var resolved := Feed.ResolveAll([item], net);
    assert resolved == [Some(item)];
    assert Feed.Somes(resolved) == [item];
    assert FindIndex([item], item.post.uri) == 0;
    assert KeepAmong([item], 0) == [];
    assert KeepFirst([item]) == [item];
  }
}

=== FILE: local_toggles.dfy ===
/**
 * The like and repost buttons that keep their state inside the component
 * instead of the shared store: the repost button of the thread views
 * (src/components/thread/thread-reply.tsx, src/components/thread/thread-post.tsx)
 * and of the card (src/components/post-card/post-actions.tsx), and both
 * buttons of the older card (src/components/post-card.tsx).
 */
module LocalToggles {
  import opened Wrappers
  import opened Types
  import Interactions

  /** One button's state: on or off, the shown count, and the URI of the viewer's own record. */
  datatype Button = Button(active: bool, count: int, handle: Option<Uri>)

  /** The button after a click, and the write the click issued, if any. */
  datatype Effect = Effect(button: Button, call: Option<Interactions.Mutation>)

  /**
   * The repost button's first state: reposted exactly when the viewer's
   * `repost` is defined (an empty string counts), the count read with `|| 0`,
   * and that `repost` as the stored handle.
   */
  function RepostInit(post: PostView): (b: Button)
    ensures b.active <==> post.viewer.Some? && post.viewer.value.repost.Some?
    ensures b.count == Count(post.repostCount) && b.count >= 0
    ensures b.active <==> b.handle.Some?
    ensures b.handle.Some? ==> post.viewer == Some(Viewer(post.viewer.value.like, b.handle))
  {
    var repost := if post.viewer.Some? then post.viewer.value.repost else None;
    Button(repost.Some?, Count(post.repostCount), repost)
  }

  /**
   * A local button's click (`handleRepost` of the thread views and of the
   * card, for `RepostKind`): off, create the record and, once the call
   * succeeds, store the new record's URI and count one more; on with a stored
   * URI, delete that record and, once the call succeeds, clear the URI and
   * count one less; on without a URI, do nothing. A failed call changes
   * nothing.
   */
  function HandleLocal(b: Button, post: PostView, k: Interactions.Kind,
                       agent: Interactions.Mutation -> Interactions.CallResult): (r: Effect)
    ensures !b.active ==> r.call == Some(Interactions.Create(k, post))
    ensures !b.active && agent(Interactions.Create(k, post)).Done? ==>
      r.button == Button(true, b.count + 1, Some(agent(Interactions.Create(k, post)).uri))
    ensures b.active && Truthy(b.handle) ==> r.call == Some(Interactions.Delete(k, b.handle.value))
    ensures b.active && Truthy(b.handle) && agent(Interactions.Delete(k, b.handle.value)).Done? ==>
      r.button == Button(false, b.count - 1, None)
    ensures b.active && !Truthy(b.handle) ==> r == Effect(b, None)
    ensures r.call.Some? && agent(r.call.value).Failed? ==> r.button == b
  {
    if !b.active then
      var call := Interactions.Create(k, post);
      match agent(call)
      case Failed => Effect(b, Some(call))
      case Done(created) => Effect(Button(true, b.count + 1, Some(created)), Some(call))
    else if Truthy(b.handle) then
      var call := Interactions.Delete(k, b.handle.value);
      match agent(call)
      case Failed => Effect(b, Some(call))
      case Done(_) => Effect(Button(false, b.count - 1, None), Some(call))
    else Effect(b, None)
  }

  /** The fields of one kind of a shared-store entry, as a button. */
  function ButtonOf(i: Interactions.Interaction, k: Interactions.Kind): Button {
    Button(Interactions.Active(i, k), Interactions.Tally(i, k), Interactions.Handle(i, k))
  }

  /**
   * A component-local button and the shared store's toggle are the same
   * machine: started from the same state, they issue the same write and end
   * in the same state.
   */
  lemma {:induction false} LocalMatchesStore(store: Interactions.Store, post: PostView, k: Interactions.Kind,
                                             agent: Interactions.Mutation -> Interactions.CallResult)
    ensures var shared := Interactions.HandleToggle(store, post, k, agent);
      var local := HandleLocal(ButtonOf(Interactions.Get(store, post.uri), k), post, k, agent);
      && local.call == shared.call
      && local.button == ButtonOf(Interactions.Get(shared.store, post.uri), k)
  {
    var cur := Interactions.Get(store, post.uri);
    var shared := Interactions.HandleToggle(store, post, k, agent);
    var now := Interactions.Get(shared.store, post.uri);
    assert ButtonOf(cur, k) == Button(Interactions.Active(cur, k), Interactions.Tally(cur, k), Interactions.Handle(cur, k));
    assert ButtonOf(now, k) == Button(Interactions.Active(now, k), Interactions.Tally(now, k), Interactions.Handle(now, k));
  }

  // ------------------------------------------------------------ the older card

  /** Both buttons of the older card, and the reply count it shows (`replyCount || 0`). */
  datatype Card = Card(like: Button, repost: Button, replies: nat)

  /**
   * The older card's first state as written: it reads `viewer` from the feed
   * item, which carries none (the viewer state belongs to the post), so both
   * buttons always start off, whatever the viewer did.
   */
  function CardInitAsWritten(item: FeedItem): (c: Card)
    ensures !c.like.active && !c.repost.active
    ensures c.like.count == Count(item.post.likeCount) && c.repost.count == Count(item.post.repostCount)
    ensures c.replies == Count(item.post.replyCount)
  {
    Card(Button(false, Count(item.post.likeCount), None), Button(false, Count(item.post.repostCount), None),
      Count(item.post.replyCount))
  }

  /** The older card's first state read from the post's viewer state, as the other cards do. */
  function CardInit(item: FeedItem): (c: Card)
    ensures c.like.active <==> item.post.viewer.Some? && item.post.viewer.value.like.Some?
    ensures c.repost.active <==> item.post.viewer.Some? && item.post.viewer.value.repost.Some?
    ensures c.like.count == Count(item.post.likeCount) && c.repost.count == Count(item.post.repostCount)
    ensures c.replies == Count(item.post.replyCount)
    ensures c.repost == RepostInit(item.post)
  {
    var v := item.post.viewer;
    Card(
      Button(v.Some? && v.value.like.Some?, Count(item.post.likeCount), if v.Some? then v.value.like else None),
      RepostInit(item.post),
      Count(item.post.replyCount))
  }

  /** A post the viewer already liked starts unliked on the older card as written, so a click likes it again. */
  lemma LikedPostStartsUnliked(item: FeedItem, agent: Interactions.Mutation -> Interactions.CallResult)
    requires item.post.viewer.Some? && item.post.viewer.value.like.Some?
    ensures CardInit(item).like.active
    ensures !CardInitAsWritten(item).like.active
    ensures CardToggleAsWritten(CardInitAsWritten(item).like, item.post, Interactions.LikeKind, agent).call
      == Some(Interactions.Like(item.post.uri, item.post.cid))
  {
  }

  /**
   * The older card's `handleLike` / `handleRepost` as written: off, create the
   * record and, once the call succeeds, turn on and count one more; on,
   * delete by the POST's URI (no record URI is ever stored) and, once the call
   * succeeds, turn off and count one less. A failed call changes nothing.
   */
  function CardToggleAsWritten(b: Button, post: PostView, k: Interactions.Kind,
                               agent: Interactions.Mutation -> Interactions.CallResult): (r: Effect)
    ensures r.call == Some(if b.active then Interactions.Delete(k, post.uri) else Interactions.Create(k, post))
    ensures agent(r.call.value).Done? ==> r.button == Button(!b.active, if b.active then b.count - 1 else b.count + 1, b.handle)
    ensures agent(r.call.value).Failed? ==> r.button == b
  {
    var call := if b.active then Interactions.Delete(k, post.uri) else Interactions.Create(k, post);
    match agent(call)
    case Failed => Effect(b, Some(call))
    case Done(_) => Effect(b.(active := !b.active, count := if b.active then b.count - 1 else b.count + 1), Some(call))
  }

  /**
   * After a like on the older card, the unlike asks to delete the post's URI,
   * not the like record the first call created (the local and shared toggles
   * delete the created record, `LocalMatchesStore`).
   */
  lemma UnlikeTargetsPost(b: Button, post: PostView, k: Interactions.Kind,
                          agent: Interactions.Mutation -> Interactions.CallResult)
    requires !b.active
    requires agent(Interactions.Create(k, post)).Done? && agent(Interactions.Create(k, post)).uri != post.uri
    ensures var created := agent(Interactions.Create(k, post)).uri;
      var once := CardToggleAsWritten(b, post, k, agent).button;
      && once.active
      && CardToggleAsWritten(once, post, k, agent).call == Some(Interactions.Delete(k, post.uri))
      && CardToggleAsWritten(once, post, k, agent).call != Some(Interactions.Delete(k, created))
      && HandleLocal(HandleLocal(b, post, k, agent).button, post, k, agent).call
           == (if created == "" then None else Some(Interactions.Delete(k, created)))
  {
  }
}

=== FILE: post.dfy ===
/** Helpers shared by every view: reply detection, URLs and the reply sort (src/lib/post.ts). */
module Post {
  import opened Wrappers
  import opened Types
  import Sorting

  const ProfilePrefix: string := "https://bsky.app/profile/"

  predicate IsReplyRecord(r: Record) {
    r.PostRecord? && r.reply.Some? && r.reply.value.parentUri.Some?
  }

  /** The parent URI a reply record points at, or `None` for a record that is not a reply. */
  function ParentUri(r: Record): (p: Option<Uri>)
    ensures p.Some? <==> IsReplyRecord(r)
    ensures p.Some? ==> r.reply == Some(ReplyRef(p))
  {
    if IsReplyRecord(r) then r.reply.value.parentUri else None
  }

  /**
   * The last piece of `s` split at `/`: the text after the last `/`, or all
   * of `s` when it has no `/`.
   */
  function LastSegment(s: string): (r: string)
    ensures |r| <= |s| && s[|s| - |r|..] == r
    ensures '/' !in r
    ensures |r| < |s| ==> s[|s| - |r| - 1] == '/'
  {
    if s == [] then []
    else if s[|s| - 1] == '/' then []
    else LastSegment(s[..|s| - 1]) + [s[|s| - 1]]
  }

  /** The last segment of `p + "/" + seg` is `seg` whenever `seg` has no `/`. */
  lemma {:induction false} LastSegmentAfterSlash(p: string, seg: string)
    requires '/' !in seg
    ensures LastSegment(p + "/" + seg) == seg
    decreases |seg|
  {
    var s := p + "/" + seg;
    if seg == [] {
      assert s[|s| - 1] == '/';
    } else {
      var init := seg[..|seg| - 1];
      assert '/' !in init by {
        forall i | 0 <= i < |init| ensures init[i] != '/' {
          assert init[i] == seg[i];
        }
      }
      LastSegmentAfterSlash(p, init);
      assert s[..|s| - 1] == p + "/" + init;
      assert s[|s| - 1] == seg[|seg| - 1] != '/';
      assert seg == init + [seg[|seg| - 1]];
    }
  }

  const PostSegment: string := "/post"

  function ProfileUrl(handle: string): (url: string)
    ensures |url| == |ProfilePrefix| + |handle|
    ensures url[..|ProfilePrefix|] == ProfilePrefix && url[|ProfilePrefix|..] == handle
  {
    ProfilePrefix + handle
  }

  /** `https://bsky.app/profile/<handle>/post/<rkey>` with rkey the last segment of the post URI. */
  function PostUrl(handle: string, postUri: Uri): (url: string)
    ensures |url| > |ProfileUrl(handle)|
  {
    ProfileUrl(handle) + (PostSegment + "/" + LastSegment(postUri))
  }

  /** A post URL starts with its author's profile URL. */
  lemma PostUrlExtendsProfile(handle: string, postUri: Uri)
    ensures PostUrl(handle, postUri)[..|ProfileUrl(handle)|] == ProfileUrl(handle)
  {
    PrefixOfConcat(ProfileUrl(handle), PostSegment + "/" + LastSegment(postUri));
  }

  lemma PrefixOfConcat(a: string, b: string)
    ensures (a + b)[..|a|] == a
  {
  }

  lemma Regroup(a: string, b: string, c: string, d: string)
    ensures a + (b + c + d) == a + b + c + d
  {
  }

  /** A post URL ends in the post URI's record key, whatever the handle. */
  lemma PostUrlKeepsRkey(handle: string, postUri: Uri)
    ensures LastSegment(PostUrl(handle, postUri)) == LastSegment(postUri)
  {
    Regroup(ProfileUrl(handle), PostSegment, "/", LastSegment(postUri));
    LastSegmentAfterSlash(ProfileUrl(handle) + PostSegment, LastSegment(postUri));
  }

  /** The sort key: descending like count is ascending negated like count. */
  function LikeKey(n: ThreadNode): int {
    -(Likes(n) as int)
  }

  /**
   * `sortRepliesByLikes`: a copy of `replies` ordered by non-increasing like
   * count, equal counts keeping their input order.
   */
  function SortRepliesByLikes(replies: seq<ThreadNode>): (r: seq<ThreadNode>)
    ensures multiset(r) == multiset(replies)
    ensures forall i, j :: 0 <= i < j < |r| ==> Likes(r[i]) >= Likes(r[j])
    ensures forall k :: Sorting.WithKey(r, LikeKey, k) == Sorting.WithKey(replies, LikeKey, k)
  {
    var r := Sorting.StableSort(replies, LikeKey);
    Sorting.StableSortStableAll(replies, LikeKey);
    assert forall i, j :: 0 <= i < j < |r| ==> LikeKey(r[i]) <= LikeKey(r[j]);
    r
  }

  /** Replies already in order are returned unchanged, so sorting twice equals sorting once. */
  lemma SortRepliesIdempotent(replies: seq<ThreadNode>)
    ensures SortRepliesByLikes(SortRepliesByLikes(replies)) == SortRepliesByLikes(replies)
  {
    Sorting.SortIdempotent(replies, LikeKey);
  }

  lemma SortedRepliesUnchanged(replies: seq<ThreadNode>)
    requires forall i, j :: 0 <= i < j < |replies| ==> Likes(replies[i]) >= Likes(replies[j])
    ensures SortRepliesByLikes(replies) == replies
  {
    assert Sorting.SortedByKey(replies, LikeKey);
    Sorting.SortSortedIsIdentity(replies, LikeKey);
  }
}

=== FILE: post_meta.dfy ===
/**
 * The "submitted ... by" line of a card (src/components/post-card/post-meta.tsx):
 * the author, and the author of a quoted post when that is someone else.
 */
module PostMeta {
  import opened Wrappers
  import opened Types

  const RecordViewType: string := "app.bsky.embed.record#view"

  /**
   * `getEmbeddedAuthor`: the quoted post's author handle when the post's view
   * embed is a record view, the handle is present and not empty, and it is
   * not the post's own author; otherwise nothing (`null`).
   */
  function EmbeddedAuthor(post: PostView): (r: Option<string>)
    ensures post.embed.None? ==> r.None?
    ensures r.Some? <==> post.embed.Some? && post.embed.value.typ == RecordViewType
                         && Truthy(post.embed.value.authorHandle)
                         && post.embed.value.authorHandle.value != post.author.handle
    ensures r.Some? ==> r == post.embed.value.authorHandle && r.value != "" && r.value != post.author.handle
  {
    match post.embed
    case None => None
    case Some(embed) =>
      if embed.typ == RecordViewType && Truthy(embed.authorHandle) && embed.authorHandle.value != post.author.handle
      then embed.authorHandle
      else None
  }
}

=== FILE: post_types.dfy ===
/**
 * The tags shown on a feed card (`usePostTypes`,
 * src/components/feed/post-card/use-post-types.ts): what the record embeds
 * (a quoted post, images, a video, an external link) and whether the text
 * carries a link facet.
 */
module PostTypes {
  import opened Wrappers
  import opened Types
  import Post
  import RichText

  const RecordType: string := "app.bsky.embed.record"
  const ImagesType: string := "app.bsky.embed.images"
  const VideoType: string := "app.bsky.embed.video"
  const ExternalType: string := "app.bsky.embed.external"

  /** The tag kinds, in the order they are pushed. */
  datatype Kind = Quote | Image | Video | LinkTag | Youtube | Spotify | Embed

  /** The `type` string each kind is shown as. */
  function Name(k: Kind): string {
    match k
    case Quote => "quote"
    case Image => "image"
    case Video => "video"
    case LinkTag => "link"
    case Youtube => "youtube"
    case Spotify => "spotify"
    case Embed => "embed"
  }

  /** Position of a kind in the push order; the three external kinds share the last place. */
  function Rank(k: Kind): nat {
    match k
    case Quote => 0
    case Image => 1
    case Video => 2
    case LinkTag => 3
    case _ => 4
  }

  /** Where a tag points: a post's page on bsky.app, or an address taken from the record as it is. */
  datatype Href = PostPage(handle: string, postUri: Uri) | Address(uri: Option<string>)

  datatype Tag = Tag(kind: Kind, href: Href)

  /** The `url` a tag carries. */
  function Url(t: Tag): Option<string> {
    match t.href
    case PostPage(handle, postUri) => Some(Post.PostUrl(handle, postUri))
    case Address(uri) => uri
  }

  /** `hasEmbedType`: the record has an embed whose `$type` is exactly `typ`. */
  predicate HasEmbedType(r: Record, typ: string) {
    r.PostRecord? && r.embed.Some? && r.embed.value.typ == Some(typ)
  }

  // ------------------------------------------------- case-insensitive search

  /** The four embed types are different strings, so at most one `hasEmbedType` check holds for a record. */
  lemma EmbedTypesDistinct()
    ensures RecordType != ImagesType && RecordType != VideoType && RecordType != ExternalType
    ensures ImagesType != VideoType && ImagesType != ExternalType && VideoType != ExternalType
  {
    assert RecordType[15] == 'r' && ImagesType[15] == 'i';
  }

  /** ASCII lower case; every other character is its own. */
  function Lower(c: char): char {
    if 'A' <= c <= 'Z' then (c as int + 32) as char else c
  }

  function Lowered(t: string): (r: string)
    ensures |r| == |t| && forall k :: 0 <= k < |t| ==> r[k] == Lower(t[k])
  {
    seq(|t|, k requires 0 <= k < |t| => Lower(t[k]))
  }

  /** `pat` (lower case) occurs in `s` at `i`, ignoring ASCII case. */
  predicate MatchAt(s: string, i: nat, pat: string)
    requires i + |pat| <= |s|
  {
    Lowered(s[i..i + |pat|]) == pat
  }

  lemma MatchShift(s: string, pat: string)
    requires s != []
    ensures forall i: nat :: i + |pat| <= |s| - 1 ==> (MatchAt(s[1..], i, pat) <==> MatchAt(s, i + 1, pat))
  {
    forall i: nat | i + |pat| <= |s| - 1
      ensures MatchAt(s[1..], i, pat) <==> MatchAt(s, i + 1, pat)
    {
      assert s[1..][i..i + |pat|] == s[i + 1..i + 1 + |pat|];
    }
  }

  /**
   * A regular expression that is one literal with the `i` flag: without the
   * `u` flag, case folding maps no non-ASCII character onto an ASCII letter,
   * so ignoring ASCII case is exact.
   */
  function ContainsIgnoringCase(s: string, pat: string): (b: bool)
    ensures b <==> exists i: nat :: i + |pat| <= |s| && MatchAt(s, i, pat)
    decreases |s|
  {
    if |s| < |pat| then false
    else if MatchAt(s, 0, pat) then true
    else
      MatchShift(s, pat);
      var rest := ContainsIgnoringCase(s[1..], pat);
      assert rest ==> exists i: nat :: i + |pat| <= |s| && MatchAt(s, i, pat) by {
        if rest {
          var i: nat :| i + |pat| <= |s| - 1 && MatchAt(s[1..], i, pat);
          assert MatchAt(s, i + 1, pat);
        }
      }
      assert (exists i: nat :: i + |pat| <= |s| && MatchAt(s, i, pat)) ==> rest by {
        if exists i: nat :: i + |pat| <= |s| && MatchAt(s, i, pat) {
          var i: nat :| i + |pat| <= |s| && MatchAt(s, i, pat);
          assert i != 0;
          assert MatchAt(s[1..], i - 1, pat);
        }
      }
      rest
  }

  /** The YouTube pattern: `youtube.com` or `youtu.be`, ignoring case. */
  predicate IsYoutube(uri: string) {
    ContainsIgnoringCase(uri, "youtube.com") || ContainsIgnoringCase(uri, "youtu.be")
  }

  /** `/spotify\.com/i`. */
  predicate IsSpotify(uri: string) {
    ContainsIgnoringCase(uri, "spotify.com")
  }

  // ------------------------------------------------------------------ tagging

  predicate HasLinkFeature(f: Facet) {
    RichText.FindFeature(f.features, RichText.LinkType).Some?
  }

  /** The first facet of the record that has a link feature. */
  function LinkFacet(r: Record): (f: Option<Facet>)
    ensures f.Some? ==> HasLinkFeature(f.value)
  {
    if r.PostRecord? && r.facets.Some? then Find(r.facets.value, HasLinkFeature) else None
  }

  /** The quote condition: a record embed, and a view embed carrying the quoted author's handle. */
  predicate QuoteShown(post: PostView) {
    HasEmbedType(post.record, RecordType) && post.embed.Some? && Truthy(post.embed.value.authorHandle)
  }

  /** The external link of an external embed, when it has a non-empty URI. */
  predicate ExternalShown(post: PostView) {
    HasEmbedType(post.record, ExternalType) && Truthy(post.record.embed.value.externalUri)
  }

  /** The tag a quote embed gives. */
  function QuoteTags(post: PostView): (ts: seq<Tag>)
    ensures |ts| <= 1 && (ts != [] <==> QuoteShown(post))
    ensures ts != [] ==> ts[0] == Tag(Quote, PostPage(post.embed.value.authorHandle.value, post.record.embed.value.quotedUri))
  {
    if QuoteShown(post)
    then [Tag(Quote, PostPage(post.embed.value.authorHandle.value, post.record.embed.value.quotedUri))]
    else []
  }

  /** The tag an images or a video embed gives: the post's own URL. */
  function MediaTags(post: PostView, typ: string, kind: Kind): (ts: seq<Tag>)
    ensures |ts| <= 1 && (ts != [] <==> HasEmbedType(post.record, typ)) && (ts != [] ==> ts[0].kind == kind)
    ensures ts != [] ==> ts[0] == Tag(kind, PostPage(post.author.handle, post.uri))
  {
    if HasEmbedType(post.record, typ) then [Tag(kind, PostPage(post.author.handle, post.uri))] else []
  }

  /** The tag the first link facet gives: the URI of its first link feature. */
  function LinkTags(post: PostView): (ts: seq<Tag>)
    ensures |ts| <= 1 && (ts != [] <==> LinkFacet(post.record).Some?)
    ensures ts != [] ==> ts[0] == Tag(LinkTag, Address(RichText.FindFeature(LinkFacet(post.record).value.features, RichText.LinkType).value.uri))
  {
    match LinkFacet(post.record)
    case None => []
    case Some(f) => [Tag(LinkTag, Address(RichText.FindFeature(f.features, RichText.LinkType).value.uri))]
  }

  /** The kind an external URI is shown as. */
  function ExternalKind(uri: string): (k: Kind)
    ensures k == Youtube <==> IsYoutube(uri)
    ensures k == Spotify <==> !IsYoutube(uri) && IsSpotify(uri)
    ensures k.Youtube? || k.Spotify? || k.Embed?
  {
    if IsYoutube(uri) then Youtube else if IsSpotify(uri) then Spotify else Embed
  }

  /** The tag an external embed with a non-empty URI gives. */
  function ExternalTags(post: PostView): (ts: seq<Tag>)
    ensures |ts| <= 1 && (ts != [] <==> ExternalShown(post))
    ensures ts != [] ==> ts[0] == Tag(ExternalKind(post.record.embed.value.externalUri.value), Address(post.record.embed.value.externalUri))
  {
    if !ExternalShown(post) then []
    else
      var uri := post.record.embed.value.externalUri.value;
      if IsYoutube(uri) then [Tag(Youtube, Address(Some(uri)))]
      else if IsSpotify(uri) then [Tag(Spotify, Address(Some(uri)))]
      else [Tag(Embed, Address(Some(uri)))]
  }

  lemma InOrder(a: seq<Tag>, l: seq<Tag>, e: seq<Tag>)
    requires |a| <= 1 && |l| <= 1 && |e| <= 1 && (a == [] || e == [])
    requires a != [] ==> a[0].kind.Quote? || a[0].kind.Image? || a[0].kind.Video?
    requires l != [] ==> l[0].kind.LinkTag?
    requires e != [] ==> e[0].kind.Youtube? || e[0].kind.Spotify? || e[0].kind.Embed?
    ensures |a + l + e| <= 2
    ensures |a + l + e| == 2 ==> Rank((a + l + e)[0].kind) < Rank((a + l + e)[1].kind)
  {
    var ts := a + l + e;
    if |ts| == 2 {
      if a != [] {
        assert ts[0] == a[0] && ts[1] == l[0];
      } else {
        assert ts[0] == l[0] && ts[1] == e[0];
      }
    }
  }

  /** Of pieces that are all empty but one at most, the concatenation is that one. */
  lemma OneOf(a: seq<Tag>, b: seq<Tag>, c: seq<Tag>)
    requires |a| + |b| + |c| <= 1
    ensures a + b + c == if a != [] then a else if b != [] then b else c
  {
    if a != [] {
      assert b == [] && c == [];
    } else if b != [] {
      assert c == [];
    }
  }

  /** The embed checks of `usePostTypes` exclude each other: at most one gives a tag. */
  lemma EmbedChecksExclusive(post: PostView)
    ensures |QuoteTags(post)| + |MediaTags(post, ImagesType, Image)| + |MediaTags(post, VideoType, Video)| + |ExternalTags(post)| <= 1
  {
    EmbedTypesDistinct();
  }

  /**
   * `usePostTypes`: the quote, image and video checks, the link facet, then
   * the external embed. `$type` is compared for equality, so at most one
   * embed check fires: there are at most two tags, in push order.
   */
  function Classify(post: PostView): (tags: seq<Tag>)
    ensures |tags| <= 2
    ensures |tags| == 2 ==> Rank(tags[0].kind) < Rank(tags[1].kind)
  {
    var quote, image, video := QuoteTags(post), MediaTags(post, ImagesType, Image), MediaTags(post, VideoType, Video);
    var link, external := LinkTags(post), ExternalTags(post);
    EmbedChecksExclusive(post);
    OneOf(quote, image, video);
    var embed := quote + image + video;
    assert embed != [] ==> embed[0].kind.Quote? || embed[0].kind.Image? || embed[0].kind.Video? by {
      if quote != [] {
        assert embed == quote;
      } else if image != [] {
        assert embed == image;
      }
    }
    InOrder(embed, link, external);
    embed + link + external
  }

  /** The dispatch on `$type` picks the one embed check that fires. */
  lemma EmbedTagIsChecks(post: PostView)
    ensures EmbedTag(post) == QuoteTags(post) + MediaTags(post, ImagesType, Image) + MediaTags(post, VideoType, Video) + ExternalTags(post)
  {
    var quote, image, video := QuoteTags(post), MediaTags(post, ImagesType, Image), MediaTags(post, VideoType, Video);
    var external := ExternalTags(post);
    EmbedChecksExclusive(post);
    OneOf(quote, image, video);
    if external != [] {
      assert quote + image + video == [];
    } else {
      assert quote + image + video + external == quote + image + video;
    }
  }

  /** The embed tag and the link tag are what `Classify` returns, whatever the order. */
  lemma ClassifyAgrees(post: PostView)
    ensures multiset(Classify(post)) == multiset(EmbedTag(post) + LinkTags(post))
  {
    var embed := QuoteTags(post) + MediaTags(post, ImagesType, Image) + MediaTags(post, VideoType, Video);
    var link, external := LinkTags(post), ExternalTags(post);
    EmbedTagIsChecks(post);
    assert Classify(post) == embed + link + external;
    assert EmbedTag(post) + link == embed + external + link;
  }

  /**
   * An independent reading of the embed checks: at most one tag, chosen by
   * the embed's `$type`.
   */
  function EmbedTag(post: PostView): (ts: seq<Tag>)
    ensures |ts| <= 1
    ensures ts != [] ==> ts[0].kind != LinkTag
  {
    var r := post.record;
    if !(r.PostRecord? && r.embed.Some? && r.embed.value.typ.Some?) then []
    else
      var typ := r.embed.value.typ.value;
      if typ == RecordType then QuoteTags(post)
      else if typ == ImagesType then MediaTags(post, ImagesType, Image)
      else if typ == VideoType then MediaTags(post, VideoType, Video)
      else if typ == ExternalType then ExternalTags(post)
      else []
  }
}

=== FILE: rich_text.dfy ===
/**
 * Facet segmentation of a post's text (`useRichText`,
 * src/components/post-card/use-rich-text.tsx): the text is cut at the
 * facets' byte ranges into plain runs, mentions and links.
 */
module RichText {
  import opened Wrappers
  import opened Types
  import Sorting
  import opened Utf

  const MentionType: string := "app.bsky.richtext.facet#mention"
  const LinkType: string := "app.bsky.richtext.facet#link"

  /** The first feature whose `$type` is `typ`. */
  function FindFeature(features: seq<Feature>, typ: string): Option<Feature> {
    Find(features, (f: Feature) => f.typ == typ)
  }

  /** One rendered element: a plain run of text, a mention button or a link button, each with its text. */
  datatype Piece =
    | Plain(units: seq<Unit>)
    | Mention(did: Option<string>, units: seq<Unit>)
    | Link(uri: Option<Uri>, units: seq<Unit>)

  /** `String.prototype.slice(from, to)` on code units, both ends clamped to the length. */
  function Slice(units: seq<Unit>, from: nat, to: nat): (r: seq<Unit>)
    ensures from <= to <= |units| ==> r == units[from..to]
    ensures to <= from || |units| <= from ==> r == []
  {
    var a := if from <= |units| then from else |units|;
    var b := if to <= |units| then to else |units|;
    if a < b then units[a..b] else []
  }

  /** The element of one facet: a mention wins over a link, a link over plain text. */
  function FacetPiece(f: Facet, units: seq<Unit>): (p: Piece)
    ensures p.units == units
    ensures p.Mention? <==> FindFeature(f.features, MentionType).Some?
    ensures p.Link? <==> FindFeature(f.features, MentionType).None? && FindFeature(f.features, LinkType).Some?
    ensures p.Mention? ==> p.did == FindFeature(f.features, MentionType).value.did
    ensures p.Link? ==> p.uri == FindFeature(f.features, LinkType).value.uri
  {
    match FindFeature(f.features, MentionType)
    case Some(m) => Mention(m.did, units)
    case None =>
      match FindFeature(f.features, LinkType)
      case Some(l) => Link(l.uri, units)
      case None => Plain(units)
  }

  function StartKey(f: Facet): int {
    f.byteStart
  }

  /** A copy of the facets, stably sorted by start byte. */
  function SortFacets(facets: seq<Facet>): (r: seq<Facet>)
    ensures multiset(r) == multiset(facets)
    ensures forall i, j :: 0 <= i < j < |r| ==> r[i].byteStart <= r[j].byteStart
    ensures forall k :: Sorting.WithKey(r, StartKey, k) == Sorting.WithKey(facets, StartKey, k)
  {
    var r := Sorting.StableSort(facets, StartKey);
    Sorting.StableSortStableAll(facets, StartKey);
    assert forall i, j :: 0 <= i < j < |r| ==> StartKey(r[i]) <= StartKey(r[j]);
    r
  }

  /**
   * The `forEach` over the sorted facets from `lastIndex`, followed by the
   * trailing text: before each facet the gap since `lastIndex` if there is
   * one, then the facet's element; `lastIndex` moves to the facet's end.
   */
  function Walk(text: string, facets: seq<Facet>, lastIndex: nat): seq<Piece>
    decreases |facets|
  {
    var units := Utf16(text);
    if facets == [] then
      if lastIndex < |units| then [Plain(Slice(units, lastIndex, |units|))] else []
    else
      var start := ByteToStringIndex(text, facets[0].byteStart);
      var end := ByteToStringIndex(text, facets[0].byteEnd);
      Gap(units, lastIndex, start) + [FacetPiece(facets[0], Slice(units, start, end))] + Walk(text, facets[1..], end)
  }

  /** The plain run before a facet, when the facet starts after `lastIndex`. */
  function Gap(units: seq<Unit>, lastIndex: nat, start: nat): seq<Piece> {
    if start > lastIndex then [Plain(Slice(units, lastIndex, start))] else []
  }

  /** What `useRichText` returns: the bare text when there are no facets, otherwise the elements. */
  datatype Rendered = WholeText(text: string) | Pieces(pieces: seq<Piece>)

  /** `useRichText` on a post record (`facets || []`). */
  function Render(text: string, facets: Option<seq<Facet>>): (r: Rendered)
    ensures r.WholeText? <==> facets.None? || facets.value == []
    ensures r.WholeText? ==> r.text == text
  {
    var fs := facets.GetOr([]);
    if |fs| == 0 then WholeText(text) else Pieces(Walk(text, SortFacets(fs), 0))
  }

  /** The text the elements show, in order. */
  function Flatten(pieces: seq<Piece>): seq<Unit>
    decreases |pieces|
  {
    if pieces == [] then [] else pieces[0].units + Flatten(pieces[1..])
  }

  lemma {:induction false} FlattenConcat(a: seq<Piece>, b: seq<Piece>)
    ensures Flatten(a + b) == Flatten(a) + Flatten(b)
    decreases |a|
  {
    if a != [] {
      assert (a + b)[1..] == a[1..] + b;
      FlattenConcat(a[1..], b);
    } else {
      assert a + b == b;
    }
  }

  /** Facets that each start no later than they end and end no later than the next one starts. */
  predicate Chained(facets: seq<Facet>) {
    && (forall i :: 0 <= i < |facets| ==> facets[i].byteStart <= facets[i].byteEnd)
    && (forall i :: 0 <= i < |facets| - 1 ==> facets[i].byteEnd <= facets[i + 1].byteStart)
  }

  lemma ChainedTail(facets: seq<Facet>)
    requires Chained(facets) && facets != []
    ensures Chained(facets[1..])
  {
    assert forall i :: 0 <= i < |facets| - 1 ==> facets[1..][i] == facets[i + 1];
  }

  lemma FlattenOne(p: Piece)
    ensures Flatten([p]) == p.units
  {
    assert [p][1..] == [];
    assert Flatten([p]) == p.units + Flatten([]);
  }

  lemma SliceJoin(units: seq<Unit>, from: nat, start: nat, end: nat)
    requires from <= start <= end <= |units|
    ensures units[from..start] + units[start..end] + units[end..] == units[from..]
  {
  }

  /** A gap, a facet and the rest, each showing its stretch, show the whole stretch. */
  lemma Glue(gap: seq<Piece>, piece: Piece, rest: seq<Piece>, units: seq<Unit>, from: nat, start: nat, end: nat)
    requires from <= start <= end <= |units|
    requires Flatten(gap) == units[from..start] && piece.units == units[start..end] && Flatten(rest) == units[end..]
    ensures Flatten(gap + [piece] + rest) == units[from..]
  {
    FlattenConcat(gap + [piece], rest);
    FlattenConcat(gap, [piece]);
    FlattenOne(piece);
    SliceJoin(units, from, start, end);
  }

  lemma GapShows(units: seq<Unit>, lastIndex: nat, start: nat)
    requires lastIndex <= start <= |units|
    ensures Flatten(Gap(units, lastIndex, start)) == units[lastIndex..start]
  {
    if start > lastIndex {
      FlattenOne(Plain(units[lastIndex..start]));
    }
  }

  /** The elements from `lastIndex` on show exactly the text from `lastIndex` on. */
  lemma {:induction false} WalkCovers(text: string, facets: seq<Facet>, lastIndex: nat)
    requires Chained(facets)
    requires lastIndex <= |Utf16(text)|
    requires facets != [] ==> lastIndex <= ByteToStringIndex(text, facets[0].byteStart)
    ensures Flatten(Walk(text, facets, lastIndex)) == Utf16(text)[lastIndex..]
    decreases |facets|
  {
    var units := Utf16(text);
    if facets == [] {
      if lastIndex < |units| {
        FlattenOne(Plain(units[lastIndex..]));
      }
    } else {
      var f := facets[0];
      var start := ByteToStringIndex(text, f.byteStart);
      var end := ByteToStringIndex(text, f.byteEnd);
      IndexMonotone(text, f.byteStart, f.byteEnd);
      ChainedTail(facets);
      if |facets| > 1 {
        IndexMonotone(text, f.byteEnd, facets[1].byteStart);
      }
      WalkCovers(text, facets[1..], end);
      GapShows(units, lastIndex, start);
      Glue(Gap(units, lastIndex, start), FacetPiece(f, Slice(units, start, end)), Walk(text, facets[1..], end), units, lastIndex, start, end);
    }
  }

  // ------------------------------------------------------- what the walk shows

  /** The element a facet shows on its own: its kind of piece over its own stretch of the text. */
  function OwnPiece(text: string, f: Facet): Piece {
    var units := Utf16(text);
    FacetPiece(f, Slice(units, ByteToStringIndex(text, f.byteStart), ByteToStringIndex(text, f.byteEnd)))
  }

  /** Each facet's own element, in the facets' order. */
  function OwnPieces(text: string, facets: seq<Facet>): seq<Piece>
    decreases |facets|
  {
    if facets == [] then [] else [OwnPiece(text, facets[0])] + OwnPieces(text, facets[1..])
  }

  /**
   * Which elements of the walk from `lastIndex` belong to a facet (`true`)
   * and which are plain runs of the text between or after the facets
   * (`false`): a run before a facet exactly when the facet starts after
   * `lastIndex`, and a trailing run exactly when `lastIndex` is short of the
   * end.
   */
  function FacetMarks(text: string, facets: seq<Facet>, lastIndex: nat): seq<bool>
    decreases |facets|
  {
    if facets == [] then
      if lastIndex < |Utf16(text)| then [false] else []
    else
      var start := ByteToStringIndex(text, facets[0].byteStart);
      var end := ByteToStringIndex(text, facets[0].byteEnd);
      (if start > lastIndex then [false] else []) + [true] + FacetMarks(text, facets[1..], end)
  }

  /** The elements at the marked positions, in order. */
  function Marked(ps: seq<Piece>, marks: seq<bool>): seq<Piece>
    requires |ps| == |marks|
    decreases |ps|
  {
    if ps == [] then [] else (if marks[0] then [ps[0]] else []) + Marked(ps[1..], marks[1..])
  }

  /** Every unmarked element is a plain run with some text in it. */
  predicate RunsNonEmpty(ps: seq<Piece>, marks: seq<bool>)
    requires |ps| == |marks|
  {
    forall j :: 0 <= j < |ps| && !marks[j] ==> ps[j].Plain? && ps[j].units != []
  }

  lemma {:induction false} MarkedConcat(a: seq<Piece>, ma: seq<bool>, b: seq<Piece>, mb: seq<bool>)
    requires |a| == |ma| && |b| == |mb|
    ensures Marked(a + b, ma + mb) == Marked(a, ma) + Marked(b, mb)
    decreases |a|
  {
    if a != [] {
      assert (a + b)[1..] == a[1..] + b;
      assert (ma + mb)[1..] == ma[1..] + mb;
      MarkedConcat(a[1..], ma[1..], b, mb);
    } else {
      assert a + b == b && ma + mb == mb;
    }
  }

  lemma RunsConcat(a: seq<Piece>, ma: seq<bool>, b: seq<Piece>, mb: seq<bool>)
    requires |a| == |ma| && |b| == |mb|
    requires RunsNonEmpty(a, ma) && RunsNonEmpty(b, mb)
    ensures RunsNonEmpty(a + b, ma + mb)
  {
    forall j | 0 <= j < |a + b| && !(ma + mb)[j] ensures (a + b)[j].Plain? && (a + b)[j].units != [] {
      if j >= |a| {
        assert (a + b)[j] == b[j - |a|] && (ma + mb)[j] == mb[j - |a|];
      }
    }
  }

  /** The gap before a facet is marked as a run, and it holds text whenever it is there. */
  lemma GapRuns(units: seq<Unit>, lastIndex: nat, start: nat)
    requires start <= |units|
    ensures var marks := if start > lastIndex then [false] else [];
      |Gap(units, lastIndex, start)| == |marks| && Marked(Gap(units, lastIndex, start), marks) == []
      && RunsNonEmpty(Gap(units, lastIndex, start), marks)
  {
    if start > lastIndex {
      assert Slice(units, lastIndex, start) == units[lastIndex..start];
      assert [false][1..] == [];
    }
  }

  /**
   * The walk shows, at the marked positions and in order, exactly each
   * facet's own element over its own stretch; every other element is a
   * non-empty plain run.
   */
  lemma {:induction false} WalkPieces(text: string, facets: seq<Facet>, lastIndex: nat)
    ensures |FacetMarks(text, facets, lastIndex)| == |Walk(text, facets, lastIndex)|
    ensures Marked(Walk(text, facets, lastIndex), FacetMarks(text, facets, lastIndex)) == OwnPieces(text, facets)
    ensures RunsNonEmpty(Walk(text, facets, lastIndex), FacetMarks(text, facets, lastIndex))
    decreases |facets|
  {
    var units := Utf16(text);
    if facets == [] {
      if lastIndex < |units| {
        assert Slice(units, lastIndex, |units|) == units[lastIndex..];
        assert [false][1..] == [];
      }
    } else {
      var start := ByteToStringIndex(text, facets[0].byteStart);
      var end := ByteToStringIndex(text, facets[0].byteEnd);
      WalkPieces(text, facets[1..], end);
      GapRuns(units, lastIndex, start);
      WalkStep(Gap(units, lastIndex, start), if start > lastIndex then [false] else [],
               FacetPiece(facets[0], Slice(units, start, end)),
               Walk(text, facets[1..], end), FacetMarks(text, facets[1..], end), OwnPieces(text, facets[1..]));
    }
  }

  /** One step of the walk: a gap of runs, then a marked facet element, then the rest. */
  lemma WalkStep(gap: seq<Piece>, gapMarks: seq<bool>, piece: Piece,
                 rest: seq<Piece>, restMarks: seq<bool>, restOwn: seq<Piece>)
    requires |gap| == |gapMarks| && Marked(gap, gapMarks) == [] && RunsNonEmpty(gap, gapMarks)
    requires |rest| == |restMarks| && Marked(rest, restMarks) == restOwn && RunsNonEmpty(rest, restMarks)
    ensures |gapMarks + [true] + restMarks| == |gap + [piece] + rest|
    ensures Marked(gap + [piece] + rest, gapMarks + [true] + restMarks) == [piece] + restOwn
    ensures RunsNonEmpty(gap + [piece] + rest, gapMarks + [true] + restMarks)
  {
    PieceRuns(gap, gapMarks, piece);
    MarkedConcat(gap + [piece], gapMarks + [true], rest, restMarks);
    RunsConcat(gap + [piece], gapMarks + [true], rest, restMarks);
  }

  /** A gap of runs followed by one marked element shows that element alone. */
  lemma PieceRuns(gap: seq<Piece>, gapMarks: seq<bool>, piece: Piece)
    requires |gap| == |gapMarks| && Marked(gap, gapMarks) == [] && RunsNonEmpty(gap, gapMarks)
    ensures Marked(gap + [piece], gapMarks + [true]) == [piece]
    ensures RunsNonEmpty(gap + [piece], gapMarks + [true])
  {
    assert Marked([piece], [true]) == [piece] by {
      assert [piece][1..] == [] && [true][1..] == [];
    }
    MarkedConcat(gap, gapMarks, [piece], [true]);
    RunsConcat(gap, gapMarks, [piece], [true]);
  }

  /**
   * What a post with facets renders: the stably sorted facets' own elements,
   * in order, with non-empty plain runs of text between and after them.
   */
  lemma RenderPieces(text: string, facets: seq<Facet>)
    requires facets != []
    ensures Render(text, Some(facets)).Pieces?
    ensures var ps := Render(text, Some(facets)).pieces;
      var marks := FacetMarks(text, SortFacets(facets), 0);
      && |marks| == |ps|
      && Marked(ps, marks) == OwnPieces(text, SortFacets(facets))
      && RunsNonEmpty(ps, marks)
  {
    WalkPieces(text, SortFacets(facets), 0);
  }

  /** The text a rendering shows, as code units. */
  function Shown(r: Rendered): seq<Unit> {
    match r
    case WholeText(t) => Utf16(t)
    case Pieces(ps) => Flatten(ps)
  }

  /**
   * When the sorted facets do not overlap, the elements put back together are
   * the whole text: nothing is lost and nothing is shown twice. Offsets past
   * the end or inside a character are allowed.
   */
  lemma RenderRoundTrip(text: string, facets: Option<seq<Facet>>)
    requires facets.Some? ==> Chained(SortFacets(facets.value))
    ensures Shown(Render(text, facets)) == Utf16(text)
  {
    var fs := facets.GetOr([]);
    if |fs| != 0 {
      WalkCovers(text, SortFacets(fs), 0);
    }
  }

  /** Sorting two copies of one facet leaves them as they are. */
  lemma SortTwin(f: Facet)
    ensures SortFacets([f, f]) == [f, f]
  {
    var r := SortFacets([f, f]);
    assert multiset(r) == multiset{f, f};
    assert r[0] in multiset(r) && r[1] in multiset(r);
  }

  /** The whole UTF-8 form maps to the whole string. */
  lemma WholeTextIndex(text: string)
    ensures ByteToStringIndex(text, |Encode(text)|) == |Utf16(text)|
  {
    assert text[..|text|] == text;
    BoundaryIndex(text, |text|);
  }

  /** A facet with no features is plain text. */
  lemma BareFacetIsPlain(f: Facet, units: seq<Unit>)
    requires f.features == []
    ensures FacetPiece(f, units) == Plain(units)
  {
  }

  /** A featureless facet from `start` to the end of the text, walked from `lastIndex` at or after `start`. */
  lemma WalkLastBare(text: string, f: Facet, lastIndex: nat)
    requires f.features == []
    requires ByteToStringIndex(text, f.byteStart) <= lastIndex
    requires ByteToStringIndex(text, f.byteEnd) == |Utf16(text)|
    ensures Walk(text, [f], lastIndex) == [Plain(Slice(Utf16(text), ByteToStringIndex(text, f.byteStart), |Utf16(text)|))]
  {
    assert [f][1..] == [];
    BareFacetIsPlain(f, Slice(Utf16(text), ByteToStringIndex(text, f.byteStart), |Utf16(text)|));
  }

  /** Two facets over the whole text make it show twice: the round trip needs the facets not to overlap. */
  lemma OverlapRepeats(text: string, f: Facet)
    requires f.features == [] && f.byteStart == 0 && f.byteEnd == |Encode(text)|
    ensures Render(text, Some([f, f])) == Pieces([Plain(Utf16(text)), Plain(Utf16(text))])
  {
    var units := Utf16(text);
    WholeTextIndex(text);
    SortTwin(f);
    assert Slice(units, 0, |units|) == units;
    WalkLastBare(text, f, |units|);
    assert [f, f][1..] == [f];
    BareFacetIsPlain(f, units);
  }
}

=== FILE: sorting.dfy ===
/**
 * A stable sort by an integer key, as `Array.prototype.sort` behaves with a
 * numeric comparator `(a, b) => key(a) - key(b)` (stable since the ECMAScript
 * 2019 edition). Both sorts of the client are instances: replies by
 * descending like count, and rich-text facets by ascending byte start.
 */
module Sorting {

  /** Keys never decrease from left to right. */
  predicate SortedByKey<T>(xs: seq<T>, key: T -> int) {
    forall i, j :: 0 <= i < j < |xs| ==> key(xs[i]) <= key(xs[j])
  }

  /** The subsequence of `xs` whose key is `k`, in the order of `xs`. */
  function WithKey<T>(xs: seq<T>, key: T -> int, k: int): seq<T> {
    if xs == [] then []
    else (if key(xs[0]) == k then [xs[0]] else []) + WithKey(xs[1..], key, k)
  }

  /** Inserts `x` before the first element whose key is at least `key(x)`. */
  function Insert<T>(x: T, s: seq<T>, key: T -> int): (r: seq<T>)
    ensures multiset(r) == multiset(s) + multiset{x}
    ensures |r| == |s| + 1
  {
    if s == [] || key(x) <= key(s[0]) then [x] + s
    else
      assert s == [s[0]] + s[1..];
      [s[0]] + Insert(x, s[1..], key)
  }

  /** Inserting `x` puts it first among the elements of its key and leaves every other key's elements alone. */
  lemma {:induction false} InsertWithKey<T>(x: T, s: seq<T>, key: T -> int, k: int)
    ensures WithKey(Insert(x, s, key), key, k) == (if key(x) == k then [x] else []) + WithKey(s, key, k)
    decreases |s|
  {
    if s == [] || key(x) <= key(s[0]) {
      assert ([x] + s)[1..] == s;
    } else {
      var rest := Insert(x, s[1..], key);
      InsertWithKey(x, s[1..], key, k);
      assert ([s[0]] + rest)[1..] == rest;
    }
  }

  /** The head of an insertion is the inserted element or the old head. */
  lemma InsertHead<T>(x: T, s: seq<T>, key: T -> int)
    requires s != []
    ensures Insert(x, s, key)[0] == x || Insert(x, s, key)[0] == s[0]
  {
  }

  /** A sorted sequence stays sorted under a head whose key is at most its first key. */
  lemma ConsSorted<T>(h: T, rest: seq<T>, key: T -> int)
    requires SortedByKey(rest, key)
    requires rest != [] ==> key(h) <= key(rest[0])
    ensures SortedByKey([h] + rest, key)
  {
    var r := [h] + rest;
    forall i, j | 0 <= i < j < |r| ensures key(r[i]) <= key(r[j]) {
      if i == 0 && j > 1 {
        assert r[j] == rest[j - 1];
      }
    }
  }

  lemma {:induction false} InsertSorted<T>(x: T, s: seq<T>, key: T -> int)
    requires SortedByKey(s, key)
    ensures SortedByKey(Insert(x, s, key), key)
    decreases |s|
  {
    if s == [] || key(x) <= key(s[0]) {
      ConsSorted(x, s, key);
    } else {
      var tail := s[1..];
      assert SortedByKey(tail, key) by {
        forall i, j | 0 <= i < j < |tail| ensures key(tail[i]) <= key(tail[j]) {
          assert tail[i] == s[i + 1] && tail[j] == s[j + 1];
        }
      }
      InsertSorted(x, tail, key);
      var rest := Insert(x, tail, key);
      if tail != [] {
        InsertHead(x, tail, key);
        assert key(s[0]) <= key(s[1]);
      } else {
        assert rest == [x];
      }
      ConsSorted(s[0], rest, key);
    }
  }

  /** Insertion sort. */
  function StableSort<T>(xs: seq<T>, key: T -> int): (r: seq<T>)
    ensures multiset(r) == multiset(xs)
    ensures |r| == |xs|
    ensures SortedByKey(r, key)
  {
    if xs == [] then []
    else
      var x, tail := xs[0], xs[1..];
      var rest := StableSort(tail, key);
      InsertSorted(x, rest, key);
      assert multiset(xs) == multiset(tail) + multiset{x} by {
        assert xs == [x] + tail;
      }
      Insert(x, rest, key)
  }

  /** The sort is stable: the elements of each key come out in their input order. */
  lemma {:induction false} StableSortStable<T>(xs: seq<T>, key: T -> int, k: int)
    ensures WithKey(StableSort(xs, key), key, k) == WithKey(xs, key, k)
    decreases |xs|
  {
    if xs != [] {
      StableSortStable(xs[1..], key, k);
      InsertWithKey(xs[0], StableSort(xs[1..], key), key, k);
    }
  }

  /** `StableSortStable` for every key at once. */
  lemma StableSortStableAll<T>(xs: seq<T>, key: T -> int)
    ensures forall k :: WithKey(StableSort(xs, key), key, k) == WithKey(xs, key, k)
  {
    forall k ensures WithKey(StableSort(xs, key), key, k) == WithKey(xs, key, k) {
      StableSortStable(xs, key, k);
    }
  }

  lemma {:induction false} WithKeyMembers<T>(xs: seq<T>, key: T -> int, k: int)
    ensures forall y :: y in WithKey(xs, key, k) <==> y in xs && key(y) == k
  {
    if xs != [] {
      WithKeyMembers(xs[1..], key, k);
      assert xs == [xs[0]] + xs[1..];
    }
  }

  lemma WithKeyCons<T>(xs: seq<T>, key: T -> int, k: int)
    requires xs != []
    ensures WithKey(xs[1..], key, k) == WithKey(xs, key, k)[(if key(xs[0]) == k then 1 else 0)..]
  {
  }

  /** Equal heads and equal per-key subsequences give equal per-key subsequences of the tails. */
  lemma TailsAgree<T>(a: seq<T>, b: seq<T>, key: T -> int)
    requires a != [] && b != [] && a[0] == b[0]
    requires forall k :: WithKey(a, key, k) == WithKey(b, key, k)
    ensures forall k :: WithKey(a[1..], key, k) == WithKey(b[1..], key, k)
  {
    forall k ensures WithKey(a[1..], key, k) == WithKey(b[1..], key, k) {
      WithKeyCons(a, key, k);
      WithKeyCons(b, key, k);
    }
  }

  /** Two sorted sequences that agree on every key start with the same element. */
  lemma SortedSameHead<T>(a: seq<T>, b: seq<T>, key: T -> int)
    requires a != [] && b != []
    requires SortedByKey(a, key) && SortedByKey(b, key)
    requires forall k :: WithKey(a, key, k) == WithKey(b, key, k)
    ensures a[0] == b[0]
  {
    var ka, kb := key(a[0]), key(b[0]);
    WithKeyMembers(a, key, kb);
    WithKeyMembers(b, key, ka);
    assert b[0] in WithKey(b, key, kb);
    assert a[0] in WithKey(a, key, ka);
    var i :| 0 <= i < |a| && a[i] == b[0];
    var j :| 0 <= j < |b| && b[j] == a[0];
    assert ka <= key(a[i]) == kb;
    assert kb <= key(b[j]) == ka;
    assert WithKey(a, key, ka)[0] == a[0];
    assert WithKey(b, key, ka)[0] == b[0];
  }

  lemma SameKeysSameEmptiness<T>(a: seq<T>, b: seq<T>, key: T -> int)
    requires forall k :: WithKey(a, key, k) == WithKey(b, key, k)
    ensures a == [] <==> b == []
  {
    if a != [] {
      assert WithKey(b, key, key(a[0])) != [];
    }
    if b != [] {
      assert WithKey(a, key, key(b[0])) != [];
    }
  }

  /**
   * A sorted sequence is determined by its per-key subsequences: two sorted
   * sequences that agree on every key are equal. This is what makes the
   * stable sort unique.
   */
  lemma {:induction false} SortedUnique<T>(a: seq<T>, b: seq<T>, key: T -> int)
    requires SortedByKey(a, key) && SortedByKey(b, key)
    requires forall k :: WithKey(a, key, k) == WithKey(b, key, k)
    ensures a == b
  {
    SameKeysSameEmptiness(a, b, key);
    if a != [] {
      SortedSameHead(a, b, key);
      TailsAgree(a, b, key);
      SortedUnique(a[1..], b[1..], key);
      assert a == [a[0]] + a[1..];
      assert b == [b[0]] + b[1..];
    }
  }

  /** Sorting an already sorted sequence returns it unchanged. */
  lemma SortSortedIsIdentity<T>(xs: seq<T>, key: T -> int)
    requires SortedByKey(xs, key)
    ensures StableSort(xs, key) == xs
  {
    StableSortStableAll(xs, key);
    SortedUnique(StableSort(xs, key), xs, key);
  }

  /** Sorting twice is the same as sorting once. */
  lemma SortIdempotent<T>(xs: seq<T>, key: T -> int)
    ensures StableSort(StableSort(xs, key), key) == StableSort(xs, key)
  {
    SortSortedIsIdentity(StableSort(xs, key), key);
  }

  /** Applying `f` to every element. */
  function Map<A, B>(xs: seq<A>, f: A -> B): (r: seq<B>)
    ensures |r| == |xs|
    ensures forall i :: 0 <= i < |xs| ==> r[i] == f(xs[i])
  {
    seq(|xs|, i requires 0 <= i < |xs| => f(xs[i]))
  }

  /** Taking the same element out of two permutations leaves permutations. */
  lemma RemoveOne<A>(xs: seq<A>, ys: seq<A>, j: nat)
    requires xs != [] && j < |ys| && ys[j] == xs[0]
    requires multiset(xs) == multiset(ys)
    ensures multiset(xs[1..]) == multiset(ys[..j] + ys[j + 1..])
  {
    var x := xs[0];
    var a := multiset(xs[1..]);
    var b := multiset(ys[..j] + ys[j + 1..]);
    assert multiset(xs) == multiset{x} + a by { assert xs == [x] + xs[1..]; }
    assert multiset(ys) == multiset{x} + b by {
      assert ys == ys[..j] + [x] + ys[j + 1..];
    }
    assert forall z :: a[z] == (multiset{x} + a)[z] - multiset{x}[z];
    assert forall z :: b[z] == (multiset{x} + b)[z] - multiset{x}[z];
  }

  lemma MapConcat<A, B>(a: seq<A>, b: seq<A>, f: A -> B)
    ensures Map(a + b, f) == Map(a, f) + Map(b, f)
  {
  }

  /** Mapping a permutation gives a permutation. */
  lemma {:induction false} MapPermutation<A, B>(xs: seq<A>, ys: seq<A>, f: A -> B)
    requires multiset(xs) == multiset(ys)
    ensures multiset(Map(xs, f)) == multiset(Map(ys, f))
    decreases |xs|
  {
    if xs == [] {
      assert ys == [] by { assert |multiset(ys)| == 0; }
    } else {
      var x := xs[0];
      assert x in multiset(ys);
      var j :| 0 <= j < |ys| && ys[j] == x;
      var left, right := ys[..j], ys[j + 1..];
      RemoveOne(xs, ys, j);
      MapPermutation(xs[1..], left + right, f);
      assert ys == left + [x] + right;
      MapConcat(left + [x], right, f);
      MapConcat(left, [x], f);
      MapConcat(left, right, f);
      assert xs == [x] + xs[1..];
      MapConcat([x], xs[1..], f);
      assert Map([x], f) == [f(x)];
    }
  }
}

=== FILE: thread.dfy ===
/**
 * Thread assembly (src/hooks/use-thread.ts): the ancestor chain, the
 * popularity-sorted and depth-annotated reply tree, splicing fetched replies
 * into the tree by URI, collapse toggling and depth-bounded auto-expansion.
 * The protocol's `getPostThread` is the oracle `fetch`.
 */
module Thread {
  import opened Wrappers
  import opened Types
  import Post
  import Sorting

  /** The `depth` every `getPostThread` request asks for. */
  const MaxVisibleDepth: nat := 2
  /** Replies revealed per "page" of a nesting level. */
  const PostsPerPage: nat := 20
  /** Auto-expansion stops at this level (`currentDepth >= 2`). */
  const AutoExpandLimit: nat := 2
  const ThreadViewType: string := "app.bsky.feed.defs#threadViewPost"
  const LoadThreadError: string := "Failed to load thread"
  const LoadRepliesError: string := "Failed to load replies"

  /**
   * An element of a fetched `replies` array: a thread-view post and the node
   * it carries, or an entry of another `$type` (a blocked or not-found post),
   * which has no `post`.
   */
  datatype Entry = Reply(node: ThreadNode) | Other(typ: string)

  /** A thread as `getPostThread` returns it. */
  datatype ThreadView = ThreadView(typ: string, post: Option<PostView>, parent: Option<ThreadView>, replies: Option<seq<Entry>>)

  /** The outcome of one `getPostThread` call: it threw, reported failure, or returned a thread. */
  datatype Response = Threw | Unsuccessful | Success(thread: ThreadView)

  predicate IsThreadViewPost(v: ThreadView) {
    v.typ == ThreadViewType && v.post.Some?
  }

  predicate IsThreadViewEntry(e: Entry) {
    e.Reply?
  }

  /** The nodes of the thread-view entries, in order; entries without a post are passed over. */
  function EntryNodes(es: seq<Entry>): (r: seq<ThreadNode>)
    ensures |r| <= |es|
    decreases |es|
  {
    if es == [] then [] else (if es[0].Reply? then [es[0].node] else []) + EntryNodes(es[1..])
  }

  /** When every entry is a thread-view post, the nodes are the entries' nodes one for one. */
  lemma {:induction false} EntryNodesAll(es: seq<Entry>)
    requires forall e :: e in es ==> IsThreadViewEntry(e)
    ensures |EntryNodes(es)| == |es|
    ensures forall i :: 0 <= i < |es| ==> es[i].Reply? && EntryNodes(es)[i] == es[i].node
    decreases |es|
  {
    if es != [] {
      assert es[0] in es;
      assert forall e :: e in es[1..] ==> e in es;
      EntryNodesAll(es[1..]);
    }
  }

  /**
   * Whether `sortRepliesByLikes` gets through the entries: its comparator reads
   * `post.likeCount` of both sides, so it throws on an entry without a post as
   * soon as there are two entries to compare.
   */
  predicate Sortable(es: seq<Entry>) {
    |es| < 2 || forall e :: e in es ==> IsThreadViewEntry(e)
  }

  // ---------------------------------------------------------------- ancestors

  /**
   * The ancestor chain above a thread, oldest first and the immediate parent
   * last; the walk stops at the first parent that is not a thread-view post.
   * Each ancestor becomes a feed item with no reason.
   */
  function Ancestors(parent: Option<ThreadView>): (r: seq<FeedItem>)
    ensures forall i :: 0 <= i < |r| ==> r[i].reason.None?
    ensures parent.Some? && IsThreadViewPost(parent.value) ==> r != [] && r[|r| - 1].post == parent.value.post.value
    ensures !(parent.Some? && IsThreadViewPost(parent.value)) ==> r == []
  {
    if parent.Some? && IsThreadViewPost(parent.value) then
      Ancestors(parent.value.parent) + [FeedItem(parent.value.post.value, None)]
    else []
  }

  /** The parent walk of `loadThread`: `unshift` each parent's post while the parent is a thread-view post. */
  method CollectParents(thread: ThreadView) returns (parents: seq<FeedItem>)
    ensures parents == Ancestors(thread.parent)
  {
    parents := [];
    var current := thread.parent;
    while current.Some? && IsThreadViewPost(current.value)
      invariant Ancestors(thread.parent) == Ancestors(current) + parents
      decreases current
    {
      parents := [FeedItem(current.value.post.value, None)] + parents;
      current := current.value.parent;
    }
  }

  // ------------------------------------------------------------- tree queries

  /** Some node of the forest (at any depth) has URI `u`. */
  predicate ListHasUri(xs: seq<ThreadNode>, u: Uri)
    decreases xs
  {
    xs != [] && (NodeHasUri(xs[0], u) || ListHasUri(xs[1..], u))
  }

  predicate NodeHasUri(n: ThreadNode, u: Uri)
    decreases n
  {
    n.post.uri == u || (n.replies.Present? && ListHasUri(n.replies.nodes, u))
  }

  /** The forest with the replies of every node keyed `u` (and not below another such node) removed. */
  function PruneList(xs: seq<ThreadNode>, u: Uri): seq<ThreadNode>
    decreases xs
  {
    if xs == [] then [] else [PruneNode(xs[0], u)] + PruneList(xs[1..], u)
  }

  function PruneNode(n: ThreadNode, u: Uri): ThreadNode
    decreases n
  {
    if n.post.uri == u then n.(replies := Absent)
    else match n.replies
      case Absent => n
      case Present(ys) => n.(replies := Present(PruneList(ys, u)))
  }

  /** Every node keyed `u` that a top-down search reaches has `replies == field`. */
  predicate KeyedListHas(xs: seq<ThreadNode>, u: Uri, field: Replies)
    decreases xs
  {
    xs != [] ==> KeyedNodeHas(xs[0], u, field) && KeyedListHas(xs[1..], u, field)
  }

  predicate KeyedNodeHas(n: ThreadNode, u: Uri, field: Replies)
    decreases n
  {
    if n.post.uri == u then n.replies == field
    else n.replies.Present? ==> KeyedListHas(n.replies.nodes, u, field)
  }

  // ---------------------------------------------------------- splice by URI

  /** The `replies` a matched node receives: the sorted new replies, or absent. */
  function SplicedField(newReplies: Option<seq<ThreadNode>>): Replies {
    if newReplies.Some? then Present(Post.SortRepliesByLikes(newReplies.value)) else Absent
  }

  /**
   * The splice behind `updateRepliesInThread`: every node whose URI is
   * `parentUri` gets `field` as its replies; the old subtree of such a node is
   * not searched. Everything else is kept.
   */
  function SpliceList(posts: seq<ThreadNode>, parentUri: Uri, field: Replies): (r: seq<ThreadNode>)
    ensures |r| == |posts|
    ensures forall i :: 0 <= i < |r| ==> r[i].post == posts[i].post && r[i].depth == posts[i].depth
    ensures forall i :: 0 <= i < |r| && posts[i].post.uri == parentUri ==> r[i].replies == field
    ensures KeyedListHas(r, parentUri, field)
    ensures PruneList(r, parentUri) == PruneList(posts, parentUri)
    ensures !ListHasUri(posts, parentUri) ==> r == posts
    decreases posts
  {
    if posts == [] then []
    else
      var head := SpliceNode(posts[0], parentUri, field);
      var tail := SpliceList(posts[1..], parentUri, field);
      assert ([head] + tail)[1..] == tail;
      assert !ListHasUri(posts, parentUri) ==> posts == [posts[0]] + posts[1..];
      [head] + tail
  }

  function SpliceNode(n: ThreadNode, parentUri: Uri, field: Replies): (r: ThreadNode)
    ensures r.post == n.post && r.depth == n.depth
    ensures n.post.uri == parentUri ==> r.replies == field
    ensures KeyedNodeHas(r, parentUri, field)
    ensures PruneNode(r, parentUri) == PruneNode(n, parentUri)
    ensures !NodeHasUri(n, parentUri) ==> r == n
    decreases n
  {
    if n.post.uri == parentUri then n.(replies := field)
    else match n.replies
      case Absent => n
      case Present(ys) => n.(replies := Present(SpliceList(ys, parentUri, field)))
  }

  /**
   * `updateRepliesInThread`: every node whose URI is `parentUri` gets the
   * popularity-sorted `newReplies` (or loses its replies when there are none);
   * every other node, and the order and depth of all nodes, are kept.
   */
  function UpdateReplies(posts: seq<ThreadNode>, parentUri: Uri, newReplies: Option<seq<ThreadNode>>): (r: seq<ThreadNode>)
    ensures |r| == |posts|
    ensures forall i :: 0 <= i < |r| ==> r[i].post == posts[i].post && r[i].depth == posts[i].depth
    ensures forall i :: 0 <= i < |r| && posts[i].post.uri == parentUri ==> r[i].replies == SplicedField(newReplies)
    ensures KeyedListHas(r, parentUri, SplicedField(newReplies))
    ensures PruneList(r, parentUri) == PruneList(posts, parentUri)
    ensures !ListHasUri(posts, parentUri) ==> r == posts
  {
    SpliceList(posts, parentUri, SplicedField(newReplies))
  }

  /** Pre-sorting the new replies changes nothing, because the splice sorts them again. */
  lemma PresortedSpliceSame(posts: seq<ThreadNode>, parentUri: Uri, newReplies: seq<ThreadNode>)
    ensures UpdateReplies(posts, parentUri, Some(Post.SortRepliesByLikes(newReplies)))
         == UpdateReplies(posts, parentUri, Some(newReplies))
  {
    Post.SortRepliesIdempotent(newReplies);
  }

  // ---------------------------------------------------------- depth annotation

  /** The forest with every `depth` erased: what depth annotation must not change. */
  function StripList(xs: seq<ThreadNode>): seq<ThreadNode>
    decreases xs
  {
    if xs == [] then [] else [StripNode(xs[0])] + StripList(xs[1..])
  }

  function StripNode(n: ThreadNode): ThreadNode
    decreases n
  {
    match n.replies
    case Absent => n.(depth := None)
    case Present(ys) => n.(depth := None, replies := Present(StripList(ys)))
  }

  /** Every node of the top level has depth `d` and every child has its parent's depth plus one. */
  predicate DepthsFrom(xs: seq<ThreadNode>, d: int)
    decreases xs
  {
    xs != [] ==> NodeDepthsFrom(xs[0], d) && DepthsFrom(xs[1..], d)
  }

  predicate NodeDepthsFrom(n: ThreadNode, d: int)
    decreases n
  {
    n.depth == Some(d) && (n.replies.Present? ==> DepthsFrom(n.replies.nodes, d + 1))
  }

  /** `assignDepth`: sets depths top-down from `depth`, keeping the shape and every post. */
  function AssignDepth(posts: seq<ThreadNode>, depth: int): (r: seq<ThreadNode>)
    ensures |r| == |posts|
    ensures forall i :: 0 <= i < |r| ==> r[i].post == posts[i].post && r[i].depth == Some(depth)
    ensures DepthsFrom(r, depth)
    ensures StripList(r) == StripList(posts)
    decreases posts
  {
    if posts == [] then []
    else
      var head := AssignDepthNode(posts[0], depth);
      var tail := AssignDepth(posts[1..], depth);
      assert ([head] + tail)[1..] == tail;
      [head] + tail
  }

  function AssignDepthNode(n: ThreadNode, depth: int): (r: ThreadNode)
    ensures r.post == n.post && r.depth == Some(depth)
    ensures r.replies.Present? <==> n.replies.Present?
    ensures NodeDepthsFrom(r, depth)
    ensures StripNode(r) == StripNode(n)
    decreases n
  {
    match n.replies
    case Absent => n.(depth := Some(depth))
    case Present(ys) => n.(depth := Some(depth), replies := Present(AssignDepth(ys, depth + 1)))
  }

  /**
   * Depth annotation is the only forest with the same shape and posts whose
   * depths start at `d` and grow by one per level.
   */
  lemma {:induction false} AssignDepthUnique(xs: seq<ThreadNode>, ys: seq<ThreadNode>, d: int)
    requires DepthsFrom(ys, d) && StripList(ys) == StripList(xs)
    ensures ys == AssignDepth(xs, d)
    decreases xs
  {
    if xs != [] {
      assert ys != [] && StripNode(ys[0]) == StripNode(xs[0]) && StripList(ys[1..]) == StripList(xs[1..]) by {
        assert StripList(ys) != [];
        assert [StripNode(ys[0])] + StripList(ys[1..]) == [StripNode(xs[0])] + StripList(xs[1..]);
        assert StripList(ys[1..]) == StripList(ys)[1..];
      }
      AssignDepthNodeUnique(xs[0], ys[0], d);
      AssignDepthUnique(xs[1..], ys[1..], d);
      assert ys == [ys[0]] + ys[1..];
    } else {
      assert StripList(ys) == [];
    }
  }

  lemma {:induction false} AssignDepthNodeUnique(x: ThreadNode, y: ThreadNode, d: int)
    requires NodeDepthsFrom(y, d) && StripNode(y) == StripNode(x)
    ensures y == AssignDepthNode(x, d)
    decreases x
  {
    match x.replies
    case Absent =>
      assert y.replies.Absent?;
    case Present(xs) =>
      assert y.replies.Present?;
      AssignDepthUnique(xs, y.replies.nodes, d + 1);
  }

  // ------------------------------------------------------------ collapse state

  /** `toggleReplies`: flips whether `uri` is collapsed and leaves every other URI alone. */
  function ToggleReplies(collapsed: set<Uri>, uri: Uri): (r: set<Uri>)
    ensures uri in r <==> uri !in collapsed
    ensures forall u :: u != uri ==> (u in r <==> u in collapsed)
  {
    if uri in collapsed then collapsed - {uri} else collapsed + {uri}
  }

  lemma ToggleTwice(collapsed: set<Uri>, uri: Uri)
    ensures ToggleReplies(ToggleReplies(collapsed, uri), uri) == collapsed
  {
  }

  // ------------------------------------------------------------- auto-expand

  /** A node whose `replies` array is present and not empty (`reply.replies?.length`). */
  predicate HasReplies(n: ThreadNode) {
    n.replies.Present? && |n.replies.nodes| > 0
  }

  /** The replies a sub-thread fetch delivers: only a thread-view post whose replies are all thread-view posts. */
  function FetchedReplies(resp: Response): (r: Option<seq<ThreadNode>>)
    ensures r.Some? <==>
      && resp.Success? && IsThreadViewPost(resp.thread) && resp.thread.replies.Some?
      && forall e :: e in resp.thread.replies.value ==> IsThreadViewEntry(e)
    ensures r.Some? ==> r.value == EntryNodes(resp.thread.replies.value)
  {
    if resp.Success? && IsThreadViewPost(resp.thread) && resp.thread.replies.Some?
       && forall e :: e in resp.thread.replies.value ==> IsThreadViewEntry(e)
    then Some(EntryNodes(resp.thread.replies.value))
    else None
  }

  /** The part of the thread state auto-expansion changes. */
  datatype TreeState = TreeState(replies: seq<ThreadNode>, expanded: set<Uri>)

  function Rank(depth: nat): nat {
    if depth < AutoExpandLimit then AutoExpandLimit - depth else 0
  }

  /**
   * `autoExpandReplies(replies, depth)`: for each reply with replies, mark it
   * expanded, fetch its sub-thread, splice the fetched replies in and recurse
   * one level deeper on them. Nothing happens from depth 2 on.
   */
  function AutoExpand(replies: seq<ThreadNode>, depth: nat, st: TreeState, fetch: Uri -> Response): (r: TreeState)
    ensures st.expanded <= r.expanded
    ensures depth >= AutoExpandLimit ==> r == st
    decreases Rank(depth), 1, |replies|
  {
    if depth >= AutoExpandLimit || replies == [] then st
    else
      var st1 := if HasReplies(replies[0]) then ExpandOne(replies[0], depth, st, fetch) else st;
      AutoExpand(replies[1..], depth, st1, fetch)
  }

  function ExpandOne(n: ThreadNode, depth: nat, st: TreeState, fetch: Uri -> Response): (r: TreeState)
    requires depth < AutoExpandLimit
    ensures st.expanded + {n.post.uri} <= r.expanded
    decreases Rank(depth), 0
  {
    var uri := n.post.uri;
    var marked := st.(expanded := st.expanded + {uri});
    match FetchedReplies(fetch(uri))
    case None => marked
    case Some(fetched) =>
      var spliced := marked.(replies := UpdateReplies(marked.replies, uri, Some(Post.SortRepliesByLikes(fetched))));
      AutoExpand(fetched, depth + 1, spliced, fetch)
  }

  /**
   * The URIs auto-expansion marks, computed without the tree: every node with
   * replies at this level, and recursively the fetched replies one level
   * deeper, until the depth limit.
   */
  function ExpandTargets(replies: seq<ThreadNode>, depth: nat, fetch: Uri -> Response): set<Uri>
    decreases Rank(depth), 1, |replies|
  {
    if depth >= AutoExpandLimit || replies == [] then {}
    else (if HasReplies(replies[0]) then NodeTargets(replies[0], depth, fetch) else {})
         + ExpandTargets(replies[1..], depth, fetch)
  }

  function NodeTargets(n: ThreadNode, depth: nat, fetch: Uri -> Response): set<Uri>
    requires depth < AutoExpandLimit
    decreases Rank(depth), 0
  {
    {n.post.uri} + match FetchedReplies(fetch(n.post.uri))
      case None => {}
      case Some(fetched) => ExpandTargets(fetched, depth + 1, fetch)
  }

  /** Auto-expansion marks exactly the targets and nothing else. */
  lemma {:induction false} AutoExpandMarksTargets(replies: seq<ThreadNode>, depth: nat, st: TreeState, fetch: Uri -> Response)
    ensures AutoExpand(replies, depth, st, fetch).expanded == st.expanded + ExpandTargets(replies, depth, fetch)
    decreases Rank(depth), 1, |replies|
  {
    if depth < AutoExpandLimit && replies != [] {
      var st1 := if HasReplies(replies[0]) then ExpandOne(replies[0], depth, st, fetch) else st;
      if HasReplies(replies[0]) {
        ExpandOneMarksTargets(replies[0], depth, st, fetch);
      }
      AutoExpandMarksTargets(replies[1..], depth, st1, fetch);
    }
  }

  lemma {:induction false} ExpandOneMarksTargets(n: ThreadNode, depth: nat, st: TreeState, fetch: Uri -> Response)
    requires depth < AutoExpandLimit
    ensures ExpandOne(n, depth, st, fetch).expanded == st.expanded + NodeTargets(n, depth, fetch)
    decreases Rank(depth), 0
  {
    var uri := n.post.uri;
    var marked := st.(expanded := st.expanded + {uri});
    var got := FetchedReplies(fetch(uri));
    if got.Some? {
      var spliced := marked.(replies := UpdateReplies(marked.replies, uri, Some(Post.SortRepliesByLikes(got.value))));
      assert ExpandOne(n, depth, st, fetch) == AutoExpand(got.value, depth + 1, spliced, fetch);
      assert NodeTargets(n, depth, fetch) == {uri} + ExpandTargets(got.value, depth + 1, fetch);
      AutoExpandMarksTargets(got.value, depth + 1, spliced, fetch);
    }
  }

  /** Only nodes that have replies become targets: a level without such nodes expands nothing. */
  lemma {:induction false} TargetsNeedReplies(replies: seq<ThreadNode>, depth: nat, fetch: Uri -> Response)
    requires forall i :: 0 <= i < |replies| ==> !HasReplies(replies[i])
    ensures ExpandTargets(replies, depth, fetch) == {}
    decreases |replies|
  {
    if depth < AutoExpandLimit && replies != [] {
      TargetsNeedReplies(replies[1..], depth, fetch);
    }
  }

  // ------------------------------------------------------------- thread state

  datatype ThreadState = ThreadState(
    parents: seq<FeedItem>,
    replies: seq<ThreadNode>,
    expanded: set<Uri>,
    collapsed: set<Uri>,
    isLoading: bool,
    currentPage: nat,
    error: Option<string>)

  /**
   * The sorted, depth-annotated top level of a fetched thread
   * (`thread.replies || []`), or `None` when the sort throws on an entry
   * without a post.
   */
  function ProcessedReplies(thread: ThreadView): (r: Option<seq<ThreadNode>>)
    ensures r.None? <==> !Sortable(thread.replies.GetOr([]))
    ensures r.Some? ==> DepthsFrom(r.value, 0)
    ensures r.Some? ==> forall i, j :: 0 <= i < j < |r.value| ==> Likes(r.value[i]) >= Likes(r.value[j])
    ensures r.Some? ==> multiset(StripList(r.value)) == multiset(StripList(EntryNodes(thread.replies.GetOr([]))))
    ensures r.Some? ==> StripList(r.value) == StripList(Post.SortRepliesByLikes(EntryNodes(thread.replies.GetOr([]))))
  {
    var entries := thread.replies.GetOr([]);
    if !Sortable(entries) then None
    else
      var sorted := Post.SortRepliesByLikes(EntryNodes(entries));
      var r := AssignDepth(sorted, 0);
      assert forall i :: 0 <= i < |r| ==> Likes(r[i]) == Likes(sorted[i]);
      StripListIsMap(sorted);
      StripListIsMap(EntryNodes(entries));
      Sorting.MapPermutation(sorted, EntryNodes(entries), StripNode);
      Some(r)
  }

  /** Erasing depths works node by node. */
  lemma {:induction false} StripListIsMap(xs: seq<ThreadNode>)
    ensures StripList(xs) == Sorting.Map(xs, StripNode)
    decreases |xs|
  {
    if xs != [] {
      StripListIsMap(xs[1..]);
      assert Sorting.Map(xs, StripNode) == [StripNode(xs[0])] + Sorting.Map(xs[1..], StripNode);
    }
  }

  /**
   * `loadThread`: on success with a thread-view post, installs the ancestors
   * and the processed replies, clears the collapsed set, returns to reply page
   * 1 and auto-expands; the expanded set is kept. A throwing fetch, or a
   * reply sort that throws on an entry without a post, sets the error and
   * installs nothing; an unsuccessful fetch or a root that is not a
   * thread-view post only ends loading and clears the error.
   */
  function LoadThread(st: ThreadState, threadUri: Uri, fetch: Uri -> Response): (r: ThreadState)
    ensures !r.isLoading
    ensures fetch(threadUri).Threw? ==> r == st.(isLoading := false, error := Some(LoadThreadError))
    ensures (fetch(threadUri).Success? && IsThreadViewPost(fetch(threadUri).thread)
             && !Sortable(fetch(threadUri).thread.replies.GetOr([]))) ==>
      r == st.(isLoading := false, error := Some(LoadThreadError))
    ensures (fetch(threadUri).Success? && IsThreadViewPost(fetch(threadUri).thread)
             && Sortable(fetch(threadUri).thread.replies.GetOr([]))) ==>
      && r.collapsed == {}
      && r.currentPage == 1
      && r.error.None?
      && st.expanded <= r.expanded
      && r.parents == Ancestors(fetch(threadUri).thread.parent)
    ensures !fetch(threadUri).Threw? && !(fetch(threadUri).Success? && IsThreadViewPost(fetch(threadUri).thread)) ==>
      r == st.(isLoading := false, error := None)
  {
    match fetch(threadUri)
    case Threw => st.(isLoading := false, error := Some(LoadThreadError))
    case Unsuccessful => st.(isLoading := false, error := None)
    case Success(thread) =>
      if !IsThreadViewPost(thread) then st.(isLoading := false, error := None)
      else
        match ProcessedReplies(thread)
        case None => st.(isLoading := false, error := Some(LoadThreadError))
        case Some(processed) =>
          var expansion := AutoExpand(processed, 0, TreeState(processed, st.expanded), fetch);
          ThreadState(
            parents := Ancestors(thread.parent),
            replies := expansion.replies,
            expanded := expansion.expanded,
            collapsed := {},
            isLoading := false,
            currentPage := 1,
            error := None)
  }

  /** `loadMoreReplies`: reveals one more page of replies at every level. */
  function LoadMoreReplies(st: ThreadState): (r: ThreadState)
    ensures r.currentPage == st.currentPage + 1
    ensures r.(currentPage := st.currentPage) == st
  {
    st.(currentPage := st.currentPage + 1)
  }

  /**
   * Replies with equal like counts keep the order the server sent them in:
   * for each like count, the loaded top level lists those replies exactly
   * as fetched (depths aside).
   */
  lemma ProcessedTiesInOrder(thread: ThreadView, k: int)
    requires ProcessedReplies(thread).Some?
    ensures Sorting.WithKey(StripList(ProcessedReplies(thread).value), Post.LikeKey, k)
         == StripList(Sorting.WithKey(EntryNodes(thread.replies.GetOr([])), Post.LikeKey, k))
  {
    var sorted := Post.SortRepliesByLikes(EntryNodes(thread.replies.GetOr([])));
    WithKeyStrip(sorted, k);
  }

  /** Erasing depths commutes with picking the replies of one like count. */
  lemma {:induction false} WithKeyStrip(xs: seq<ThreadNode>, k: int)
    ensures Sorting.WithKey(StripList(xs), Post.LikeKey, k) == StripList(Sorting.WithKey(xs, Post.LikeKey, k))
    decreases |xs|
  {
    if xs != [] {
      WithKeyStrip(xs[1..], k);
      assert StripNode(xs[0]).post == xs[0].post;
      assert StripList(xs)[1..] == StripList(xs[1..]);
      StripListConcat(if Post.LikeKey(xs[0]) == k then [xs[0]] else [], Sorting.WithKey(xs[1..], Post.LikeKey, k));
    }
  }

  lemma {:induction false} StripListConcat(xs: seq<ThreadNode>, ys: seq<ThreadNode>)
    ensures StripList(xs + ys) == StripList(xs) + StripList(ys)
    decreases |xs|
  {
    if xs != [] {
      assert (xs + ys)[1..] == xs[1..] + ys;
      StripListConcat(xs[1..], ys);
    } else {
      assert xs + ys == ys;
    }
  }

  /**
   * `handleExpandReplies`: on a thread-view response, marks the node expanded
   * and, when every fetched reply is a thread-view post, splices them in. A
   * throwing fetch sets the error; other failures change nothing.
   */
  function HandleExpandReplies(st: ThreadState, postUri: Uri, fetch: Uri -> Response): (r: ThreadState)
    ensures fetch(postUri).Threw? ==> r == st.(error := Some(LoadRepliesError))
    ensures fetch(postUri).Success? && IsThreadViewPost(fetch(postUri).thread) ==> r.expanded == st.expanded + {postUri}
    ensures FetchedReplies(fetch(postUri)).Some? ==>
      r.replies == UpdateReplies(st.replies, postUri, FetchedReplies(fetch(postUri)))
    ensures FetchedReplies(fetch(postUri)).None? ==> r.replies == st.replies
    ensures fetch(postUri).Unsuccessful? || (fetch(postUri).Success? && !IsThreadViewPost(fetch(postUri).thread)) ==> r == st
    ensures r.collapsed == st.collapsed && r.parents == st.parents && r.currentPage == st.currentPage
    ensures !fetch(postUri).Threw? ==> r.error == st.error && r.isLoading == st.isLoading
  {
    match fetch(postUri)
    case Threw => st.(error := Some(LoadRepliesError))
    case Unsuccessful => st
    case Success(thread) =>
      if !IsThreadViewPost(thread) then st
      else
        var marked := st.(expanded := st.expanded + {postUri});
        match FetchedReplies(fetch(postUri))
        case None => marked
        case Some(fetched) => marked.(replies := UpdateReplies(st.replies, postUri, Some(fetched)))
  }
}

=== FILE: thread_view.dfy ===
/**
 * The decision rules of the thread page (src/components/thread/thread.tsx):
 * which replies each nesting level reveals, when "load more replies" shows,
 * the flags handed to each reply, and what a click on a reply's expander does.
 */
module ThreadView {
  import opened Wrappers
  import opened Types
  import Thread

  /** One rendered reply: its URI and depth, the flags passed down, and the rendered level below it. */
  datatype Shown = Shown(uri: Uri, depth: Option<int>, hasMoreReplies: bool, isExpanded: bool, children: Option<Level>)

  /** One rendered nesting level: the revealed replies and whether "load more replies" shows. */
  datatype Level = Level(items: seq<Shown>, loadMore: bool)

  function Min(a: nat, b: nat): nat {
    if a <= b then a else b
  }

  /** How many replies a level reveals on page `page` (the first `page * 20`). */
  function Revealed(total: nat, page: nat): nat {
    Min(total, page * Thread.PostsPerPage)
  }

  /**
   * `renderReplies`: nothing for an absent or empty list; otherwise the first
   * `page * 20` replies, each with its children unless it is collapsed, and a
   * "load more" button when some replies stay hidden.
   */
  function RenderReplies(replies: Replies, page: nat, collapsed: set<Uri>): (r: Option<Level>)
    ensures r.None? <==> |NodesOf(replies)| == 0
    ensures r.Some? ==> |r.value.items| == Revealed(|NodesOf(replies)|, page)
    ensures r.Some? ==> forall i :: 0 <= i < |r.value.items| ==> ShownFaithfully(r.value.items[i], NodesOf(replies)[i], collapsed)
    ensures r.Some? ==> (r.value.loadMore <==> |NodesOf(replies)| > page * Thread.PostsPerPage)
    decreases replies
  {
    if |NodesOf(replies)| == 0 then None
    else
      var nodes := NodesOf(replies);
      var items := RenderNodes(nodes, Revealed(|nodes|, page), page, collapsed);
      Some(Level(items, |nodes| > |items|))
  }

  /** What a rendered reply must show of its node. */
  predicate ShownFaithfully(s: Shown, n: ThreadNode, collapsed: set<Uri>) {
    && s.uri == n.post.uri
    && s.depth == n.depth
    && (s.hasMoreReplies <==> |NodesOf(n.replies)| > 0)
    && (s.isExpanded <==> n.post.uri !in collapsed)
    && (s.children.Some? <==> n.post.uri !in collapsed && |NodesOf(n.replies)| > 0)
  }

  function RenderNodes(nodes: seq<ThreadNode>, count: nat, page: nat, collapsed: set<Uri>): (r: seq<Shown>)
    requires count <= |nodes|
    ensures |r| == count
    ensures forall i :: 0 <= i < count ==> ShownFaithfully(r[i], nodes[i], collapsed)
    decreases nodes
  {
    if count == 0 then []
    else
      var head := RenderNode(nodes[0], page, collapsed);
      var tail := RenderNodes(nodes[1..], count - 1, page, collapsed);
      assert forall i :: 1 <= i < count ==> nodes[i] == nodes[1..][i - 1];
      [head] + tail
  }

  function RenderNode(n: ThreadNode, page: nat, collapsed: set<Uri>): (r: Shown)
    ensures ShownFaithfully(r, n, collapsed)
    decreases n
  {
    var uri := n.post.uri;
    Shown(uri, n.depth, |NodesOf(n.replies)| > 0, uri !in collapsed,
          if uri in collapsed then None else RenderReplies(n.replies, page, collapsed))
  }

  /** The URIs a rendered level shows, in order. */
  function ShownUris(level: Option<Level>): seq<Uri> {
    if level.None? then [] else seq(|level.value.items|, i requires 0 <= i < |level.value.items| => level.value.items[i].uri)
  }

  /** Turning the page only appends replies to a level: what was shown stays, in place. */
  lemma RevealGrows(replies: Replies, page: nat, collapsed: set<Uri>)
    ensures ShownUris(RenderReplies(replies, page, collapsed))
         <= ShownUris(RenderReplies(replies, page + 1, collapsed))
  {
  }

  /** Every reply of a level is shown once the page is large enough, and then no button shows. */
  lemma LastPageShowsAll(replies: Replies, page: nat, collapsed: set<Uri>)
    requires |NodesOf(replies)| <= page * Thread.PostsPerPage
    ensures ShownUris(RenderReplies(replies, page, collapsed))
         == seq(|NodesOf(replies)|, i requires 0 <= i < |NodesOf(replies)| => NodesOf(replies)[i].post.uri)
    ensures RenderReplies(replies, page, collapsed).Some? ==> !RenderReplies(replies, page, collapsed).value.loadMore
  {
  }

  // ----------------------------------------------------------------- onExpand

  /** What a click on a reply's expander does. */
  datatype Action = Toggle | Fetch

  /** `onExpand`: a collapsed node is re-opened, a never-expanded node is fetched, any other node is collapsed. */
  function OnExpand(uri: Uri, collapsed: set<Uri>, expanded: set<Uri>): (a: Action)
    ensures a == Fetch <==> uri !in collapsed && uri !in expanded
  {
    if uri in collapsed then Toggle
    else if uri !in expanded then Fetch
    else Toggle
  }

  /** The thread state after a click on the expander of `uri`. */
  function Click(st: Thread.ThreadState, uri: Uri, fetch: Uri -> Thread.Response): (r: Thread.ThreadState)
    ensures uri in st.collapsed ==> r == st.(collapsed := st.collapsed - {uri})
    ensures uri !in st.collapsed && uri in st.expanded ==> r == st.(collapsed := st.collapsed + {uri})
    ensures uri !in st.collapsed && uri !in st.expanded ==> r == Thread.HandleExpandReplies(st, uri, fetch)
  {
    match OnExpand(uri, st.collapsed, st.expanded)
    case Toggle => st.(collapsed := Thread.ToggleReplies(st.collapsed, uri))
    case Fetch => Thread.HandleExpandReplies(st, uri, fetch)
  }

  /** On an expanded, open node two clicks hide and re-show its children and restore the state. */
  lemma {:induction false} ClickTwiceRestores(st: Thread.ThreadState, uri: Uri, fetch: Uri -> Thread.Response)
    requires uri in st.expanded && uri !in st.collapsed
    ensures uri in Click(st, uri, fetch).collapsed
    ensures Click(Click(st, uri, fetch), uri, fetch) == st
  {
    var once := Click(st, uri, fetch);
    assert once.collapsed - {uri} == st.collapsed;
  }

  /**
   * The first click on a node fetches it; when the fetch returns a thread the
   * node is expanded and stays open, so the next click collapses it.
   */
  lemma FirstClickThenCollapse(st: Thread.ThreadState, uri: Uri, fetch: Uri -> Thread.Response)
    requires uri !in st.expanded && uri !in st.collapsed
    requires fetch(uri).Success? && Thread.IsThreadViewPost(fetch(uri).thread)
    ensures uri in Click(st, uri, fetch).expanded && uri !in Click(st, uri, fetch).collapsed
    ensures uri in Click(Click(st, uri, fetch), uri, fetch).collapsed
  {
  }
}

=== FILE: types.dfy ===
/**
 * The data the client receives from the social protocol, reduced to the
 * fields the modelled code reads. Optional fields of the protocol's JSON are
 * `Option`s; `None` is JavaScript's `undefined`.
 */
module Types {
  import opened Wrappers

  type Uri = string

  datatype Author = Author(handle: string)

  /** The current viewer's own like and repost records on a post, if any. */
  datatype Viewer = Viewer(like: Option<Uri>, repost: Option<Uri>)

  /**
   * A present `reply` key of a post record. `parentUri` is `Some` exactly when
   * `reply.parent.uri` is a string; a null `reply`, a missing `parent` or a
   * missing or non-string `uri` are all `None`.
   */
  datatype ReplyRef = ReplyRef(parentUri: Option<Uri>)

  /** A rich-text feature: `$type` plus the `did` of a mention or the `uri` of a link. */
  datatype Feature = Feature(typ: string, did: Option<string>, uri: Option<Uri>)

  /** A rich-text facet: a UTF-8 byte range of the text and its features. */
  datatype Facet = Facet(byteStart: nat, byteEnd: nat, features: seq<Feature>)

  /**
   * The embed of a post record: its `$type` (absent when the key is missing),
   * the `record.uri` every `app.bsky.embed.record` carries, and the
   * `external.uri` of an external-link embed.
   */
  datatype RecordEmbed = RecordEmbed(typ: Option<string>, quotedUri: Uri, externalUri: Option<Uri>)

  /** A post's record: a value that is not an object, or a post record. */
  datatype Record =
    | NonObject
    | PostRecord(text: string, reply: Option<ReplyRef>, facets: Option<seq<Facet>>, embed: Option<RecordEmbed>)

  /** The resolved ("view") embed of a post: its `$type` and the quoted author's handle. */
  datatype EmbedView = EmbedView(typ: string, authorHandle: Option<string>)

  /** A post as the protocol's views return it. */
  datatype PostView = PostView(
    uri: Uri,
    cid: string,
    author: Author,
    record: Record,
    embed: Option<EmbedView>,
    likeCount: Option<nat>,
    repostCount: Option<nat>,
    replyCount: Option<nat>,
    viewer: Option<Viewer>)

  /** Why a post is in a feed (for example a repost by someone followed); carried along, never inspected. */
  datatype Reason = Reason(typ: string)

  /** One item of a feed: a post and the reason it is shown. */
  datatype FeedItem = FeedItem(post: PostView, reason: Option<Reason>)

  /** A node of the reply tree of a thread: `replies` may be absent, `depth` is set by depth annotation. */
  datatype ThreadNode = ThreadNode(post: PostView, replies: Replies, depth: Option<int>)

  /** The `replies` field of a thread node: absent (`undefined`) or an array. */
  datatype Replies = Absent | Present(nodes: seq<ThreadNode>)

  /** JavaScript's `n || 0` on an optional count. */
  function Count(n: Option<nat>): nat {
    n.GetOr(0)
  }

  /** JavaScript truthiness of an optional string: present and not empty. */
  predicate Truthy(s: Option<string>) {
    s.Some? && s.value != ""
  }

  /** The like count a sort compares, with a missing count read as 0. */
  function Likes(n: ThreadNode): nat {
    Count(n.post.likeCount)
  }

  /** The nodes of a `replies` field, with an absent field read as empty. */
  function NodesOf(r: Replies): seq<ThreadNode> {
    if r.Present? then r.nodes else []
  }
}

=== FILE: utf.dfy ===
/**
 * The text encodings behind `byteToStringIndex`
 * (src/components/post-card/use-rich-text.tsx): facets address a post's text
 * by UTF-8 byte offsets (RFC 3629), the text itself is a JavaScript string of
 * UTF-16 code units (RFC 2781), and the two are bridged with the WHATWG
 * Encoding Standard's `TextEncoder` and `TextDecoder`. A Dafny `string` is a
 * sequence of Unicode scalar values, so it is always well formed.
 */
module Utf {
  import opened Wrappers

  newtype byte = x: int | 0 <= x < 256

  /** A UTF-16 code unit. */
  type Unit = x: int | 0 <= x < 0x1_0000

  // ------------------------------------------------------------------- UTF-8

  /** Bytes in the UTF-8 form of `c` (the table of section 3 of RFC 3629). */
  function Width8(c: char): nat {
    var v := c as int;
    if v < 0x80 then 1 else if v < 0x800 then 2 else if v < 0x1_0000 then 3 else 4
  }

  predicate IsContinuation(b: byte) {
    0x80 <= b < 0xC0
  }

  /** The UTF-8 form of one scalar value: a lead byte announcing the length, then continuation bytes. */
  function EncodeChar(c: char): (bs: seq<byte>)
    ensures |bs| == Width8(c)
    ensures forall i :: 1 <= i < |bs| ==> IsContinuation(bs[i])
    ensures !IsContinuation(bs[0])
  {
    var v := c as int;
    if v < 0x80 then [v as byte]
    else if v < 0x800 then [(0xC0 + v / 64) as byte, (0x80 + v % 64) as byte]
    else if v < 0x1_0000 then [(0xE0 + v / 64 / 64) as byte, (0x80 + v / 64 % 64) as byte, (0x80 + v % 64) as byte]
    else [(0xF0 + v / 64 / 64 / 64) as byte, (0x80 + v / 64 / 64 % 64) as byte, (0x80 + v / 64 % 64) as byte, (0x80 + v % 64) as byte]
  }

  /** `TextEncoder.encode`. */
  function Encode(s: string): seq<byte>
    decreases |s|
  {
    if s == [] then [] else EncodeChar(s[0]) + Encode(s[1..])
  }

  /** Whether `v` is a Unicode scalar value, the values a `char` holds. */
  predicate IsScalar(v: int) {
    (0 <= v < 0xD800) || (0xE000 <= v < 0x11_0000)
  }

  /**
   * The first character of well-formed UTF-8 and the number of bytes it
   * takes; `None` for an ill-formed start: a stray continuation byte, a
   * truncated sequence, an overlong form, a surrogate or a value above
   * U+10FFFF (section 4 of RFC 3629).
   */
  function DecodeChar(bs: seq<byte>): (r: Option<(char, nat)>)
    ensures r.Some? ==> 1 <= r.value.1 <= |bs| && r.value.1 == Width8(r.value.0)
  {
    if bs == [] then None
    else
      var b0 := bs[0] as int;
      if b0 < 0x80 then Some((b0 as char, 1))
      else if 0xC2 <= b0 < 0xE0 then
        if |bs| < 2 || !IsContinuation(bs[1]) then None
        else
          var v := (b0 - 0xC0) * 64 + (bs[1] as int - 0x80);
          Some((v as char, 2))
      else if 0xE0 <= b0 < 0xF0 then
        if |bs| < 3 || !IsContinuation(bs[1]) || !IsContinuation(bs[2]) then None
        else
          var v := ((b0 - 0xE0) * 64 + (bs[1] as int - 0x80)) * 64 + (bs[2] as int - 0x80);
          if v < 0x800 || !IsScalar(v) then None else Some((v as char, 3))
      else if 0xF0 <= b0 < 0xF5 then
        if |bs| < 4 || !IsContinuation(bs[1]) || !IsContinuation(bs[2]) || !IsContinuation(bs[3]) then None
        else
          var v := (((b0 - 0xF0) * 64 + (bs[1] as int - 0x80)) * 64 + (bs[2] as int - 0x80)) * 64 + (bs[3] as int - 0x80);
          if v < 0x1_0000 || 0x11_0000 <= v then None else Some((v as char, 4))
      else None
  }

  /** Strict UTF-8 decoding: the text, or `None` if the bytes are not well formed. */
  function Decode(bs: seq<byte>): Option<string>
    decreases |bs|
  {
    if bs == [] then Some([])
    else match DecodeChar(bs)
      case None => None
      case Some((c, n)) =>
        match Decode(bs[n..])
        case None => None
        case Some(rest) => Some([c] + rest)
  }

  /** Splitting off the low six bits and putting them back. */
  lemma Digit(v: int)
    requires v >= 0
    ensures v == v / 64 * 64 + v % 64 && 0 <= v % 64 < 64 && v / 64 >= 0
  {
  }

  lemma Undigit(h: int, l: int)
    requires h >= 0 && 0 <= l < 64
    ensures (h * 64 + l) / 64 == h && (h * 64 + l) % 64 == l
  {
  }

  lemma DecodeEncodeChar(c: char, rest: seq<byte>)
    ensures DecodeChar(EncodeChar(c) + rest) == Some((c, Width8(c)))
  {
    var v := c as int;
    Digit(v);
    Digit(v / 64);
    Digit(v / 64 / 64);
  }

  /** Decoding undoes encoding. */
  lemma {:induction false} DecodeEncode(s: string)
    ensures Decode(Encode(s)) == Some(s)
    decreases |s|
  {
    if s != [] {
      var head := EncodeChar(s[0]);
      DecodeEncodeChar(s[0], Encode(s[1..]));
      assert (head + Encode(s[1..]))[|head|..] == Encode(s[1..]);
      DecodeEncode(s[1..]);
      assert [s[0]] + s[1..] == s;
    }
  }

  lemma EncodeTwo(b0: byte, b1: byte)
    requires 0xC2 <= b0 < 0xE0 && IsContinuation(b1)
    ensures var v := (b0 as int - 0xC0) * 64 + (b1 as int - 0x80);
      0x80 <= v < 0x800 && EncodeChar(v as char) == [b0, b1]
  {
    Undigit(b0 as int - 0xC0, b1 as int - 0x80);
  }

  lemma EncodeThree(b0: byte, b1: byte, b2: byte)
    requires 0xE0 <= b0 < 0xF0 && IsContinuation(b1) && IsContinuation(b2)
    ensures var v := ((b0 as int - 0xE0) * 64 + (b1 as int - 0x80)) * 64 + (b2 as int - 0x80);
      v < 0x1_0000 && (0x800 <= v && IsScalar(v) ==> EncodeChar(v as char) == [b0, b1, b2])
  {
    var h := (b0 as int - 0xE0) * 64 + (b1 as int - 0x80);
    Undigit(h, b2 as int - 0x80);
    Undigit(b0 as int - 0xE0, b1 as int - 0x80);
  }

  lemma EncodeFour(b0: byte, b1: byte, b2: byte, b3: byte)
    requires 0xF0 <= b0 < 0xF5 && IsContinuation(b1) && IsContinuation(b2) && IsContinuation(b3)
    ensures var v := (((b0 as int - 0xF0) * 64 + (b1 as int - 0x80)) * 64 + (b2 as int - 0x80)) * 64 + (b3 as int - 0x80);
      0x1_0000 <= v < 0x11_0000 ==> EncodeChar(v as char) == [b0, b1, b2, b3]
  {
    var h := (b0 as int - 0xF0) * 64 + (b1 as int - 0x80);
    var hh := h * 64 + (b2 as int - 0x80);
    Undigit(hh, b3 as int - 0x80);
    Undigit(h, b2 as int - 0x80);
    Undigit(b0 as int - 0xF0, b1 as int - 0x80);
  }

  lemma EncodeDecodeChar(bs: seq<byte>)
    requires DecodeChar(bs).Some?
    ensures EncodeChar(DecodeChar(bs).value.0) == bs[..DecodeChar(bs).value.1]
  {
    var b0 := bs[0] as int;
    if b0 < 0x80 {
      assert bs[..1] == [bs[0]];
    } else if 0xC2 <= b0 < 0xE0 {
      EncodeTwo(bs[0], bs[1]);
      assert bs[..2] == [bs[0], bs[1]];
    } else if 0xE0 <= b0 < 0xF0 {
      EncodeThree(bs[0], bs[1], bs[2]);
      assert bs[..3] == [bs[0], bs[1], bs[2]];
    } else {
      EncodeFour(bs[0], bs[1], bs[2], bs[3]);
      assert bs[..4] == [bs[0], bs[1], bs[2], bs[3]];
    }
  }

  /** One step of a successful decoding: the first character, then the decoding of the rest. */
  lemma DecodeStep(bs: seq<byte>)
    requires bs != [] && Decode(bs).Some?
    ensures DecodeChar(bs).Some?
    ensures var n := DecodeChar(bs).value.1;
      Decode(bs[n..]).Some? && Decode(bs).value == [DecodeChar(bs).value.0] + Decode(bs[n..]).value
  {
  }

  /** Encoding undoes decoding: every well-formed byte string has exactly one decoding. */
  lemma {:induction false} EncodeDecode(bs: seq<byte>)
    requires Decode(bs).Some?
    ensures Encode(Decode(bs).value) == bs
    decreases |bs|
  {
    if bs != [] {
      DecodeStep(bs);
      var n := DecodeChar(bs).value.1;
      EncodeDecodeChar(bs);
      EncodeDecode(bs[n..]);
      EncodeCons(DecodeChar(bs).value.0, Decode(bs[n..]).value, bs, n);
    }
  }

  /** A character's bytes followed by the rest's bytes are the whole. */
  lemma EncodeCons(c: char, rest: string, bs: seq<byte>, n: nat)
    requires n <= |bs| && EncodeChar(c) == bs[..n] && Encode(rest) == bs[n..]
    ensures Encode([c] + rest) == bs
  {
    assert ([c] + rest)[1..] == rest;
    assert bs == bs[..n] + bs[n..];
  }

  lemma {:induction false} EncodeConcat(a: string, b: string)
    ensures Encode(a + b) == Encode(a) + Encode(b)
    decreases |a|
  {
    if a != [] {
      assert (a + b)[1..] == a[1..] + b;
      EncodeConcat(a[1..], b);
      assert Encode(a + b) == EncodeChar(a[0]) + Encode(a[1..] + b);
    } else {
      assert a + b == b;
    }
  }

  // ------------------------------------------------------------------ UTF-16

  /** The code units of one scalar value: itself, or a surrogate pair above U+FFFF. */
  function EncodeChar16(c: char): (us: seq<Unit>)
    ensures 1 <= |us| <= 2
    ensures |us| == 1 <==> (c as int) < 0x1_0000
  {
    var v := c as int;
    if v < 0x1_0000 then [v]
    else [0xD800 + (v - 0x1_0000) / 0x400, 0xDC00 + (v - 0x1_0000) % 0x400]
  }

  /** The JavaScript string holding `s`; its `length` counts these units. */
  function Utf16(s: string): seq<Unit>
    decreases |s|
  {
    if s == [] then [] else EncodeChar16(s[0]) + Utf16(s[1..])
  }

  lemma {:induction false} Utf16Concat(a: string, b: string)
    ensures Utf16(a + b) == Utf16(a) + Utf16(b)
    decreases |a|
  {
    if a != [] {
      assert (a + b)[1..] == a[1..] + b;
      Utf16Concat(a[1..], b);
      assert Utf16(a + b) == EncodeChar16(a[0]) + Utf16(a[1..] + b);
    } else {
      assert a + b == b;
    }
  }

  // ------------------------------------------------------------ byte offsets

  /**
   * `byteToStringIndex` as intended: the UTF-16 length of what the first
   * `byteIndex` bytes of the text's UTF-8 form decode to (all of it when the
   * index is past the end). Whole characters contribute their UTF-16 length;
   * a character cut short contributes one replacement character U+FFFD, the
   * decoder's end-of-input rule. The source's decoder also drops a leading
   * byte-order mark; that computation is `ByteToStringIndexAsWritten`.
   */
  function ByteToStringIndex(text: string, byteIndex: nat): (r: nat)
    ensures r <= |Utf16(text)|
    decreases |text|
  {
    if text == [] || byteIndex == 0 then 0
    else
      var w := Width8(text[0]);
      if byteIndex < w then 1
      else |EncodeChar16(text[0])| + ByteToStringIndex(text[1..], byteIndex - w)
  }

  /**
   * At the boundary after `k` characters, the bytes decode to exactly those
   * characters, and the index is the length of their UTF-16 form.
   */
  lemma {:induction false} BoundaryIndex(text: string, k: nat)
    requires k <= |text|
    ensures var b := |Encode(text[..k])|;
      && Encode(text) == Encode(text[..k]) + Encode(text[k..])
      && Encode(text)[..b] == Encode(text[..k])
      && Decode(Encode(text)[..b]) == Some(text[..k])
      && ByteToStringIndex(text, b) == |Utf16(text[..k])|
    decreases k
  {
    assert text == text[..k] + text[k..];
    EncodeConcat(text[..k], text[k..]);
    DecodeEncode(text[..k]);
    if k > 0 {
      var tail := text[1..];
      assert tail[..k - 1] == text[1..k];
      BoundaryIndex(tail, k - 1);
      assert text[..k] == [text[0]] + tail[..k - 1];
      assert Encode(text[..k]) == EncodeChar(text[0]) + Encode(tail[..k - 1]);
      assert Utf16(text[..k]) == EncodeChar16(text[0]) + Utf16(tail[..k - 1]);
    }
  }

  /** More bytes never give a smaller index. */
  lemma {:induction false} IndexMonotone(text: string, a: nat, b: nat)
    requires a <= b
    ensures ByteToStringIndex(text, a) <= ByteToStringIndex(text, b)
    decreases |text|
  {
    if text != [] && a != 0 {
      var w := Width8(text[0]);
      if a >= w {
        IndexMonotone(text[1..], a - w, b - w);
      } else if b >= w {
        assert |EncodeChar16(text[0])| >= 1;
      }
    }
  }

  /** The byte-order mark U+FEFF (UTF-8 `EF BB BF`). */
  const Bom: char := '\U{FEFF}'

  /**
   * `byteToStringIndex` exactly as the source computes it. `new TextDecoder()`
   * leaves `ignoreBOM` off, so `decode` drops a U+FEFF at the start of its
   * output (the "serialize I/O queue" step of the WHATWG Encoding Standard).
   * On text starting with U+FEFF every cut from the third byte on is therefore
   * one unit short; everywhere else it is the intended index.
   */
  function ByteToStringIndexAsWritten(text: string, byteIndex: nat): (r: nat)
    ensures text == [] || text[0] != Bom ==> r == ByteToStringIndex(text, byteIndex)
    ensures r <= ByteToStringIndex(text, byteIndex) <= r + 1
  {
    if text != [] && text[0] == Bom && byteIndex >= Width8(Bom) then ByteToStringIndex(text, byteIndex) - 1
    else ByteToStringIndex(text, byteIndex)
  }

  /**
   * At the boundary after `k` characters the source's index is the UTF-16
   * length of those characters without a leading U+FEFF.
   */
  lemma BoundaryIndexAsWritten(text: string, k: nat)
    requires k <= |text|
    ensures ByteToStringIndexAsWritten(text, |Encode(text[..k])|)
         == |Utf16(text[..k])| - (if k > 0 && text[0] == Bom then 1 else 0)
  {
    BoundaryIndex(text, k);
    if k > 0 && text[0] == Bom {
      assert text[..k] == [text[0]] + text[1..k];
      EncodeConcat([text[0]], text[1..k]);
      assert Encode([text[0]]) == EncodeChar(text[0]);
      Utf16Concat([text[0]], text[1..k]);
      assert Utf16([text[0]]) == EncodeChar16(text[0]);
    }
  }

  /**
   * The source's index goes backwards on text starting with U+FEFF: two bytes
   * of the mark give one U+FFFD, all three give nothing.
   */
  lemma BomIndexNotMonotone(rest: string)
    ensures ByteToStringIndexAsWritten([Bom] + rest, 2) == 1
    ensures ByteToStringIndexAsWritten([Bom] + rest, 3) == 0
  {
    var text := [Bom] + rest;
    assert text[0] == Bom && text[1..] == rest;
    assert Width8(Bom) == 3 && |EncodeChar16(Bom)| == 1;
    assert ByteToStringIndex(text, 2) == 1;
    assert ByteToStringIndex(text, 3) == 1 + ByteToStringIndex(rest, 0);
  }

  /** On ASCII text a byte offset is a string offset (clamped to the length). */
  lemma {:induction false} AsciiIdentity(text: string, byteIndex: nat)
    requires forall i :: 0 <= i < |text| ==> (text[i] as int) < 0x80
    ensures ByteToStringIndex(text, byteIndex) == if byteIndex <= |text| then byteIndex else |text|
    ensures |Utf16(text)| == |text| && |Encode(text)| == |text|
    decreases |text|
  {
    if text != [] {
      AsciiIdentity(text[1..], if byteIndex == 0 then 0 else byteIndex - 1);
      if byteIndex != 0 {
        AsciiIdentity(text[1..], byteIndex - 1);
      }
    }
  }
}

=== FILE: wrappers.dfy ===
/**
 * Optional values (JavaScript's `undefined`/`null`, or a field that is
 * absent) and the first-match search over a sequence.
 */
module Wrappers {

  datatype Option<+T> = None | Some(value: T) {

    /** The value if present, otherwise `default` (JavaScript's `x || default` on a present-or-absent field). */
    function GetOr(default: T): T {
      match this
      case Some(v) => v
      case None => default
    }
  }

  /** `Array.prototype.find`: the first element satisfying `p`, if any. */
  function Find<T>(xs: seq<T>, p: T -> bool): (r: Option<T>)
    ensures r.Some? <==> exists i :: 0 <= i < |xs| && p(xs[i])
    ensures r.Some? ==> exists i :: 0 <= i < |xs| && xs[i] == r.value && p(r.value) && forall j :: 0 <= j < i ==> !p(xs[j])
    decreases |xs|
  {
    if xs == [] then None
    else if p(xs[0]) then Some(xs[0])
    else
      var r := Find(xs[1..], p);
      assert forall i :: 0 <= i < |xs[1..]| ==> xs[1..][i] == xs[i + 1];
      r
  }
}
